=== FILE: README.md ===
# Challenger: a model of the crux / profile / challenge / submission program and its client

Challenger is a Solana program built with Anchor, with a TypeScript client. A **crux** is a community run by a crux
manager. It owns a **treasury** that collects profile fees. Members open a **user profile** in a crux. Moderators are
profiles flagged `is_moderator`; they post and edit **challenges**. Members answer challenges with **submissions**,
which a moderator evaluates. Every account other than the crux itself lives at a program-derived address (PDA). A PDA
is found by hashing a seed list, a one-byte bump and the program id, searching bumps from 255 down until the hash is
not a curve point.

This project models that core in Dafny and proves properties of the model:

- **`Pda`** (`pda.dfy`): `create_program_address` and the bump search over an abstract hash and on-curve test. Also
  the five seed layouts of `src/challenger.pda.ts` and the program's `seeds = [...]` constraints. It proves:
  - the search returns the canonical bump;
  - the seed encodings are injective;
  - distinct seed tuples give distinct addresses, under a stated collision-freedom hypothesis;
  - a signer key is never a derived address.
- **`State`** and **`Borsh`** (`state.dfy`, `borsh.dfy`): the account structs `Crux`, `CruxFees`, `CruxCounts`,
  `UserProfile`, `Challenge` and `Tags`, with their Borsh layouts. It proves the byte offsets and the round trips of
  the fixed-size records.
- **`Filters`** (`filters.dfy`): the `memcmp` filters of the client's `fetchAll…PDAs` scans. The crux, user-profile
  and challenge scans are proved to select exactly the accounts whose field equals the key.
- **`Accounts`** (`accounts.dfy`): an account as a class with lamports, data size, a live flag and typed data. It
  also has the lamport moves shared by the handlers: Anchor `init` funding, closing, and rent-exempt `realloc` growth.
- **One module per handler**: `init_crux`, `update_crux_params`, `payout_from_treasury`, `close_crux`,
  `create_user_profile`, `edit_user_profile`, `delete_user_profile`, `add_moderator`, `edit_challenge`,
  `delete_challenge`, `edit_submission` and `delete_submission`, plus the forum's `edit_question` and
  `add_content_to_answer`. Each handler is modelled twice:
  - a pure `Outcome` function gives the new account values, or the error the handler stops with;
  - a `Handler` method mutates the account objects. Its contract says that on success the accounts equal the
    `Outcome`, and that on error nothing changes (transaction atomicity).

  `edit_submission` has both pairs: `OutcomeAsWritten` and `HandlerAsWritten` follow the code as it stands, while
  `Outcome` and `Handler` are the corrected behaviour described under "## Findings".

  Anchor account constraints (`seeds`, `has_one`, `Signer`) become `requires` clauses.
- **`Surface`** (`surface.dfy`): the entry points of `lib.rs`. It covers their parameter lists, which arguments they
  forward to each handler, and in which order.
- **`Client`** (`client.dfy`): the `ChallengerClient` class and each transaction builder. A builder is a function
  from the client's environment and the fetched ledger to the instruction it would send: the entry point, its
  arguments, its accounts and its signers. The module proves that every address a builder derives is the PDA the
  program's seed constraints expect. `addModerator` and `removeModerator` are the exception: they send the
  caller-supplied profile key and only re-derive its bump, so that key is the expected PDA only when the profile is
  stored at its own derived address (`Client.ModeratorProfileIsRederived`).
- **`Render`** (`render.dfy`): `render-types.ts`, which turns public keys and big numbers into strings (and back into
  big numbers) inside JavaScript values. The loops are `method`s, proved against recursive specification functions.
  The module proves idempotence and fixed points.

## Model

| member | source | states |
|---|---|---|
| Types.ZeroBytes | programs/challenger/src/instructions/create_user_profile.rs:65 | n zero bytes: the all-zero key a new profile's picture mint is left at |
| Types.Ascii | src/challenger.pda.ts:13 | an ASCII string encodes to one byte per character with the same code |
| Types.TryAdd | programs/challenger/src/instructions/create_user_profile.rs:70 | checked u64 addition: succeeds iff the sum fits in u64, then gives the sum; otherwise an arithmetic error |
| Types.TrySub | programs/challenger/src/instructions/delete_user_profile.rs:39 | checked u64 subtraction: succeeds iff it does not underflow, and result + subtrahend == minuend; otherwise an arithmetic error |
| Pda.CreateProgramAddress | src/challenger.pda.ts:4-9 | an address exists iff the hash of seeds ‖ program id ‖ marker is off the curve, and it is that hash |
| Pda.SearchBump | src/challenger.pda.ts:4-9 | the bump found is the largest bump ≤ the start that gives an off-curve address; no bump found means none in range works |
| Pda.FlattenAppend | src/challenger.pda.ts:18-23 | concatenating seeds distributes over appending a seed |
| Pda.Flatten3 | src/challenger.pda.ts:18-23 | the bytes of a three-seed list are the three seeds concatenated |
| Pda.SeedBytes | src/challenger.pda.ts:4-37 | the byte string hashed for each PDA kind is its literal prefix followed by its keys, with the stated length |
| Pda.SeedBytesInjective | src/challenger.pda.ts:4-37 | two seed tuples (of any kinds) with the same seed bytes are the same tuple |
| Pda.BumpedPrefix | src/challenger.pda.ts:4-9 | equal bumped hash inputs with the same suffix have equal seed bytes |
| Pda.HashInputBumped | src/challenger.pda.ts:4-9 | the hash input of seeds plus a bump is seed bytes, bump, program id, marker |
| Pda.SameInputSameSeedBytes | src/challenger.pda.ts:4-9 | two bumped derivations hashing the same input have the same seed bytes |
| Pda.DistinctSeedsDistinctAddresses | src/challenger.pda.ts:4-37 | under collision-freedom, different crux/profile/challenge/submission tuples derive different addresses |
| Pda.DerivedIsCanonical | src/challenger.pda.ts:4-37 | a derived address comes from its bump, and no larger bump works; no derivation iff no bump works |
| Pda.DerivedMeetsConstraints | programs/challenger/src/instructions/create_user_profile.rs:23-24 | a client-derived address and bump pass both the `seeds, bump = b` check and the canonical `bump` check |
| Pda.SignerIsNotDerived | programs/challenger/src/instructions/init_crux.rs:17-21 | a signing (on-curve) key never equals an address passing a seeds check |
| Pda.ForumProfileSeedsDiffer | programs/forum/src/instructions/edit_question.rs:20 | forum profile seeds (no crux key) never collide with challenger profile seeds |
| State.CruxSeedsSignForAuthority | programs/challenger/src/state/crux.rs:35-37 | for a crux whose stored authority is the canonical PDA of its seed, `crux_seeds()` re-creates that authority address |
| Borsh.Str | programs/challenger/src/state/challenge.rs:25-27 | a Borsh string is 4 length bytes followed by exactly its bytes |
| Borsh.TagIndex | programs/challenger/src/state/tags.rs:6-19 | each tag is stored as its declaration index, which maps back to it |
| Borsh.Tags | programs/challenger/src/state/challenge.rs:23 | a tag vector is 4 length bytes then one index byte per tag, in order |
| Borsh.AccountData | programs/challenger/src/instructions/init_crux.rs:10 | account data is an 8-byte discriminator followed by the body |
| Borsh.CruxLayout | programs/challenger/src/state/crux.rs:10-31 | every Crux field sits at its fixed offset; the body is 171 bytes, within the asserted size |
| Borsh.UserProfileLayout | programs/challenger/src/state/user_profile.rs:7-37 | every UserProfile field sits at its fixed offset; the body is 137 bytes, within the asserted 144 |
| Borsh.ChallengeLayout | programs/challenger/src/state/challenge.rs:8-34 | the fixed Challenge fields sit at their offsets; the account length is the size edit_challenge computes |
| Borsh.DecodeBool | programs/challenger/src/state/user_profile.rs:35 | a bool byte decodes iff it is 0 or 1, and re-encodes to itself |
| Borsh.DecodeCrux | programs/challenger/src/state/crux.rs:10-31 | decoding succeeds iff there are at least 171 bytes |
| Borsh.DecodeUserProfile | programs/challenger/src/state/user_profile.rs:7-37 | decoding succeeds iff there are at least 137 bytes and the moderator byte is a bool |
| Borsh.U64RoundTrip | programs/challenger/src/state/crux_fees.rs:6-11 | little-endian u64 decodes back to the value |
| Borsh.LeRoundTrip | programs/challenger/src/state/crux_fees.rs:6-11 | little-endian encoding at any width decodes back to the number |
| Borsh.FromLeRoundTrip | programs/challenger/src/state/crux_fees.rs:6-11 | decoding then re-encoding any byte string gives it back |
| Borsh.FeesRoundTrip | programs/challenger/src/state/crux_fees.rs:6-11 | CruxFees round-trips through its 16 bytes |
| Borsh.CountsRoundTrip | programs/challenger/src/state/crux_counts.rs:6-14 | CruxCounts round-trips through its 24 bytes |
| Borsh.CruxRoundTrip | programs/challenger/src/state/crux.rs:10-31 | a serialized Crux, followed by any padding, decodes to the same Crux |
| Borsh.UserProfileRoundTrip | programs/challenger/src/state/user_profile.rs:7-37 | a serialized UserProfile, followed by any padding, decodes to the same profile |
| Filters.Optional | src/challenger.client.ts:120-139 | no key gives no filter; a key gives one memcmp at the offset |
| Filters.MatchesSingle | src/challenger.client.ts:162-176 | one filter matches exactly when its bytes match |
| Filters.NoKeyMatchesEverything | src/challenger.client.ts:120-218 | without a key, every account of the kind is returned |
| Filters.CruxFilterSelectsManager | src/challenger.client.ts:125 | the memcmp at offset 10 matches a crux iff its manager is the key |
| Filters.UserProfileFilterSelectsCrux | src/challenger.client.ts:146 | the memcmp at offset 40 matches a profile iff its crux is the key |
| Filters.UserProfileFilterSelectsOwner | src/challenger.client.ts:167 | the memcmp at offset 8 matches a profile iff its owner is the key |
| Filters.ChallengeFilterSelectsCrux | src/challenger.client.ts:178-197 | the memcmp at offset 8 matches a challenge iff its crux is the key |
| Filters.FetchAllCruxes | src/challenger.client.ts:120-139 | the scan returns exactly the cruxes with the given manager (all of them without one) |
| Filters.FetchAllUserProfiles | src/challenger.client.ts:141-160 | the scan returns exactly the profiles of the given crux (all without one) |
| Filters.FetchAllUserProfilesByOwner | src/challenger.client.ts:162-176 | the scan returns exactly the profiles owned by the key |
| Filters.FetchAllChallenges | src/challenger.client.ts:178-197 | the scan returns exactly the challenges of the given crux (all without one) |
| Accounts.Account.constructor | programs/challenger/src/instructions/init_crux.rs:5-27 | an account object holds the given key and view |
| Accounts.Transfer | programs/challenger/src/instructions/create_user_profile.rs:32-42 | a system transfer succeeds iff the payer has enough and the receiver does not overflow; it moves exactly the amount and conserves the total |
| Accounts.InitFunding | programs/challenger/src/instructions/init_crux.rs:10 | `init` fails on a live account; otherwise it tops the account up to the rent minimum from the payer and conserves lamports |
| Accounts.Closed | programs/challenger/src/instructions/delete_user_profile.rs:34-35 | a closed account has no lamports and is no longer live |
| Accounts.CloseInto | programs/challenger/src/instructions/delete_user_profile.rs:34-35 | closing credits the receiver with the account's lamports, failing only on overflow |
| Accounts.Grow | programs/challenger/src/instructions/edit_challenge.rs:99-112 | no growth leaves balances and size; growth succeeds iff the basis is at most the new size's rent, the payer covers the difference, the account does not overflow and the increase is within the realloc limit; then the payer pays exactly rent(new size) − basis to the account (total conserved) and the size becomes the new size |
| Accounts.GrowLeavesRentExempt | programs/challenger/src/instructions/edit_challenge.rs:102-112 | when the basis is the account's own balance, growth leaves it holding exactly the rent of its new size |
| InitCruxHandler.Outcome | programs/challenger/src/instructions/init_crux.rs:29-60 | a live crux fails; on success the crux holds version 0, the manager, authority, seed, treasury, the fees and zero counts, its authority is canonical, both accounts are rent-exempt, lamports are conserved |
| InitCruxHandler.ConstraintsLeaveOnlyBumpFailures | programs/challenger/src/instructions/init_crux.rs:33-41 | with the seed constraints met, the handler's derivations never fail, and its authority assertion fails only when the supplied bump is not canonical |
| InitCruxHandler.SignerIsNotTreasury | programs/challenger/src/instructions/init_crux.rs:13-21 | the manager (a signer) cannot be the treasury PDA |
| InitCruxHandler.Commit | programs/challenger/src/instructions/init_crux.rs:29-60 | writes the crux, treasury and manager balance of a post-state |
| InitCruxHandler.Handler | programs/challenger/src/instructions/init_crux.rs:29-60 | the accounts become `Outcome`'s, or are unchanged with its error |
| UpdateCruxParamsHandler.WithFees | programs/challenger/src/instructions/update_crux_params.rs:17-24 | only the fees change, to the new fees |
| UpdateCruxParamsHandler.WithFeesKeepsAuthority | programs/challenger/src/instructions/update_crux_params.rs:17-24 | updating fees preserves the authority-consistency invariant |
| UpdateCruxParamsHandler.WithFeesLastWins | programs/challenger/src/instructions/update_crux_params.rs:17-24 | two updates equal the last one |
| UpdateCruxParamsHandler.Handler | programs/challenger/src/instructions/update_crux_params.rs:17-24 | the crux data becomes `WithFees`, nothing else changes |
| PayoutFromTreasuryHandler.Outcome | programs/challenger/src/instructions/payout_from_treasury.rs:27-45 | fails iff the treasury is below the 16-byte rent minimum or the receiver overflows; on success the treasury keeps exactly the minimum and the receiver gets the surplus (conserved); when receiver is the treasury, only a zero payout succeeds |
| PayoutFromTreasuryHandler.PayoutDrainsSurplus | programs/challenger/src/instructions/payout_from_treasury.rs:27-45 | a second payout succeeds and changes nothing |
| PayoutFromTreasuryHandler.Handler | programs/challenger/src/instructions/payout_from_treasury.rs:27-45 | balances become `Outcome`'s, or are unchanged with its error |
| CloseCruxHandler.Outcome | programs/challenger/src/instructions/close_crux.rs:29-51 | any remaining profile, challenge or submission gives NotAllCruxPDAsClosed; success iff none remain and the receiver does not overflow; then treasury and crux are closed into the receiver |
| CloseCruxHandler.Handler | programs/challenger/src/instructions/close_crux.rs:29-51 | the accounts become `Outcome`'s, or are unchanged with its error |
| CreateUserProfileHandler.Outcome | programs/challenger/src/instructions/create_user_profile.rs:45-74 | a live profile fails; on success a fresh non-moderator profile of owner and crux stamped `now`, the fee paid to the treasury, profile count +1 and nothing else in the crux changed, lamports conserved |
| CreateUserProfileHandler.CreateTwiceFails | programs/challenger/src/instructions/create_user_profile.rs:23-24 | creating the same profile again fails with AccountAlreadyInUse |
| CreateUserProfileHandler.Handler | programs/challenger/src/instructions/create_user_profile.rs:45-74 | the accounts become `Outcome`'s, or are unchanged with its error |
| EditUserProfileHandler.WithPicture | programs/challenger/src/instructions/edit_user_profile.rs:27-39 | only the picture mint and engagement time change |
| EditUserProfileHandler.Handler | programs/challenger/src/instructions/edit_user_profile.rs:27-39 | the profile becomes `WithPicture` of its old value |
| DeleteUserProfileHandler.Outcome | programs/challenger/src/instructions/delete_user_profile.rs:28-44 | succeeds iff the receiver does not overflow and the profile count is positive; the profile is closed into the receiver and the count drops by one, nothing else changes |
| DeleteUserProfileHandler.CreateThenDeleteRestoresCrux | programs/challenger/src/instructions/delete_user_profile.rs:28-44 | creating then deleting a profile leaves the crux exactly as it was |
| DeleteUserProfileHandler.Handler | programs/challenger/src/instructions/delete_user_profile.rs:28-44 | the accounts become `Outcome`'s, or are unchanged with its error |
| AddModeratorHandler.Promoted | programs/challenger/src/instructions/add_moderator.rs:25-32 | the profile becomes a moderator, nothing else changes |
| AddModeratorHandler.PromotedIdempotent | programs/challenger/src/instructions/add_moderator.rs:25-32 | promoting twice equals once; a moderator is unchanged |
| AddModeratorHandler.Handler | programs/challenger/src/instructions/add_moderator.rs:25-32 | the profile becomes `Promoted` |
| EditChallengeHandler.Edited | programs/challenger/src/instructions/edit_challenge.rs:115-125 | title, url, tags, expiry, reputation and hash are the new ones; crux, seed and posting time are kept |
| EditChallengeHandler.Outcome | programs/challenger/src/instructions/edit_challenge.rs:53-129 | a non-moderator is refused; then, in the handler's order, an empty title or URL gives `InvalidStringInput`, one over 256 bytes `TitleOrUrlTooLong`, an expiry not after now `InvalidExpiryTs`; success iff moderator, both strings non-empty and at most 256 bytes, expiry in the future and growth affordable; then `Edited`, the size is the larger of the old and computed sizes, a grown account holds exactly the rent of its new size, a non-growing edit moves no lamports, lamports conserved |
| EditChallengeHandler.EditedChallengeFits | programs/challenger/src/instructions/edit_challenge.rs:94-112 | after a successful edit the serialized challenge fits in the account |
| EditChallengeHandler.Handler | programs/challenger/src/instructions/edit_challenge.rs:53-129 | the accounts become `Outcome`'s, or are unchanged with its error |
| DeleteChallengeHandler.Outcome | programs/challenger/src/instructions/delete_challenge.rs:36-61 | a non-moderator is refused; on success the challenge is closed into the receiver, challenge count −1 and the moderator's engagement time is `now` |
| DeleteChallengeHandler.Handler | programs/challenger/src/instructions/delete_challenge.rs:36-61 | the accounts become `Outcome`'s, or are unchanged with its error |
| EditSubmissionHandler.Resubmitted | programs/challenger/src/instructions/edit_submission.rs:114-119 | new url, hash and time, state back to Pending, challenge and author kept |
| EditSubmissionHandler.OutcomeAsWritten | programs/challenger/src/instructions/edit_submission.rs:57-122 | the handler as written: empty or over-long url refused; succeeds iff the url is valid, the challenge has ALREADY expired and growth priced against the challenge's balance is affordable; then `Resubmitted` (state reset to Pending), profile engagement `now`, a grown submission receives rent(new size) − the challenge's balance, a non-growing edit moves no lamports, lamports conserved |
| EditSubmissionHandler.Outcome | programs/challenger/src/instructions/edit_submission.rs:57-122 | empty or over-long url refused; an expired challenge, or a submission already accepted or rejected, refused with `AccountCannotBeEdited`; success iff none of these and growth affordable; then `Resubmitted`, profile engagement `now`, size the larger of old and computed, rent-exempt at the new size when grown, no lamports moved otherwise, lamports conserved |
| EditSubmissionHandler.OpenChallengeRefused | programs/challenger/src/instructions/edit_submission.rs:76-78 | on a challenge still open, the handler as written refuses with ChallengeExpired, where the intended one succeeds |
| EditSubmissionHandler.EditUnlocksAcceptedSubmission | programs/challenger/src/instructions/edit_submission.rs:114 | an accepted submission cannot be deleted, but after an edit as written it can; the intended edit refuses |
| EditSubmissionHandler.GrowthUnderpaid | programs/challenger/src/instructions/edit_submission.rs:100 | as written, growth can leave the submission below the rent of its new size |
| EditSubmissionHandler.IntendedGrowthIsRentExempt | programs/challenger/src/instructions/edit_submission.rs:94-106 | the intended edit leaves the submission holding the rent of its new size, or untouched when it does not grow |
| EditSubmissionHandler.IntendedEditKeepsResolvedLocked | programs/challenger/src/instructions/edit_submission.rs:114 | the intended edit refuses every submission that is no longer pending, so an evaluation is never undone |
| EditSubmissionHandler.EditReopensRejectedSubmission | programs/challenger/src/instructions/edit_submission.rs:114 | as written a rejected submission is edited back to Pending; the intended edit refuses |
| EditSubmissionHandler.HandlerAsWritten | programs/challenger/src/instructions/edit_submission.rs:57-122 | the instruction as written: the accounts become `OutcomeAsWritten`'s, or are unchanged with its error |
| EditSubmissionHandler.Handler | programs/challenger/src/instructions/edit_submission.rs:57-122 | the accounts become the intended `Outcome`'s, or are unchanged with its error |
| DeleteSubmissionHandler.Outcome | programs/challenger/src/instructions/delete_submission.rs:40-71 | an accepted submission is refused; success iff not accepted, no overflow, both counts positive; then closed into the receiver, both counts −1, engagement `now` |
| DeleteSubmissionHandler.Handler | programs/challenger/src/instructions/delete_submission.rs:40-71 | the accounts become `Outcome`'s, or are unchanged with its error |
| EditQuestionHandler.Outcome | programs/forum/src/instructions/edit_question.rs:48-108 | empty title or content refused with `InvalidStringInputs`, then a title over its limit with `TitleTooLong`; success iff title within its limit and growth affordable; then new title, content, tag and time, author and seed kept, size the larger of old and computed, rent-exempt at the new size when grown, no lamports moved otherwise, lamports conserved |
| EditQuestionHandler.SecondEditPaysNothing | programs/forum/src/instructions/edit_question.rs:84-99 | repeating the same edit succeeds and moves no lamports |
| EditQuestionHandler.Handler | programs/forum/src/instructions/edit_question.rs:48-108 | the accounts become `Outcome`'s, or are unchanged with its error |
| AddContentToAnswerHandler.Outcome | programs/forum/src/instructions/add_content_to_answer.rs:48-89 | empty content refused; on success the content is appended, the account grows by the serialized length and holds exactly its new rent, lamports conserved |
| AddContentToAnswerHandler.AppendsAccumulate | programs/forum/src/instructions/add_content_to_answer.rs:60-87 | two appends concatenate both pieces and grow the account by both lengths plus two length prefixes |
| AddContentToAnswerHandler.Handler | programs/forum/src/instructions/add_content_to_answer.rs:48-89 | the accounts become `Outcome`'s, or are unchanged with its error |
| Surface.ForwardsExactlyNonBumps | programs/challenger/src/lib.rs:17-216 | each entry point forwards, in order, exactly its non-bump parameters |
| Surface.Pick | programs/challenger/src/lib.rs:17-216 | picking indices gives the elements at those indices |
| Surface.HandlerArgs | programs/challenger/src/lib.rs:17-216 | the forwarded arguments number the forwarded parameters and include no bump |
| Surface.ForwardingAgreesWithHandlers | programs/challenger/src/lib.rs:17-216 | for every modelled handler except edit_challenge and edit_submission, the forwarded types equal the handler's parameter types |
| Surface.EditChallengeArgumentOrder | programs/challenger/src/lib.rs:122-141 | edit_challenge forwards tags where the handler expects the title |
| Surface.EditSubmissionMissingUrl | programs/challenger/src/lib.rs:164-172 | edit_submission forwards nothing where the handler expects a url |
| Surface.FixedForwardingAgreesWithHandlers | programs/challenger/src/lib.rs:122-172 | with the corrected entry points, every modelled handler receives exactly its parameter types |
| Client.SignersOf | src/challenger.client.ts:49-51 | a keypair party signs, a bare public key does not |
| Client.ClientEnv | src/challenger.client.ts:59-69 | the client's environment derives PDAs as the program does |
| Client.Find | src/challenger.pda.ts:4-37 | finding a PDA succeeds iff a bump exists and returns that derivation |
| Client.FetchTreasuryBalance | src/challenger.client.ts:113-116 | the balance is that of the crux's derived treasury |
| Client.SentAddressPassesSeedChecks | src/challenger.pda.ts:4-37 | every address a builder derives passes the program's seed and canonical-bump checks |
| Client.TxSigMessage | src/challenger.client.ts:270-275 | an empty signature reports failure, otherwise the success message |
| Client.InitCrux | src/challenger.client.ts:238-285 | builds init_crux with the fees, signed by the crux keypair and the manager, sending the derived authority and treasury |
| Client.UpdateCruxParams | src/challenger.client.ts:287-322 | builds update_crux_params with the new fees, signed by the manager |
| Client.TreasuryDrain | src/challenger.client.ts:324-410 | a treasury builder succeeds iff the treasury derives, sends it with its bump and the receiver |
| Client.PayoutFromTreasury | src/challenger.client.ts:324-366 | builds a payout whose arguments match the entry point |
| Client.CloseCrux | src/challenger.client.ts:368-410 | builds a close_crux whose arguments match the entry point |
| Client.CreateUserProfile | src/challenger.client.ts:414-460 | builds create_user_profile sending the owner's derived profile and the treasury |
| Client.OwnProfile | src/challenger.client.ts:462-552 | an owner's profile builder succeeds iff the profile derives, and sends it with its bump |
| Client.EditUserProfile | src/challenger.client.ts:462-506 | sends the chosen mint to edit_user_profile |
| Client.DeleteUserProfile | src/challenger.client.ts:508-552 | sends the receiver to delete_user_profile |
| Client.ModeratorChange | src/challenger.client.ts:556-648 | a missing profile is an error; otherwise the profile is re-derived from its stored crux and owner and sent with the manager's signature |
| Client.AddModerator | src/challenger.client.ts:556-601 | builds add_moderator whose arguments match the entry point |
| Client.RemoveModerator | src/challenger.client.ts:603-648 | builds remove_moderator whose arguments match the entry point |
| Client.ModeratorProfileIsRederived | src/challenger.client.ts:556-648 | for a genuine profile the builder sends that very profile |
| Client.ChallengeFieldsFit | programs/challenger/src/lib.rs:102-141 | the challenge arguments are well typed iff expiry and reputation fit in u64 |
| Client.CreateChallenge | src/challenger.client.ts:652-715 | builds create_challenge with the fields in order, signed by the moderator, sending the derived moderator profile and challenge |
| Client.EditChallenge | src/challenger.client.ts:717-781 | a missing challenge is an error; otherwise builds edit_challenge with the fields in order for the challenge's crux and seed |
| Client.DeleteChallenge | src/challenger.client.ts:783-837 | a missing challenge is an error; otherwise builds delete_challenge for the re-derived challenge and the receiver |
| Client.RederivedChallengeIsRequested | src/challenger.client.ts:783-837 | for a genuine challenge the builder sends that very challenge |
| Client.CreateSubmission | src/challenger.client.ts:841-904 | builds create_submission sending the treasury, the caller's profile, the challenge and their submission PDA |
| Client.OwnSubmission | src/challenger.client.ts:906-1032 | builders for one's own submission send the caller's profile, the challenge and the submission derived from them |
| Client.EditSubmission | src/challenger.client.ts:906-968 | sends the new hash to edit_submission |
| Client.DeleteSubmission | src/challenger.client.ts:970-1032 | sends the receiver to delete_submission |
| Client.WrongOwnerSendsOtherSubmission | src/challenger.client.ts:906-1032 | called by someone other than the author, the builders send a different submission from the one requested |
| Client.EditSubmissionChecked | src/challenger.client.ts:906-968 | the corrected builder sends the requested submission and the url argument, or refuses |
| Client.DeleteSubmissionChecked | src/challenger.client.ts:970-1032 | the corrected builder sends the requested submission, or refuses |
| Client.CheckedRefusesWrongOwner | src/challenger.client.ts:906-1032 | the corrected builders refuse a caller who is not the author |
| Client.ModeratedSubmission | src/challenger.client.ts:1034-1178 | the moderator builders derive the author's profile, the challenge and the submission from the fetched accounts |
| Client.DeleteSubmissionModerator | src/challenger.client.ts:1034-1104 | as written: passes four bumps, the moderator profile's first, to a three-argument instruction |
| Client.ModeratorDeleteDoesNotMatch | src/challenger.client.ts:1066-1071 | the four bumps passed do not match the three-bump entry point |
| Client.DeleteSubmissionModeratorFixed | src/challenger.client.ts:1034-1104 | the corrected builder drops the extra bump, matches the entry point and keeps everything else |
| Client.ModeratorDeletion | src/challenger.client.ts:1034-1104 | the moderator deletion carries the derived accounts, the receiver and the moderator's signature |
| Client.EvaluateSubmission | src/challenger.client.ts:1106-1178 | builds evaluate_submission with the new state, signed by the moderator |
| Client.Evaluation | src/challenger.client.ts:1106-1178 | the evaluation carries the derived accounts and matches the entry point |
| Client.ModeratorSendsRequestedSubmission | src/challenger.client.ts:1034-1178 | for a genuine submission the moderator builders send that very submission |
| Client.CloseAccount | src/challenger.client.ts:1180-1204 | builds close_account for the signer and the account to close |
| Client.TagOfName | src/challenger.client.ts:14-25 | a recognised name maps to the tag of that name |
| Client.TagNamesRoundTrip | programs/challenger/src/state/tags.rs:6-19 | every program tag is recognised by its name |
| Client.TagValuesMostlyUnknown | src/challenger.client.ts:14-25 | the client's tag list names tags the program does not have |
| Client.TagValuesFixed | programs/challenger/src/state/tags.rs:6-19 | the corrected list has one entry per program tag, each name mapping back to its tag |
| Client.ChallengerClient.constructor | src/challenger.client.ts:59-69 | stores connection and wallet, sets the provider and the program (deployed with an idl and id, else the workspace one) |
| Client.ChallengerClient.SetProvider | src/challenger.client.ts:71-78 | the provider is built from the connection and wallet, nothing else changes |
| Client.ChallengerClient.SetChallengerProgram | src/challenger.client.ts:80-93 | the program is the deployed one with an idl and id, else the workspace one; nothing else changes |
| Render.Own | src/render-types.ts:54-70 | an own property lookup finds a property with that key iff one exists |
| Render.Keys | src/render-types.ts:54-70 | the key list of an object, in order |
| Render.IsPk | src/render-types.ts:33-39 | a value is a public key iff it is one or has an own `toBase58` function |
| Render.ParseType | src/render-types.ts:90-104 | null and undefined are "null", arrays "array", dates "date", objects and boxed numbers "object", other values their `typeof` |
| Render.Stringified | src/render-types.ts:41-52 | keys become base58, big numbers decimals, primitives are kept, arrays and objects keep their shape |
| Render.StringifiedObject | src/render-types.ts:54-70 | object rendering keeps the keys in order and converts each value with `Stringified` |
| Render.StringifiedArray | src/render-types.ts:72-88 | array rendering keeps the length and converts each element with `Stringified` |
| Render.StringifyPKsAndBNs | src/render-types.ts:41-52 | the method computes `Stringified` |
| Render.StringifyPKsAndBNsInObject | src/render-types.ts:54-70 | the loop over properties computes `StringifiedObject` |
| Render.StringifyPKsAndBNInArray | src/render-types.ts:72-88 | the loop over elements computes `StringifiedArray` |
| Render.StringifiedFunc | src/render-types.ts:41-52 | only a function renders to a function |
| Render.OwnFuncKept | src/render-types.ts:54-70 | an object has an own function under a name iff its rendering does |
| Render.StringifiedIsRendered | src/render-types.ts:41-88 | a rendered value contains no key and no big number |
| Render.RenderedIsFixed | src/render-types.ts:41-88 | rendering leaves an already rendered value unchanged |
| Render.StringifyIdempotent | src/render-types.ts:41-88 | rendering twice equals rendering once |
| Render.IndexKey | src/render-types.ts:14-15 | an array index key is a non-empty string of digits |
| Render.ToBNResult | src/render-types.ts:6-31 | numbers become big numbers, big numbers are kept, arrays become their index keys, objects keep their keys |
| Render.IndexKeys | src/render-types.ts:14-16 | the n index keys "0" … "n−1" |
| Render.ToBNFields | src/render-types.ts:19-27 | each property value is converted, keys kept |
| Render.ToBN | src/render-types.ts:6-31 | the method computes `ToBNResult` |
| Render.ToBNObject | src/render-types.ts:19-27 | the loop over enumerable fields computes `ToBNFields` |
| Render.ToBNArrayGivesIndices | src/render-types.ts:14-16 | `[7, 8]` becomes `["0", "1"]` as written, `[7n, 8n]` corrected |
| Render.ToBNUnwrapsPublicKey | src/render-types.ts:19-27 | a public key becomes a plain object of its `_bn`, no longer a key |
| Render.ToBNFixed | src/render-types.ts:6-31 | corrected conversion: arrays keep their length, converted elementwise |
| Render.ToBNFixedArray | src/render-types.ts:14-16 | each element converted |
| Render.ToBNFixedFields | src/render-types.ts:19-27 | each property converted, keys kept |
| Render.ToBNFixedIsAllBig | src/render-types.ts:6-31 | the corrected conversion leaves no plain number anywhere |
| Render.AllBigIsFixed | src/render-types.ts:6-31 | a value without plain numbers is left unchanged |
| Render.ToBNFixedIdempotent | src/render-types.ts:6-31 | converting twice equals converting once |

## Left out

- The SHA-256 hash, the on-curve test and the program id are parameters (`Pda.Deriver`). The only assumption about
  the hash is `Pda.CollisionFree`, stated where it is used.
- Network I/O is left out: the RPC connection, sending a transaction and awaiting its signature. A builder returns
  the instruction it would send, and `Client.TxSigMessage` takes the signature as an argument.
- The Anchor provider and the global `setProvider` are left out. The client's program object is modelled only as
  which program it is (workspace or deployed).
- The PDA helpers always use the constant program id, even when a client is built for another deployed id. The model
  keeps that single program id.
- `fetchCruxAccount` and the other single-account fetches are modelled as map lookups in a ledger, failing when the
  account is absent.
- The Submission struct is not part of this model. The submission filters at offset 8 and 40 are modelled, but no
  selection lemma is proved about them.
- `prog_common` is not part of this model:
  - `close_account` is modelled as its evident effect: lamports go to the receiver and the account is closed;
  - `try_add` and `try_sub` are `Types.TryAdd` and `Types.TrySub`;
  - `now_ts` becomes a `now` parameter, and `Rent::get` becomes a `rent` parameter.
- Handlers that are not part of this model: create_challenge, create_submission, remove_moderator,
  delete_submission_moderator, evaluate_submission and close_account. Their entry points in `lib.rs` and their
  client builders are modelled.
- JavaScript numbers are modelled as unbounded integers; floating point is left out.
- Base58 and decimal rendering are parameters (`Render.Renderer`).
- JavaScript object identity, aliasing and in-place mutation of values are left out. Values are immutable datatypes.
- Duplicate object keys and non-index enumerable properties of arrays are left out.
- CloseCruxHandler.Handler requires the receiver to differ from the treasury. Closing the treasury into itself is
  not modelled.
- DeleteUserProfileHandler.Handler, DeleteChallengeHandler.Handler and DeleteSubmissionHandler.Handler take the
  receiver as an account distinct from every other account of the instruction, which the unchecked receiver of the
  source does not guarantee.
- The challenge seed keypair that `createChallenge` generates is a parameter, so randomness is left out.
- `console.log` and `msg!` logging are left out.
- EditUserProfileHandler.Handler does not model the Anchor type check that the new picture mint is a `Mint` account.
- The forum's `Tags` enum is taken as one byte (`ForumTag`). Of the forum structs, only the `Question` and `Answer`
  fields these two handlers read or write are modelled.
- Client.PayoutFromTreasury, Client.CloseCrux, Client.EditUserProfile, Client.DeleteUserProfile, Client.AddModerator,
  Client.RemoveModerator, Client.EditSubmission and Client.DeleteSubmission state only the entry point and their own
  extra account in their contracts. The rest is stated by the shared builders they call: `Client.TreasuryDrain`,
  `Client.OwnProfile`, `Client.ModeratorChange` and `Client.OwnSubmission`.

## Findings

| source | as written | input that shows it | evidently intended | confidence | as-written member | corrected member |
|---|---|---|---|---|---|---|
| programs/challenger/src/lib.rs:122-141 | `edit_challenge` forwards `(tags, title, url, …)` to a handler whose parameters are `(title, url, tags, …)` | any call: the tag vector arrives where a string is expected | forward the arguments in the handler's order | not executed; high | Surface.EditChallengeArgumentOrder | Surface.FixedForwardingAgreesWithHandlers |
| programs/challenger/src/lib.rs:164-172 | `edit_submission` takes and forwards no content URL, though the handler requires one | any call: the handler's `new_content_data_url` has no source | take the URL as an entry-point argument and forward it | not executed; high | Surface.EditSubmissionMissingUrl | Surface.FixedForwardingAgreesWithHandlers |
| programs/challenger/src/instructions/edit_submission.rs:76-78 | the edit is refused with ChallengeExpired when the expiry is still in the future | expiry 200, now 100, url `[1]`: refused | refuse only when the challenge has expired | not executed; high | EditSubmissionHandler.OpenChallengeRefused | EditSubmissionHandler.Outcome |
| programs/challenger/src/instructions/edit_submission.rs:114 | editing resets any state, Completed and Rejected included, to Pending | an accepted (Completed) submission, edited, can then be deleted although delete_submission refuses accepted ones; a Rejected one becomes Pending again | refuse the edit once the submission is evaluated, so the verdict is final | not executed; medium | EditSubmissionHandler.EditUnlocksAcceptedSubmission | EditSubmissionHandler.IntendedEditKeepsResolvedLocked |
| programs/challenger/src/instructions/edit_submission.rs:100 | the rent top-up is computed against the challenge's balance, not the submission's | rent 10 per byte, submission 125 bytes holding 1250, challenge holding 1260, url `[1]`: grows to 126 bytes still holding 1250 < 1260 | top up against the submission's own balance | not executed; high | EditSubmissionHandler.GrowthUnderpaid | EditSubmissionHandler.IntendedGrowthIsRentExempt |
| src/challenger.client.ts:906-1032 | `editSubmission` and `deleteSubmission` ignore the submission key given and re-derive one from the caller's profile | a caller who is not the author: the transaction names a different submission | refuse when the requested submission is not the caller's | not executed; medium | Client.WrongOwnerSendsOtherSubmission | Client.CheckedRefusesWrongOwner |
| src/challenger.client.ts:1066-1071 | `deleteSubmissionModerator` passes four bumps to an instruction declaring three, so the call cannot succeed (Anchor's builder most likely rejects the extra argument before sending) | any call | send the user profile, challenge and submission bumps only | not executed; high | Client.ModeratorDeleteDoesNotMatch | Client.DeleteSubmissionModeratorFixed |
| src/render-types.ts:14-16 | `for…in` over an array yields its index keys, so `toBN([7, 8])` is `["0", "1"]` | `[7, 8]` | convert each element | not executed; high | Render.ToBNArrayGivesIndices | Render.ToBNFixedIsAllBig |
| src/challenger.client.ts:14-25 | the client's tag list uses names the program's `Tags` enum does not have | the first entry's name maps to no program tag | one entry per program tag, by its name | not executed; medium | Client.TagValuesMostlyUnknown | Client.TagValuesFixed |

=== FILE: accounts.dfy ===
/**
 * Accounts as the Solana runtime hands them to an instruction: a key, a
 * lamport balance, an allocated data length, whether the program owns it
 * with live data, and the record Anchor deserializes from that data. The
 * handlers change lamports, lengths and records in place, so an account is a
 * class; `Acct` is the value an account holds at one moment, and the pure
 * helpers below are the runtime and library steps the handlers share.
 *
 * A failing instruction is rolled back as a whole, so every handler checks
 * its fallible steps first and writes its accounts only on success.
 */
module Accounts {
  import opened Types

  /** Data the handler never interprets: system wallets, the treasury,
      receivers of reclaimed rent. */
  datatype Raw = Raw

  /** The state of one account at one moment. */
  datatype Acct<T> = Acct(lamports: u64, size: nat, live: bool, data: T)

  class Account<T> {
    const key: Pubkey
    var lamports: u64
    /** `data_len()`: the bytes allocated, including Anchor's discriminator. */
    var size: nat
    /** The account holds an initialised record of the program; cleared when
        it is closed. */
    var live: bool
    var data: T

    constructor (key: Pubkey, init: Acct<T>)
      ensures this.key == key && View() == init
    {
      this.key := key;
      lamports := init.lamports;
      size := init.size;
      live := init.live;
      data := init.data;
    }

    function View(): Acct<T>
      reads this
    {
      Acct(lamports, size, live, data)
    }
  }

  /** `MAX_PERMITTED_DATA_INCREASE`: how far one instruction may grow an
      account with `realloc`. */
  const MAX_PERMITTED_DATA_INCREASE: nat := 10240

  /** A system-program transfer of `amount` between two distinct accounts
      holding `from` and `to` lamports: the balances afterwards. */
  function Transfer(from: u64, to: u64, amount: u64): (r: Result<(u64, u64), ErrorCode>)
    ensures r.Ok? <==> amount <= from && to + amount <= U64_MAX
    ensures r.Ok? ==> r.value.0 == from - amount && r.value.1 == to + amount
    ensures r.Ok? ==> r.value.0 + r.value.1 == from + to
    ensures r.Err? && amount > from ==> r.error == InsufficientFunds
  {
    if amount > from then Err(InsufficientFunds)
    else if to + amount > U64_MAX then Err(ArithmeticError)
    else Ok((from - amount, to + amount))
  }

  /** Anchor's `init, payer = .., space = ..`: the payer tops the new account
      up to the rent-exempt minimum of its size (an account with lamports
      already in it is only topped up). An account already in use cannot be
      initialised. Gives the payer's and the account's balances afterwards. */
  function InitFunding(payer: u64, target: u64, targetLive: bool, minimum: u64): (r: Result<(u64, u64), ErrorCode>)
    ensures targetLive ==> r == Err(AccountAlreadyInUse)
    ensures r.Ok? ==> r.value.0 + r.value.1 == payer + target
    ensures r.Ok? ==> r.value.1 >= minimum && (target < minimum ==> r.value.1 == minimum)
    ensures !targetLive && target >= minimum ==> r == Ok((payer, target))
  {
    if targetLive then Err(AccountAlreadyInUse)
    else if target >= minimum then Ok((payer, target))
    else Transfer(payer, target, minimum - target)
  }

  /** The state of an account once `close_account` has run: no lamports and
      no live record. */
  function Closed<T>(a: Acct<T>): (r: Acct<T>)
    ensures r.lamports == 0 && !r.live && r.size == a.size && r.data == a.data
  {
    a.(lamports := 0, live := false)
  }

  /** `close_account(acc, receiver)` (prog_common, whose source is not part
      of this model): the receiver, distinct from the account, is credited
      with all of the account's lamports. Gives the receiver's balance. */
  function CloseInto(lamports: u64, receiver: u64): (r: Result<u64, ErrorCode>)
    ensures r.Ok? <==> receiver + lamports <= U64_MAX
    ensures r.Ok? ==> r.value == receiver + lamports
    ensures r.Err? ==> r.error == ArithmeticError
  {
    TryAdd(receiver, lamports)
  }

  /** The growth step shared by `edit_challenge`, `edit_submission`,
      `edit_question` and `add_content_to_answer`: when the record needs
      more than `oldSize` bytes, the payer transfers to the account the
      rent-exempt minimum of the new size less `basis` (the lamports the
      handler reads for the account), and the account is reallocated.
      Gives payer balance, account balance and size afterwards. */
  function Grow(payer: u64, target: u64, basis: u64, oldSize: nat, newSize: nat, rent: nat -> u64)
    : (r: Result<(u64, u64, nat), ErrorCode>)
    ensures newSize <= oldSize ==> r == Ok((payer, target, oldSize))
    ensures newSize > oldSize && basis > rent(newSize) ==> r == Err(ArithmeticError)
    ensures newSize > oldSize + MAX_PERMITTED_DATA_INCREASE ==> r.Err?
    ensures r.Ok? ==> r.value.0 + r.value.1 == payer + target
    ensures newSize > oldSize ==>
      (r.Ok? <==> && basis <= rent(newSize)
                  && rent(newSize) - basis <= payer
                  && target + (rent(newSize) - basis) <= U64_MAX
                  && newSize <= oldSize + MAX_PERMITTED_DATA_INCREASE)
    ensures r.Ok? ==> r.value.2 == (if newSize > oldSize then newSize else oldSize)
    ensures r.Ok? && newSize > oldSize ==> r.value.1 == target + (rent(newSize) - basis)
  {
    if newSize <= oldSize then Ok((payer, target, oldSize))
    else
      var difference :- TrySub(rent(newSize), basis);
      var moved :- Transfer(payer, target, difference);
      if newSize > oldSize + MAX_PERMITTED_DATA_INCREASE then Err(InvalidRealloc)
      else Ok((moved.0, moved.1, newSize))
  }

  /** When the handler reads the account's own balance, a grown account
      holds exactly the rent-exempt minimum of its new size. */
  lemma GrowLeavesRentExempt(payer: u64, target: u64, oldSize: nat, newSize: nat, rent: nat -> u64)
    requires Grow(payer, target, target, oldSize, newSize, rent).Ok?
    requires newSize > oldSize
    ensures Grow(payer, target, target, oldSize, newSize, rent).value.1 == rent(newSize)
    ensures Grow(payer, target, target, oldSize, newSize, rent).value.2 == newSize
  {
  }
}

=== FILE: add_content_to_answer.dfy ===
/**
 * `add_content_to_answer` of the forum program
 * (programs/forum/src/instructions/add_content_to_answer.rs): the author of
 * an answer appends text to it, paying the account up to the rent-exempt
 * minimum of its grown size.
 */
module AddContentToAnswerHandler {
  import opened Types
  import opened Accounts
  import opened Borsh
  import Pda

  const ANSWER: seq<byte> := Ascii("answer")

  /** The fields of `Answer` that the handler reads or writes (the struct is
      not part of this model). */
  datatype Answer = Answer(
    userProfile: Pubkey,
    answerSeed: Pubkey,
    mostRecentEngagementTs: u64,
    content: seq<byte>)

  /** `["answer", forum, user_profile, answer_seed]` */
  function AnswerSeeds(forum: Pubkey, profile: Pubkey, seed: Pubkey): seq<seq<byte>>
  {
    [ANSWER, forum, profile, seed]
  }

  datatype Post = Post(owner: u64, answer: Acct<Answer>)

  /** The accounts after `add_content_to_answer`, or the error: empty text is
      refused; the account grows by the serialized length of the new text
      (length prefix included) and is paid up to the minimum of that size,
      which fails if it already holds more; the text is appended. */
  function Outcome(owner: u64, answer: Acct<Answer>, content: BStr, now: u64, rent: nat -> u64)
    : (r: Result<Post, ErrorCode>)
    ensures |content| == 0 ==> r == Err(InvalidStringInputs)
    ensures |content| > 0 && answer.lamports > rent(answer.size + 4 + |content|) ==> r == Err(ArithmeticError)
    ensures r.Ok? ==> r.value.answer.data.content == answer.data.content + content
    ensures r.Ok? ==> r.value.answer.data.mostRecentEngagementTs == now
                      && r.value.answer.data.userProfile == answer.data.userProfile
                      && r.value.answer.data.answerSeed == answer.data.answerSeed
    ensures r.Ok? ==> r.value.answer.size == answer.size + 4 + |content|
    ensures r.Ok? ==> r.value.answer.lamports == rent(r.value.answer.size)
    ensures r.Ok? ==> r.value.owner + r.value.answer.lamports == owner + answer.lamports
  {
    if |content| == 0 then Err(InvalidStringInputs)
    else
      var newSize := answer.size + |Str(content)|;
      var difference :- TrySub(rent(newSize), answer.lamports);
      var moved :- Transfer(owner, answer.lamports, difference);
      if newSize > answer.size + MAX_PERMITTED_DATA_INCREASE then Err(InvalidRealloc)
      else Ok(Post(moved.0, Acct(moved.1, newSize, answer.live,
                   answer.data.(mostRecentEngagementTs := now, content := answer.data.content + content))))
  }

  /** Two appends add both texts in order, and the account ends 8 bytes
      larger than the text it gained: each append reserves room for a
      length prefix that the stored string does not repeat. */
  lemma {:induction false} AppendsAccumulate(owner: u64, answer: Acct<Answer>, first: BStr, second: BStr,
                                             now: u64, later: u64, rent: nat -> u64)
    requires Outcome(owner, answer, first, now, rent).Ok?
    requires var p := Outcome(owner, answer, first, now, rent).value;
      Outcome(p.owner, p.answer, second, later, rent).Ok?
    ensures var p := Outcome(owner, answer, first, now, rent).value;
      var q := Outcome(p.owner, p.answer, second, later, rent).value;
      && q.answer.data.content == answer.data.content + first + second
      && q.answer.size == answer.size + |first| + |second| + 8
  {
    var p := Outcome(owner, answer, first, now, rent).value;
    var q := Outcome(p.owner, p.answer, second, later, rent).value;
    assert p.answer.data.content == answer.data.content + first;
    assert q.answer.data.content == p.answer.data.content + second;
  }

  /** The instruction, run by the forum program (`d` carries its id). The
      profile is the signer's; the answer is that profile's, derived from
      its seed. */
  method Handler(d: Pda.Deriver, rent: nat -> u64, now: u64, forumKey: Pubkey, owner: Account<Raw>,
                 profileKey: Pubkey, answer: Account<Answer>, answerSeedKey: Pubkey,
                 bumpUserProfile: byte, bumpAnswer: byte, content: BStr)
    returns (r: Result<(), ErrorCode>)
    requires answer.live
    requires Pda.SeedsCheck(d, Pda.ForumUserProfileSeeds(owner.key), bumpUserProfile, profileKey)
    requires Pda.SeedsCheck(d, AnswerSeeds(forumKey, profileKey, answerSeedKey), bumpAnswer, answer.key)
    requires answer.data.userProfile == profileKey && answer.data.answerSeed == answerSeedKey
    modifies owner, answer
    ensures var o := Outcome(old(owner.lamports), old(answer.View()), content, now, rent);
      && (o.Ok? ==> r.Ok? && owner.View() == old(owner.View()).(lamports := o.value.owner)
                    && answer.View() == o.value.answer)
      && (o.Err? ==> r == Err(o.error) && unchanged(owner, answer))
  {
    if |content| == 0 { return Err(InvalidStringInputs); }
    var oldSize := answer.size;
    var newSize := oldSize + |Str(content)|;
    var minimum := rent(newSize);
    var difference := TrySub(minimum, answer.lamports);
    if difference.Err? { return Err(difference.error); }
    var moved := Transfer(owner.lamports, answer.lamports, difference.value);
    if moved.Err? { return Err(moved.error); }
    if newSize > oldSize + MAX_PERMITTED_DATA_INCREASE { return Err(InvalidRealloc); }
    owner.lamports, answer.lamports := moved.value.0, moved.value.1;
    answer.size := newSize;
    answer.data := answer.data.(mostRecentEngagementTs := now);
    answer.data := answer.data.(content := answer.data.content + content);
    r := Ok(());
  }
}

=== FILE: add_moderator.dfy ===
/**
 * `add_moderator` (programs/challenger/src/instructions/add_moderator.rs):
 * the crux manager makes a profile of the crux a moderator.
 */
module AddModeratorHandler {
  import opened Types
  import opened State
  import opened Accounts
  import Pda

  /** The profile as a moderator, otherwise as it was. */
  function Promoted(p: UserProfile): (r: UserProfile)
    ensures r.isModerator
    ensures r.(isModerator := p.isModerator) == p
  {
    p.(isModerator := true)
  }

  /** Promoting a moderator changes nothing. */
  lemma PromotedIdempotent(p: UserProfile)
    ensures Promoted(Promoted(p)) == Promoted(p)
    ensures p.isModerator ==> Promoted(p) == p
  {
  }

  /** The instruction: the signer manages the crux, and the profile belongs
      to `ownerKey` in this crux. */
  method Handler(d: Pda.Deriver, crux: Account<Crux>, managerKey: Pubkey, ownerKey: Pubkey,
                 profile: Account<UserProfile>, bumpUserProfile: byte)
    requires crux.live && crux.data.cruxManager == managerKey
    requires profile.live
    requires Pda.SeedsCheck(d, Pda.UserProfileSeeds(crux.key, ownerKey), bumpUserProfile, profile.key)
    requires profile.data.profileOwner == ownerKey && profile.data.crux == crux.key
    modifies profile
    ensures profile.View() == old(profile.View()).(data := Promoted(old(profile.data)))
  {
    profile.data := profile.data.(isModerator := true);
  }
}

=== FILE: borsh.dfy ===
/**
 * The Borsh layout Anchor gives the program's accounts: an 8-byte
 * discriminator, then the fields in declaration order; integers little-endian,
 * `String` and `Vec` with a u32 length prefix, one byte per unit-enum value or
 * `bool`. Field offsets and sizes of `Crux`, `UserProfile` and `Challenge`
 * follow from it, and so do the client's `memcmp` offsets and the size
 * formula of `edit_challenge`.
 */
module Borsh {
  import opened Types
  import opened State

  /** The 8-byte account discriminator (a hash prefix of the account name). */
  type Disc = s: seq<byte> | |s| == 8 witness ZeroBytes(8)

  function Pow256(n: nat): (r: nat)
    ensures r >= 1
  {
    if n == 0 then 1 else 256 * Pow256(n - 1)
  }

  /** `x` in `width` little-endian bytes. */
  function Le(x: nat, width: nat): (r: seq<byte>)
    requires x < Pow256(width)
    ensures |r| == width
  {
    if width == 0 then [] else [x % 256] + Le(x / 256, width - 1)
  }

  /** The number little-endian bytes denote. */
  function FromLe(bs: seq<byte>): (r: nat)
    ensures r < Pow256(|bs|)
  {
    if bs == [] then 0
    else
      var rest := FromLe(bs[1..]);
      assert rest + 1 <= Pow256(|bs| - 1);
      assert 256 * (rest + 1) <= 256 * Pow256(|bs| - 1);
      bs[0] + 256 * rest
  }

  lemma {:induction false} LeRoundTrip(x: nat, width: nat)
    requires x < Pow256(width)
    ensures FromLe(Le(x, width)) == x
  {
    if width > 0 {
      LeRoundTrip(x / 256, width - 1);
      assert Le(x, width)[1..] == Le(x / 256, width - 1);
    }
  }

  lemma {:induction false} FromLeRoundTrip(bs: seq<byte>)
    ensures Le(FromLe(bs), |bs|) == bs
  {
    if bs != [] {
      var rest := FromLe(bs[1..]);
      assert (bs[0] + 256 * rest) % 256 == bs[0];
      assert (bs[0] + 256 * rest) / 256 == rest;
      FromLeRoundTrip(bs[1..]);
    }
  }

  function U16(x: u16): (r: seq<byte>)
    ensures |r| == 2
  {
    assert Pow256(2) == 0x1_0000;
    Le(x, 2)
  }

  function U32(x: nat): (r: seq<byte>)
    requires x <= U32_MAX
    ensures |r| == 4
  {
    assert Pow256(4) == 0x1_0000_0000;
    Le(x, 4)
  }

  function U64(x: u64): (r: seq<byte>)
    ensures |r| == 8
  {
    assert Pow256(8) == 0x1_0000_0000_0000_0000;
    Le(x, 8)
  }

  function Bool(b: bool): seq<byte>
  {
    [if b then 1 else 0]
  }

  /** A `String`: its byte length as a u32, then its bytes. */
  function Str(s: BStr): (r: seq<byte>)
    ensures |r| == 4 + |s| && r[4..] == s
  {
    U32(|s|) + s
  }

  /** Every variant of `Tags`, in declaration order. */
  const ALL_TAGS: seq<Tag> := [
    ArtificialIntelligence, CryptoInfrastructure, DaosAndNetworkStates, DataAndAnalytics,
    Development, FinanceAndPayments, GamingAndEntertainment, Ideas,
    MobileConsumerApps, Nfts, PhysicalInfrastructureNetworks, Social]

  /** The Borsh discriminant of a variant: its position in the declaration. */
  function TagIndex(t: Tag): (r: byte)
    ensures r < |ALL_TAGS| && ALL_TAGS[r] == t
  {
    match t
    case ArtificialIntelligence => 0
    case CryptoInfrastructure => 1
    case DaosAndNetworkStates => 2
    case DataAndAnalytics => 3
    case Development => 4
    case FinanceAndPayments => 5
    case GamingAndEntertainment => 6
    case Ideas => 7
    case MobileConsumerApps => 8
    case Nfts => 9
    case PhysicalInfrastructureNetworks => 10
    case Social => 11
  }

  /** A `Vec<Tags>`: its length as a u32, then one discriminant byte each. */
  function Tags(ts: TagList): (r: seq<byte>)
    ensures |r| == 4 + |ts|
    ensures forall i :: 0 <= i < |ts| ==> r[4 + i] == TagIndex(ts[i])
  {
    U32(|ts|) + seq(|ts|, i requires 0 <= i < |ts| => TagIndex(ts[i]))
  }

  function Fees(f: CruxFees): (r: seq<byte>)
    ensures |r| == 16
  {
    U64(f.profileFee) + U64(f.submissionFee)
  }

  function Counts(c: CruxCounts): (r: seq<byte>)
    ensures |r| == 24
  {
    U64(c.profileCount) + U64(c.challengeCount) + U64(c.submissionCount)
  }

  function SerializeCrux(c: Crux): seq<byte>
  {
    U16(c.version) + c.cruxManager + c.cruxAuthority + c.cruxAuthoritySeed
      + [c.cruxAuthorityBumpSeed] + c.cruxTreasury + Fees(c.cruxFees) + Counts(c.cruxCounts)
  }

  function SerializeUserProfile(p: UserProfile): seq<byte>
  {
    p.profileOwner + p.crux + U64(p.profileCreatedTs) + U64(p.mostRecentEngagementTs)
      + U64(p.challengesSubmitted) + U64(p.challengesCompleted) + U64(p.reputationScore)
      + p.nftPfpTokenMint + Bool(p.isModerator)
  }

  function SerializeChallenge(c: Challenge): seq<byte>
  {
    c.crux + c.challengeSeed + U64(c.challengePostedTs) + U64(c.challengeExpiresTs)
      + Tags(c.tags) + Str(c.title) + Str(c.contentDataUrl) + c.contentDataHash + U64(c.reputation)
  }

  /** The bytes of an account: discriminator, then the Borsh body. */
  function AccountData(disc: Disc, body: seq<byte>): (r: seq<byte>)
    ensures |r| == 8 + |body| && r[8..] == body
  {
    disc + body
  }

  // ------------------------------------------------ Crux layout

  /** Where each `Crux` field sits in the body (add 8 for the account). The
      manager follows the 2-byte version, so it starts at account byte 10.
      The body is 171 bytes, within the 176 that `size_of` reserves. */
  lemma CruxLayout(c: Crux)
    ensures var s := SerializeCrux(c);
      && |s| == 171 && |s| <= CRUX_SIZE
      && s[..2] == U16(c.version)
      && s[2..34] == c.cruxManager
      && s[34..66] == c.cruxAuthority
      && s[66..98] == c.cruxAuthoritySeed
      && s[98] == c.cruxAuthorityBumpSeed
      && s[99..131] == c.cruxTreasury
      && s[131..147] == Fees(c.cruxFees)
      && s[147..171] == Counts(c.cruxCounts)
  {
    var a := U16(c.version) + c.cruxManager;
    var b := a + c.cruxAuthority;
    var e := b + c.cruxAuthoritySeed;
    var f := e + [c.cruxAuthorityBumpSeed];
    var g := f + c.cruxTreasury;
    var h := g + Fees(c.cruxFees);
    assert SerializeCrux(c) == h + Counts(c.cruxCounts);
    assert a[..2] == U16(c.version) && a[2..34] == c.cruxManager;
    assert b[..34] == a && b[34..66] == c.cruxAuthority;
    assert e[..66] == b && e[66..98] == c.cruxAuthoritySeed;
    assert f[..98] == e && f[98] == c.cruxAuthorityBumpSeed;
    assert g[..99] == f && g[99..131] == c.cruxTreasury;
    assert h[..131] == g && h[131..147] == Fees(c.cruxFees);
  }

  // ------------------------------------------------ UserProfile layout

  /** Owner at body bytes 0..32 and crux at 32..64 (account offsets 8 and
      40); the body is 137 bytes, within the 144 that `size_of` reserves. */
  lemma UserProfileLayout(p: UserProfile)
    ensures var s := SerializeUserProfile(p);
      && |s| == 137 && |s| <= USER_PROFILE_SIZE
      && s[..32] == p.profileOwner
      && s[32..64] == p.crux
      && s[64..72] == U64(p.profileCreatedTs)
      && s[72..80] == U64(p.mostRecentEngagementTs)
      && s[80..88] == U64(p.challengesSubmitted)
      && s[88..96] == U64(p.challengesCompleted)
      && s[96..104] == U64(p.reputationScore)
      && s[104..136] == p.nftPfpTokenMint
      && s[136] == (if p.isModerator then 1 else 0)
  {
    var a := p.profileOwner + p.crux;
    var b := a + U64(p.profileCreatedTs);
    var e := b + U64(p.mostRecentEngagementTs);
    var f := e + U64(p.challengesSubmitted);
    var g := f + U64(p.challengesCompleted);
    var h := g + U64(p.reputationScore);
    var k := h + p.nftPfpTokenMint;
    assert SerializeUserProfile(p) == k + Bool(p.isModerator);
    assert a[..32] == p.profileOwner && a[32..64] == p.crux;
    assert b[..64] == a && b[64..72] == U64(p.profileCreatedTs);
    assert e[..72] == b && e[72..80] == U64(p.mostRecentEngagementTs);
    assert f[..80] == e && f[80..88] == U64(p.challengesSubmitted);
    assert g[..88] == f && g[88..96] == U64(p.challengesCompleted);
    assert h[..96] == g && h[96..104] == U64(p.reputationScore);
    assert k[..104] == h && k[104..136] == p.nftPfpTokenMint;
  }

  // ------------------------------------------------ Challenge layout

  /** Size of the account bytes `edit_challenge` computes for the new data:
      96, the three serialized buffers, and 32. */
  function EditChallengeSize(tags: TagList, title: BStr, url: BStr): nat
  {
    96 + |Tags(tags)| + |Str(title)| + |Str(url)| + 32
  }

  /** Crux at body bytes 0..32 (account offset 8), seed at 32..64; the fixed
      prefix before the first variable field is 88 account bytes; and the
      account size is exactly what `edit_challenge` computes. */
  lemma ChallengeLayout(disc: Disc, c: Challenge)
    ensures var s := SerializeChallenge(c);
      && s[..32] == c.crux
      && s[32..64] == c.challengeSeed
      && s[64..72] == U64(c.challengePostedTs)
      && s[72..80] == U64(c.challengeExpiresTs)
      && |AccountData(disc, s)| == 88 + (4 + |c.tags|) + (4 + |c.title|) + (4 + |c.contentDataUrl|) + 32 + 8
      && |AccountData(disc, s)| == EditChallengeSize(c.tags, c.title, c.contentDataUrl)
  {
    var a := c.crux + c.challengeSeed;
    var b := a + U64(c.challengePostedTs);
    var e := b + U64(c.challengeExpiresTs);
    var rest := Tags(c.tags) + Str(c.title) + Str(c.contentDataUrl) + c.contentDataHash + U64(c.reputation);
    assert SerializeChallenge(c) == e + rest;
    assert a[..32] == c.crux && a[32..64] == c.challengeSeed;
    assert b[..64] == a && b[64..72] == U64(c.challengePostedTs);
    assert e[..72] == b && e[72..80] == U64(c.challengeExpiresTs);
  }

  // ------------------------------------------------ decoding

  /** Borsh `bool`: 0 or 1, any other byte is an error. */
  function DecodeBool(b: byte): (r: Option<bool>)
    ensures r.Some? <==> b < 2
    ensures r.Some? ==> Bool(r.value) == [b]
  {
    if b == 0 then Some(false) else if b == 1 then Some(true) else None
  }

  function DecodeU64(bs: seq<byte>): (r: u64)
    requires |bs| == 8
  {
    assert Pow256(8) == 0x1_0000_0000_0000_0000;
    FromLe(bs)
  }

  lemma U64RoundTrip(x: u64)
    ensures DecodeU64(U64(x)) == x
  {
    assert Pow256(8) == 0x1_0000_0000_0000_0000;
    LeRoundTrip(x, 8);
  }

  function DecodeFees(bs: seq<byte>): CruxFees
    requires |bs| == 16
  {
    CruxFees(DecodeU64(bs[..8]), DecodeU64(bs[8..]))
  }

  function DecodeCounts(bs: seq<byte>): CruxCounts
    requires |bs| == 24
  {
    CruxCounts(DecodeU64(bs[..8]), DecodeU64(bs[8..16]), DecodeU64(bs[16..]))
  }

  /** Reads a `Crux` from the front of an account body (trailing bytes, such
      as the unused tail of the reserved space, are ignored). */
  function DecodeCrux(bs: seq<byte>): (r: Option<Crux>)
    ensures r.Some? <==> |bs| >= 171
  {
    if |bs| < 171 then None
    else
      assert Pow256(2) == 0x1_0000;
      Some(Crux(
        FromLe(bs[..2]),
        bs[2..34], bs[34..66], bs[66..98], bs[98], bs[99..131],
        DecodeFees(bs[131..147]), DecodeCounts(bs[147..171])))
  }

  /** Reads a `UserProfile` from the front of an account body; a moderator
      byte other than 0 or 1 is an error. */
  function DecodeUserProfile(bs: seq<byte>): (r: Option<UserProfile>)
    ensures r.Some? <==> |bs| >= 137 && bs[136] < 2
  {
    if |bs| < 137 then None
    else match DecodeBool(bs[136])
      case None => None
      case Some(m) =>
        Some(UserProfile(
          bs[..32], bs[32..64],
          DecodeU64(bs[64..72]), DecodeU64(bs[72..80]), DecodeU64(bs[80..88]),
          DecodeU64(bs[88..96]), DecodeU64(bs[96..104]),
          bs[104..136], m))
  }

  lemma FeesRoundTrip(f: CruxFees)
    ensures DecodeFees(Fees(f)) == f
  {
    var s := Fees(f);
    assert s[..8] == U64(f.profileFee) && s[8..] == U64(f.submissionFee);
    U64RoundTrip(f.profileFee);
    U64RoundTrip(f.submissionFee);
  }

  lemma CountsRoundTrip(c: CruxCounts)
    ensures DecodeCounts(Counts(c)) == c
  {
    var s := Counts(c);
    assert s[..8] == U64(c.profileCount);
    assert s[8..16] == U64(c.challengeCount);
    assert s[16..] == U64(c.submissionCount);
    U64RoundTrip(c.profileCount);
    U64RoundTrip(c.challengeCount);
    U64RoundTrip(c.submissionCount);
  }

  /** Decoding a serialized crux, with anything after it, gives it back. */
  lemma CruxRoundTrip(c: Crux, tail: seq<byte>)
    ensures DecodeCrux(SerializeCrux(c) + tail) == Some(c)
  {
    CruxLayout(c);
    var s := SerializeCrux(c);
    var t := s + tail;
    assert t[..171] == s;
    assert t[..2] == U16(c.version);
    assert t[2..34] == c.cruxManager && t[34..66] == c.cruxAuthority;
    assert t[66..98] == c.cruxAuthoritySeed && t[98] == c.cruxAuthorityBumpSeed;
    assert t[99..131] == c.cruxTreasury;
    assert t[131..147] == Fees(c.cruxFees) && t[147..171] == Counts(c.cruxCounts);
    assert Pow256(2) == 0x1_0000;
    LeRoundTrip(c.version, 2);
    FeesRoundTrip(c.cruxFees);
    CountsRoundTrip(c.cruxCounts);
  }

  /** Decoding a serialized profile, with anything after it, gives it back. */
  lemma UserProfileRoundTrip(p: UserProfile, tail: seq<byte>)
    ensures DecodeUserProfile(SerializeUserProfile(p) + tail) == Some(p)
  {
    UserProfileLayout(p);
    var s := SerializeUserProfile(p);
    var t := s + tail;
    assert t[..137] == s;
    assert t[..32] == p.profileOwner && t[32..64] == p.crux;
    assert t[64..72] == U64(p.profileCreatedTs) && t[72..80] == U64(p.mostRecentEngagementTs);
    assert t[80..88] == U64(p.challengesSubmitted) && t[88..96] == U64(p.challengesCompleted);
    assert t[96..104] == U64(p.reputationScore) && t[104..136] == p.nftPfpTokenMint;
    assert t[136] == (if p.isModerator then 1 else 0);
    U64RoundTrip(p.profileCreatedTs);
    U64RoundTrip(p.mostRecentEngagementTs);
    U64RoundTrip(p.challengesSubmitted);
    U64RoundTrip(p.challengesCompleted);
    U64RoundTrip(p.reputationScore);
  }
}

=== FILE: client.dfy ===
/**
 * The TypeScript client (src/challenger.client.ts). Every instruction builder
 * is straight-line: it reads the ancestor records it needs to recover the
 * keys the caller did not pass, re-derives every program address with the
 * seed grammar of src/challenger.pda.ts, collects the signers, and sends one
 * instruction. Here a builder is a function from a snapshot of the cluster
 * and the caller's inputs to the instruction it would send (entry point,
 * arguments, named accounts, signers) and the derivations it returns.
 *
 * The derivations run through `Env.derive`, the helpers of
 * src/challenger.pda.ts over a deriver whose program id is the client's
 * `CHALLENGER_PROG_ID` constant; the network round trip itself
 * (`rpc()`, the signature it returns) is not modelled.
 */
module Client {
  import opened Types
  import State
  import Pda
  import Surface
  import Borsh

  // ------------------------------------------------ keys and signers

  datatype Keypair = Keypair(publicKey: Pubkey, secretKey: seq<byte>)

  /** A `PublicKey | Keypair` parameter. */
  datatype Party = Pk(key: Pubkey) | Kp(pair: Keypair)

  /** `isKp`: the value has a `publicKey` field, which only a keypair has. */
  predicate IsKp(p: Party)
  {
    p.Kp?
  }

  /** `isKp(x) ? x.publicKey : x` */
  function KeyOf(p: Party): Pubkey
  {
    match p
    case Pk(k) => k
    case Kp(kp) => kp.publicKey
  }

  /** `const signers = []; if (isKp(x)) signers.push(x)`: the party signs
      exactly when the caller handed over its keypair, and then with the
      keypair of the key the instruction names. */
  function SignersOf(p: Party): (r: seq<Keypair>)
    ensures |r| <= 1
    ensures |r| == 1 <==> IsKp(p)
    ensures forall k :: k in r ==> k.publicKey == KeyOf(p)
    ensures IsKp(p) ==> r == [p.pair]
  {
    if IsKp(p) then [p.pair] else []
  }

  // ------------------------------------------------ the cluster as the client reads it

  /** The records and balances the client can fetch, by address. */
  datatype Ledger = Ledger(
    cruxes: map<Pubkey, State.Crux>,
    profiles: map<Pubkey, State.UserProfile>,
    challenges: map<Pubkey, State.Challenge>,
    submissions: map<Pubkey, State.Submission>,
    balances: map<Pubkey, nat>)

  /** Why a builder throws before sending anything: `fetch` finds no
      account of the expected type, or `findProgramAddressSync` finds no
      viable bump ("unable to find a viable program address nonce"). */
  datatype ClientError = AccountDoesNotExist(key: Pubkey) | NoViableNonce

  /** What a builder runs against: the deriver whose program id is the
      client's `CHALLENGER_PROG_ID`, the derivation helpers of
      src/challenger.pda.ts as the builders call them, and the sysvar and
      system program ids they name. */
  datatype Env = Env(d: Pda.Deriver, derive: Pda.SeedTuple -> Option<Pda.Derived>,
                     systemProgram: Pubkey, rentSysvar: Pubkey)

  /** The helpers compute `Pda.Derive` over the deriver. */
  ghost predicate Faithful(env: Env)
  {
    forall t :: env.derive(t) == Pda.Derive(env.d, t)
  }

  /** The environment of a client: the helpers are the `find*PDA`
      functions, each a `Pda.Derive` of its seed tuple. */
  function ClientEnv(d: Pda.Deriver, systemProgram: Pubkey, rentSysvar: Pubkey): (env: Env)
    ensures Faithful(env) && env.d == d
  {
    Env(d, t => Pda.Derive(d, t), systemProgram, rentSysvar)
  }

  /** The `.accounts({...})` object: the address given for each name, if any. */
  datatype AccountKeys = AccountKeys(
    crux: Option<Pubkey> := None, cruxManager: Option<Pubkey> := None,
    cruxAuthority: Option<Pubkey> := None, cruxTreasury: Option<Pubkey> := None,
    rent: Option<Pubkey> := None, systemProgram: Option<Pubkey> := None,
    receiver: Option<Pubkey> := None, profileOwner: Option<Pubkey> := None,
    userProfile: Option<Pubkey> := None, nftPfpTokenMint: Option<Pubkey> := None,
    moderator: Option<Pubkey> := None, moderatorProfile: Option<Pubkey> := None,
    challenge: Option<Pubkey> := None, challengeSeed: Option<Pubkey> := None,
    contentDataHash: Option<Pubkey> := None, newContentDataHash: Option<Pubkey> := None,
    submission: Option<Pubkey> := None, signer: Option<Pubkey> := None,
    accountToClose: Option<Pubkey> := None)

  /** One instruction as `.methods.x(args).accounts(..).signers(..)` builds it. */
  datatype Tx = Tx(entry: Surface.EntryPoint, args: seq<Surface.Arg>, accounts: AccountKeys, signers: seq<Keypair>)

  /** The derived addresses and bumps a builder computed, by the account
      they belong to. */
  datatype Derivations = Derivations(
    cruxAuthority: Option<Pda.Derived> := None, cruxTreasury: Option<Pda.Derived> := None,
    userProfile: Option<Pda.Derived> := None, moderatorProfile: Option<Pda.Derived> := None,
    challenge: Option<Pda.Derived> := None, submission: Option<Pda.Derived> := None)

  /** What a builder sends, and what it computed on the way (the addresses
      it returns beside the signature among them). */
  datatype Built = Built(tx: Tx, derived: Derivations)

  /** `findProgramAddressSync`, which throws when no bump works. */
  function Find(env: Env, t: Pda.SeedTuple): (r: Result<Pda.Derived, ClientError>)
    ensures r.Ok? <==> env.derive(t).Some?
    ensures r.Ok? ==> env.derive(t) == Some(r.value)
    ensures r.Err? ==> r.error == NoViableNonce
  {
    match env.derive(t)
    case None => Err(NoViableNonce)
    case Some(found) => Ok(found)
  }

  /** `fetchUserProfileAccount` */
  function FetchProfile(l: Ledger, key: Pubkey): Result<State.UserProfile, ClientError>
  {
    if key in l.profiles then Ok(l.profiles[key]) else Err(AccountDoesNotExist(key))
  }

  /** `fetchChallengeAccount` */
  function FetchChallenge(l: Ledger, key: Pubkey): Result<State.Challenge, ClientError>
  {
    if key in l.challenges then Ok(l.challenges[key]) else Err(AccountDoesNotExist(key))
  }

  /** `fetchSubmissionAccount` */
  function FetchSubmission(l: Ledger, key: Pubkey): Result<State.Submission, ClientError>
  {
    if key in l.submissions then Ok(l.submissions[key]) else Err(AccountDoesNotExist(key))
  }

  /** `fetchTreasuryBalance`: the balance of the crux's derived treasury; the
      node reports 0 for an address that holds nothing. */
  function FetchTreasuryBalance(env: Env, l: Ledger, crux: Pubkey): (r: Result<nat, ClientError>)
    ensures env.derive(Pda.TreasuryOf(crux)).None? <==> r == Err(NoViableNonce)
    ensures r.Ok? ==> var t := env.derive(Pda.TreasuryOf(crux)).value.address;
                      r.value == (if t in l.balances then l.balances[t] else 0)
  {
    var treasury :- Find(env, Pda.TreasuryOf(crux));
    Ok(if treasury.address in l.balances then l.balances[treasury.address] else 0)
  }

  // ------------------------------------------------ what a well-formed instruction is

  /** The derivation a bump parameter of the program is the bump of. */
  function BumpSource(ds: Derivations, of: Surface.BumpOf): Option<Pda.Derived>
  {
    match of
    case AuthorityBump => ds.cruxAuthority
    case TreasuryBump => ds.cruxTreasury
    case ProfileBump => ds.userProfile
    case ModeratorProfileBump => ds.moderatorProfile
    case ChallengeBump => ds.challenge
    case SubmissionBump => ds.submission
  }

  /** The arguments deserialize as the entry point's parameters, and the
      bumps are the derived ones. */
  predicate MatchesEntryPoint(b: Built)
  {
    Surface.WellTyped(b.tx.args, Surface.Params(b.tx.entry)) && BumpsMatch(b)
  }

  /** Every bump parameter of the entry point receives the bump the builder
      derived for that account. */
  predicate BumpsMatch(b: Built)
  {
    var ps := Surface.Params(b.tx.entry);
    forall i :: 0 <= i < |ps| && i < |b.tx.args| && ps[i].Bump? ==>
      && BumpSource(b.derived, ps[i].of).Some?
      && b.tx.args[i] == Surface.U8Arg(BumpSource(b.derived, ps[i].of).value.bump)
  }

  /** The builder derived `t` (giving `derived`) and names the address it
      found as the account (`sent`). */
  predicate Sends(env: Env, derived: Option<Pda.Derived>, sent: Option<Pubkey>, t: Pda.SeedTuple)
  {
    derived.Some? && env.derive(t) == derived && sent == Some(derived.value.address)
  }

  /** The submission sent is the one derived from the challenge and the user
      profile the instruction names. */
  predicate SendsSubmission(env: Env, b: Built)
  {
    && b.tx.accounts.challenge.Some? && b.tx.accounts.userProfile.Some?
    && Sends(env, b.derived.submission, b.tx.accounts.submission,
             Pda.SubmissionOf(b.tx.accounts.challenge.value, b.tx.accounts.userProfile.value))
  }

  /** An account the client derived passes the program's `seeds`/`bump`
      constraint with the bump it computed, and the canonical-bump
      constraint `init` uses. */
  lemma SentAddressPassesSeedChecks(env: Env, derived: Option<Pda.Derived>, sent: Option<Pubkey>, t: Pda.SeedTuple)
    requires Faithful(env)
    requires Sends(env, derived, sent, t)
    ensures Pda.SeedsCheck(env.d, Pda.Seeds(t), derived.value.bump, sent.value)
    ensures Pda.CanonicalCheck(env.d, Pda.Seeds(t), sent.value)
  {
    assert env.derive(t) == Pda.Derive(env.d, t);
    Pda.DerivedMeetsConstraints(env.d, t);
  }

  /** `txSigMessage`: the success text when `rpc()` returned a signature (a
      non-empty string is truthy), `'Transaction failed'` otherwise. */
  function TxSigMessage(txSig: string, success: string): (r: string)
    ensures txSig == "" ==> r == "Transaction failed"
    ensures txSig != "" ==> r == success
  {
    if |txSig| > 0 then success else "Transaction failed"
  }

  // ------------------------------------------------ crux

  /** `initCrux`: the fresh crux keypair always signs, first. */
  function InitCrux(env: Env, crux: Keypair, cruxManager: Party, fees: State.CruxFees): (r: Result<Built, ClientError>)
    ensures r.Ok? <==> env.derive(Pda.AuthorityOf(crux.publicKey)).Some? && env.derive(Pda.TreasuryOf(crux.publicKey)).Some?
    ensures r.Err? ==> r.error == NoViableNonce
    ensures r.Ok? ==> var b := r.value;
      && b.tx.entry == Surface.InitCrux && MatchesEntryPoint(b)
      && b.tx.args[1] == Surface.FeesArg(fees)
      && b.tx.signers == [crux] + SignersOf(cruxManager)
      && b.tx.accounts.crux == Some(crux.publicKey) && b.tx.accounts.cruxManager == Some(KeyOf(cruxManager))
      && Sends(env, b.derived.cruxAuthority, b.tx.accounts.cruxAuthority, Pda.AuthorityOf(crux.publicKey))
      && Sends(env, b.derived.cruxTreasury, b.tx.accounts.cruxTreasury, Pda.TreasuryOf(crux.publicKey))
  {
    var authority :- Find(env, Pda.AuthorityOf(crux.publicKey));
    var treasury :- Find(env, Pda.TreasuryOf(crux.publicKey));
    Ok(Built(
      Tx(Surface.InitCrux, [Surface.U8Arg(authority.bump), Surface.FeesArg(fees)],
         AccountKeys(crux := Some(crux.publicKey), cruxManager := Some(KeyOf(cruxManager)),
                     cruxAuthority := Some(authority.address), cruxTreasury := Some(treasury.address),
                     rent := Some(env.rentSysvar), systemProgram := Some(env.systemProgram)),
         [crux] + SignersOf(cruxManager)),
      Derivations(cruxAuthority := Some(authority), cruxTreasury := Some(treasury))))
  }

  /** `updateCruxParams`: nothing to derive, so it cannot throw. */
  function UpdateCruxParams(env: Env, crux: Pubkey, cruxManager: Party, fees: State.CruxFees): (b: Built)
    ensures b.tx.entry == Surface.UpdateCruxParams && MatchesEntryPoint(b)
    ensures b.tx.args == [Surface.FeesArg(fees)]
    ensures b.tx.signers == SignersOf(cruxManager)
    ensures b.tx.accounts.crux == Some(crux) && b.tx.accounts.cruxManager == Some(KeyOf(cruxManager))
  {
    Built(
      Tx(Surface.UpdateCruxParams, [Surface.FeesArg(fees)],
         AccountKeys(crux := Some(crux), cruxManager := Some(KeyOf(cruxManager)), systemProgram := Some(env.systemProgram)),
         SignersOf(cruxManager)),
      Derivations())
  }

  /** The instruction `payoutFromTreasury` and `closeCrux` both assemble:
      the manager, the crux, its derived treasury and the receiver. */
  function TreasuryDrain(env: Env, entry: Surface.EntryPoint, crux: Pubkey, cruxManager: Party, receiver: Pubkey)
    : (r: Result<Built, ClientError>)
    ensures r.Ok? <==> env.derive(Pda.TreasuryOf(crux)).Some?
    ensures r.Err? ==> r.error == NoViableNonce
    ensures r.Ok? ==> var b := r.value;
      && b.tx.entry == entry
      && b.tx.signers == SignersOf(cruxManager)
      && b.tx.accounts.crux == Some(crux) && b.tx.accounts.cruxManager == Some(KeyOf(cruxManager))
      && b.tx.accounts.receiver == Some(receiver)
      && Sends(env, b.derived.cruxTreasury, b.tx.accounts.cruxTreasury, Pda.TreasuryOf(crux))
      && b.tx.args == [Surface.U8Arg(b.derived.cruxTreasury.value.bump)]
  {
    var treasury :- Find(env, Pda.TreasuryOf(crux));
    Ok(Built(
      Tx(entry, [Surface.U8Arg(treasury.bump)],
         AccountKeys(crux := Some(crux), cruxManager := Some(KeyOf(cruxManager)), cruxTreasury := Some(treasury.address),
                     receiver := Some(receiver), systemProgram := Some(env.systemProgram)),
         SignersOf(cruxManager)),
      Derivations(cruxTreasury := Some(treasury))))
  }

  /** `payoutFromTreasury` */
  function PayoutFromTreasury(env: Env, crux: Pubkey, cruxManager: Party, receiver: Pubkey): (r: Result<Built, ClientError>)
    ensures r.Ok? ==> r.value.tx.entry == Surface.PayoutFromTreasury && MatchesEntryPoint(r.value)
  {
    TreasuryDrain(env, Surface.PayoutFromTreasury, crux, cruxManager, receiver)
  }

  /** `closeCrux` */
  function CloseCrux(env: Env, crux: Pubkey, cruxManager: Party, receiver: Pubkey): (r: Result<Built, ClientError>)
    ensures r.Ok? ==> r.value.tx.entry == Surface.CloseCrux && MatchesEntryPoint(r.value)
  {
    TreasuryDrain(env, Surface.CloseCrux, crux, cruxManager, receiver)
  }

  // ------------------------------------------------ user profiles

  /** `createUserProfile` */
  function CreateUserProfile(env: Env, crux: Pubkey, profileOwner: Party): (r: Result<Built, ClientError>)
    ensures r.Ok? <==> env.derive(Pda.TreasuryOf(crux)).Some? && env.derive(Pda.ProfileOf(crux, KeyOf(profileOwner))).Some?
    ensures r.Err? ==> r.error == NoViableNonce
    ensures r.Ok? ==> var b := r.value;
      && b.tx.entry == Surface.CreateUserProfile && MatchesEntryPoint(b)
      && b.tx.signers == SignersOf(profileOwner)
      && b.tx.accounts.crux == Some(crux) && b.tx.accounts.profileOwner == Some(KeyOf(profileOwner))
      && Sends(env, b.derived.cruxTreasury, b.tx.accounts.cruxTreasury, Pda.TreasuryOf(crux))
      && Sends(env, b.derived.userProfile, b.tx.accounts.userProfile, Pda.ProfileOf(crux, KeyOf(profileOwner)))
  {
    var treasury :- Find(env, Pda.TreasuryOf(crux));
    var profile :- Find(env, Pda.ProfileOf(crux, KeyOf(profileOwner)));
    Ok(Built(
      Tx(Surface.CreateUserProfile, [Surface.U8Arg(treasury.bump)],
         AccountKeys(crux := Some(crux), cruxTreasury := Some(treasury.address), profileOwner := Some(KeyOf(profileOwner)),
                     userProfile := Some(profile.address), systemProgram := Some(env.systemProgram)),
         SignersOf(profileOwner)),
      Derivations(cruxTreasury := Some(treasury), userProfile := Some(profile))))
  }

  /** The instruction `editUserProfile` and `deleteUserProfile` both
      assemble: the owner, the crux and the owner's derived profile, with
      the account each adds (`nftPfpTokenMint`, `receiver`) in `extra`. */
  function OwnProfile(env: Env, entry: Surface.EntryPoint, crux: Pubkey, profileOwner: Party, extra: AccountKeys)
    : (r: Result<Built, ClientError>)
    ensures r.Ok? <==> env.derive(Pda.ProfileOf(crux, KeyOf(profileOwner))).Some?
    ensures r.Err? ==> r.error == NoViableNonce
    ensures r.Ok? ==> var b := r.value;
      && b.tx.entry == entry
      && b.tx.signers == SignersOf(profileOwner)
      && b.tx.accounts.crux == Some(crux) && b.tx.accounts.profileOwner == Some(KeyOf(profileOwner))
      && b.tx.accounts.nftPfpTokenMint == extra.nftPfpTokenMint && b.tx.accounts.receiver == extra.receiver
      && Sends(env, b.derived.userProfile, b.tx.accounts.userProfile, Pda.ProfileOf(crux, KeyOf(profileOwner)))
      && b.tx.args == [Surface.U8Arg(b.derived.userProfile.value.bump)]
  {
    var profile :- Find(env, Pda.ProfileOf(crux, KeyOf(profileOwner)));
    Ok(Built(
      Tx(entry, [Surface.U8Arg(profile.bump)],
         AccountKeys(crux := Some(crux), profileOwner := Some(KeyOf(profileOwner)), userProfile := Some(profile.address),
                     nftPfpTokenMint := extra.nftPfpTokenMint, receiver := extra.receiver,
                     systemProgram := Some(env.systemProgram)),
         SignersOf(profileOwner)),
      Derivations(userProfile := Some(profile))))
  }

  /** `editUserProfile` */
  function EditUserProfile(env: Env, crux: Pubkey, profileOwner: Party, nftTokenMint: Pubkey): (r: Result<Built, ClientError>)
    ensures r.Ok? ==> r.value.tx.entry == Surface.EditUserProfile && MatchesEntryPoint(r.value)
    ensures r.Ok? ==> r.value.tx.accounts.nftPfpTokenMint == Some(nftTokenMint)
  {
    OwnProfile(env, Surface.EditUserProfile, crux, profileOwner, AccountKeys(nftPfpTokenMint := Some(nftTokenMint)))
  }

  /** `deleteUserProfile` */
  function DeleteUserProfile(env: Env, crux: Pubkey, profileOwner: Party, receiver: Pubkey): (r: Result<Built, ClientError>)
    ensures r.Ok? ==> r.value.tx.entry == Surface.DeleteUserProfile && MatchesEntryPoint(r.value)
    ensures r.Ok? ==> r.value.tx.accounts.receiver == Some(receiver)
  {
    OwnProfile(env, Surface.DeleteUserProfile, crux, profileOwner, AccountKeys(receiver := Some(receiver)))
  }

  // ------------------------------------------------ moderators

  /** The instruction `addModerator` and `removeModerator` both assemble:
      crux and owner come from the profile record; the profile account sent
      is the key the caller passed, while the re-derived address is only
      returned. */
  function ModeratorChange(env: Env, l: Ledger, entry: Surface.EntryPoint, userProfile: Pubkey, cruxManager: Party)
    : (r: Result<Built, ClientError>)
    ensures userProfile !in l.profiles ==> r == Err(AccountDoesNotExist(userProfile))
    ensures r.Ok? ==> userProfile in l.profiles
    ensures userProfile in l.profiles ==>
      var p := l.profiles[userProfile];
      (r.Ok? <==> env.derive(Pda.ProfileOf(p.crux, p.profileOwner)).Some?)
    ensures r.Ok? && userProfile in l.profiles ==>
      var p := l.profiles[userProfile]; var b := r.value;
      && b.tx.entry == entry
      && b.derived.userProfile.Some? && env.derive(Pda.ProfileOf(p.crux, p.profileOwner)) == b.derived.userProfile
      && b.tx.args == [Surface.U8Arg(b.derived.userProfile.value.bump)]
      && b.tx.signers == SignersOf(cruxManager)
      && b.tx.accounts.crux == Some(p.crux) && b.tx.accounts.profileOwner == Some(p.profileOwner)
      && b.tx.accounts.cruxManager == Some(KeyOf(cruxManager))
      && b.tx.accounts.userProfile == Some(userProfile)
  {
    var p :- FetchProfile(l, userProfile);
    var derived :- Find(env, Pda.ProfileOf(p.crux, p.profileOwner));
    Ok(Built(
      Tx(entry, [Surface.U8Arg(derived.bump)],
         AccountKeys(crux := Some(p.crux), cruxManager := Some(KeyOf(cruxManager)), profileOwner := Some(p.profileOwner),
                     userProfile := Some(userProfile), systemProgram := Some(env.systemProgram)),
         SignersOf(cruxManager)),
      Derivations(userProfile := Some(derived))))
  }

  /** `addModerator` */
  function AddModerator(env: Env, l: Ledger, userProfile: Pubkey, cruxManager: Party): (r: Result<Built, ClientError>)
    ensures r.Ok? ==> r.value.tx.entry == Surface.AddModerator && MatchesEntryPoint(r.value)
  {
    ModeratorChange(env, l, Surface.AddModerator, userProfile, cruxManager)
  }

  /** `removeModerator` */
  function RemoveModerator(env: Env, l: Ledger, userProfile: Pubkey, cruxManager: Party): (r: Result<Built, ClientError>)
    ensures r.Ok? ==> r.value.tx.entry == Surface.RemoveModerator && MatchesEntryPoint(r.value)
  {
    ModeratorChange(env, l, Surface.RemoveModerator, userProfile, cruxManager)
  }

  /** For a profile stored at its own derived address, the account the
      moderator builders send is the one they re-derive, so it passes the
      program's profile seeds check with the bump they pass. */
  lemma ModeratorProfileIsRederived(env: Env, l: Ledger, entry: Surface.EntryPoint, userProfile: Pubkey, cruxManager: Party)
    requires userProfile in l.profiles
    requires var p := l.profiles[userProfile];
             env.derive(Pda.ProfileOf(p.crux, p.profileOwner)).Some?
             && env.derive(Pda.ProfileOf(p.crux, p.profileOwner)).value.address == userProfile
    ensures var p := l.profiles[userProfile]; var r := ModeratorChange(env, l, entry, userProfile, cruxManager);
      r.Ok? && Sends(env, r.value.derived.userProfile, r.value.tx.accounts.userProfile, Pda.ProfileOf(p.crux, p.profileOwner))
  {
  }

  // ------------------------------------------------ challenges

  /** The content fields of `createChallenge` and `editChallenge`, after
      their bumps, deserialize exactly when every length fits a `u32` and
      both numbers a `u64`. */
  lemma ChallengeFieldsFit(e: Surface.EntryPoint, bumps: seq<Surface.Arg>, tags: seq<State.Tag>, title: seq<byte>,
                           url: seq<byte>, expiresTs: int, reputation: int)
    requires (e == Surface.CreateChallenge && |bumps| == 1) || (e == Surface.EditChallenge && |bumps| == 2)
    requires forall i :: 0 <= i < |bumps| ==> bumps[i].U8Arg?
    ensures var args := bumps + [Surface.TagsArg(tags), Surface.StrArg(title), Surface.StrArg(url),
                           Surface.U64Arg(expiresTs), Surface.U64Arg(reputation)];
      Surface.WellTyped(args, Surface.Params(e)) <==>
        |tags| <= U32_MAX && |title| <= U32_MAX && |url| <= U32_MAX
        && 0 <= expiresTs <= U64_MAX && 0 <= reputation <= U64_MAX
  {
    var n := |bumps|;
    var args := bumps + [Surface.TagsArg(tags), Surface.StrArg(title), Surface.StrArg(url),
                         Surface.U64Arg(expiresTs), Surface.U64Arg(reputation)];
    var ps := Surface.Params(e);
    assert ps[n..] == [Surface.TagsParam, Surface.StrParam, Surface.StrParam, Surface.U64Param, Surface.U64Param];
    assert args[n] == Surface.TagsArg(tags) && args[n + 1] == Surface.StrArg(title) && args[n + 2] == Surface.StrArg(url);
    assert args[n + 3] == Surface.U64Arg(expiresTs) && args[n + 4] == Surface.U64Arg(reputation);
    assert forall i :: 0 <= i < n ==> ps[i].Bump? && args[i].U8Arg?;
    if |tags| <= U32_MAX && |title| <= U32_MAX && |url| <= U32_MAX
       && 0 <= expiresTs <= U64_MAX && 0 <= reputation <= U64_MAX {
      forall i | 0 <= i < |args| ensures Surface.Fits(args[i], ps[i]) {
        if i >= n { assert ps[i] == ps[n..][i - n]; }
      }
    } else {
      assert !(Surface.Fits(args[n], ps[n]) && Surface.Fits(args[n + 1], ps[n + 1]) && Surface.Fits(args[n + 2], ps[n + 2])
               && Surface.Fits(args[n + 3], ps[n + 3]) && Surface.Fits(args[n + 4], ps[n + 4]));
    }
  }

  /** `createChallenge`: `challengeSeed` is the public key of the fresh
      keypair the builder generates (randomness, so a parameter here); it
      does not sign. */
  function CreateChallenge(env: Env, crux: Pubkey, moderator: Party, contentDataHash: Pubkey,
                           title: seq<byte>, contentDataUrl: seq<byte>, tags: seq<State.Tag>,
                           challengeExpiresTs: int, reputation: int, challengeSeed: Keypair)
    : (r: Result<Built, ClientError>)
    ensures r.Ok? <==> env.derive(Pda.ProfileOf(crux, KeyOf(moderator))).Some?
                       && env.derive(Pda.ChallengeOf(crux, challengeSeed.publicKey)).Some?
    ensures r.Err? ==> r.error == NoViableNonce
    ensures r.Ok? ==> var b := r.value;
      && b.tx.entry == Surface.CreateChallenge
      && BumpsMatch(b)
      && (Surface.WellTyped(b.tx.args, Surface.Params(b.tx.entry)) <==>
            |tags| <= U32_MAX && |title| <= U32_MAX && |contentDataUrl| <= U32_MAX
            && 0 <= challengeExpiresTs <= U64_MAX && 0 <= reputation <= U64_MAX)
      && |b.tx.args| == 6
      && b.tx.args[1..] == [Surface.TagsArg(tags), Surface.StrArg(title), Surface.StrArg(contentDataUrl),
                            Surface.U64Arg(challengeExpiresTs), Surface.U64Arg(reputation)]
      && b.tx.signers == SignersOf(moderator)
      && b.tx.accounts.crux == Some(crux) && b.tx.accounts.moderator == Some(KeyOf(moderator))
      && b.tx.accounts.challengeSeed == Some(challengeSeed.publicKey)
      && b.tx.accounts.contentDataHash == Some(contentDataHash)
      && Sends(env, b.derived.moderatorProfile, b.tx.accounts.moderatorProfile, Pda.ProfileOf(crux, KeyOf(moderator)))
      && Sends(env, b.derived.challenge, b.tx.accounts.challenge, Pda.ChallengeOf(crux, challengeSeed.publicKey))
  {
    var moderatorProfile :- Find(env, Pda.ProfileOf(crux, KeyOf(moderator)));
    var challenge :- Find(env, Pda.ChallengeOf(crux, challengeSeed.publicKey));
    ChallengeFieldsFit(Surface.CreateChallenge, [Surface.U8Arg(moderatorProfile.bump)], tags, title, contentDataUrl,
                       challengeExpiresTs, reputation);
    Ok(Built(
      Tx(Surface.CreateChallenge,
         [Surface.U8Arg(moderatorProfile.bump), Surface.TagsArg(tags), Surface.StrArg(title),
          Surface.StrArg(contentDataUrl), Surface.U64Arg(challengeExpiresTs), Surface.U64Arg(reputation)],
         AccountKeys(crux := Some(crux), moderator := Some(KeyOf(moderator)),
                     moderatorProfile := Some(moderatorProfile.address), challenge := Some(challenge.address),
                     challengeSeed := Some(challengeSeed.publicKey), contentDataHash := Some(contentDataHash),
                     systemProgram := Some(env.systemProgram)),
         SignersOf(moderator)),
      Derivations(moderatorProfile := Some(moderatorProfile), challenge := Some(challenge))))
  }

  /** `editChallenge`: crux and challenge seed come from the challenge
      record; the arguments are in the entry point's order (tags, title,
      URL, expiry, reputation). */
  function EditChallenge(env: Env, l: Ledger, challengeKey: Pubkey, moderator: Party, newContentDataHash: Pubkey,
                         newTitle: seq<byte>, newContentDataUrl: seq<byte>, newTags: seq<State.Tag>,
                         newChallengeExpiresTs: int, newReputation: int)
    : (r: Result<Built, ClientError>)
    ensures challengeKey !in l.challenges ==> r == Err(AccountDoesNotExist(challengeKey))
    ensures r.Ok? ==> challengeKey in l.challenges
    ensures challengeKey in l.challenges ==>
      var c := l.challenges[challengeKey];
      (r.Ok? <==> env.derive(Pda.ProfileOf(c.crux, KeyOf(moderator))).Some?
                  && env.derive(Pda.ChallengeOf(c.crux, c.challengeSeed)).Some?)
    ensures r.Ok? && challengeKey in l.challenges ==>
      var c := l.challenges[challengeKey]; var b := r.value;
      && b.tx.entry == Surface.EditChallenge
      && BumpsMatch(b)
      && (Surface.WellTyped(b.tx.args, Surface.Params(b.tx.entry)) <==>
            |newTags| <= U32_MAX && |newTitle| <= U32_MAX && |newContentDataUrl| <= U32_MAX
            && 0 <= newChallengeExpiresTs <= U64_MAX && 0 <= newReputation <= U64_MAX)
      && |b.tx.args| == 7
      && b.tx.args[2..] == [Surface.TagsArg(newTags), Surface.StrArg(newTitle), Surface.StrArg(newContentDataUrl),
                            Surface.U64Arg(newChallengeExpiresTs), Surface.U64Arg(newReputation)]
      && b.tx.signers == SignersOf(moderator)
      && b.tx.accounts.crux == Some(c.crux) && b.tx.accounts.challengeSeed == Some(c.challengeSeed)
      && b.tx.accounts.moderator == Some(KeyOf(moderator))
      && b.tx.accounts.newContentDataHash == Some(newContentDataHash)
      && Sends(env, b.derived.moderatorProfile, b.tx.accounts.moderatorProfile, Pda.ProfileOf(c.crux, KeyOf(moderator)))
      && Sends(env, b.derived.challenge, b.tx.accounts.challenge, Pda.ChallengeOf(c.crux, c.challengeSeed))
  {
    var c :- FetchChallenge(l, challengeKey);
    var moderatorProfile :- Find(env, Pda.ProfileOf(c.crux, KeyOf(moderator)));
    var challenge :- Find(env, Pda.ChallengeOf(c.crux, c.challengeSeed));
    ChallengeFieldsFit(Surface.EditChallenge, [Surface.U8Arg(moderatorProfile.bump), Surface.U8Arg(challenge.bump)], newTags, newTitle,
                       newContentDataUrl, newChallengeExpiresTs, newReputation);
    Ok(Built(
      Tx(Surface.EditChallenge,
         [Surface.U8Arg(moderatorProfile.bump), Surface.U8Arg(challenge.bump), Surface.TagsArg(newTags),
          Surface.StrArg(newTitle), Surface.StrArg(newContentDataUrl),
          Surface.U64Arg(newChallengeExpiresTs), Surface.U64Arg(newReputation)],
         AccountKeys(crux := Some(c.crux), moderator := Some(KeyOf(moderator)),
                     moderatorProfile := Some(moderatorProfile.address), challenge := Some(challenge.address),
                     challengeSeed := Some(c.challengeSeed), newContentDataHash := Some(newContentDataHash),
                     systemProgram := Some(env.systemProgram)),
         SignersOf(moderator)),
      Derivations(moderatorProfile := Some(moderatorProfile), challenge := Some(challenge))))
  }

  /** `deleteChallenge` */
  function DeleteChallenge(env: Env, l: Ledger, challengeKey: Pubkey, moderator: Party, receiver: Pubkey)
    : (r: Result<Built, ClientError>)
    ensures challengeKey !in l.challenges ==> r == Err(AccountDoesNotExist(challengeKey))
    ensures r.Ok? ==> challengeKey in l.challenges
    ensures challengeKey in l.challenges ==>
      var c := l.challenges[challengeKey];
      (r.Ok? <==> env.derive(Pda.ProfileOf(c.crux, KeyOf(moderator))).Some?
                  && env.derive(Pda.ChallengeOf(c.crux, c.challengeSeed)).Some?)
    ensures r.Ok? && challengeKey in l.challenges ==>
      var c := l.challenges[challengeKey]; var b := r.value;
      && b.tx.entry == Surface.DeleteChallenge && MatchesEntryPoint(b)
      && b.tx.signers == SignersOf(moderator)
      && b.tx.accounts.crux == Some(c.crux) && b.tx.accounts.challengeSeed == Some(c.challengeSeed)
      && b.tx.accounts.moderator == Some(KeyOf(moderator)) && b.tx.accounts.receiver == Some(receiver)
      && Sends(env, b.derived.moderatorProfile, b.tx.accounts.moderatorProfile, Pda.ProfileOf(c.crux, KeyOf(moderator)))
      && Sends(env, b.derived.challenge, b.tx.accounts.challenge, Pda.ChallengeOf(c.crux, c.challengeSeed))
  {
    var c :- FetchChallenge(l, challengeKey);
    var moderatorProfile :- Find(env, Pda.ProfileOf(c.crux, KeyOf(moderator)));
    var challenge :- Find(env, Pda.ChallengeOf(c.crux, c.challengeSeed));
    Ok(Built(
      Tx(Surface.DeleteChallenge, [Surface.U8Arg(moderatorProfile.bump), Surface.U8Arg(challenge.bump)],
         AccountKeys(crux := Some(c.crux), moderator := Some(KeyOf(moderator)),
                     moderatorProfile := Some(moderatorProfile.address), challenge := Some(challenge.address),
                     challengeSeed := Some(c.challengeSeed), receiver := Some(receiver),
                     systemProgram := Some(env.systemProgram)),
         SignersOf(moderator)),
      Derivations(moderatorProfile := Some(moderatorProfile), challenge := Some(challenge))))
  }

  /** For a challenge stored at its own derived address, the challenge the
      builders re-derive from the record is the one the caller named. */
  lemma RederivedChallengeIsRequested(env: Env, l: Ledger, challengeKey: Pubkey, moderator: Party, receiver: Pubkey)
    requires challengeKey in l.challenges
    requires var c := l.challenges[challengeKey];
             env.derive(Pda.ChallengeOf(c.crux, c.challengeSeed)).Some?
             && env.derive(Pda.ChallengeOf(c.crux, c.challengeSeed)).value.address == challengeKey
    ensures var r := DeleteChallenge(env, l, challengeKey, moderator, receiver);
            r.Ok? ==> r.value.tx.accounts.challenge == Some(challengeKey)
  {
  }

  // ------------------------------------------------ submissions

  /** `createSubmission`: crux and challenge seed come from the challenge
      record; the submission is derived from the re-derived challenge and
      the caller's profile. */
  function CreateSubmission(env: Env, l: Ledger, challengeKey: Pubkey, profileOwner: Party, contentDataHash: Pubkey)
    : (r: Result<Built, ClientError>)
    ensures challengeKey !in l.challenges ==> r == Err(AccountDoesNotExist(challengeKey))
    ensures r.Err? && challengeKey in l.challenges ==> r.error == NoViableNonce
    ensures r.Ok? ==> challengeKey in l.challenges
    ensures r.Ok? && challengeKey in l.challenges ==>
      var c := l.challenges[challengeKey]; var b := r.value;
      && b.tx.entry == Surface.CreateSubmission && MatchesEntryPoint(b)
      && b.tx.signers == SignersOf(profileOwner)
      && b.tx.accounts.crux == Some(c.crux) && b.tx.accounts.challengeSeed == Some(c.challengeSeed)
      && b.tx.accounts.profileOwner == Some(KeyOf(profileOwner))
      && b.tx.accounts.contentDataHash == Some(contentDataHash)
      && Sends(env, b.derived.cruxTreasury, b.tx.accounts.cruxTreasury, Pda.TreasuryOf(c.crux))
      && Sends(env, b.derived.userProfile, b.tx.accounts.userProfile, Pda.ProfileOf(c.crux, KeyOf(profileOwner)))
      && Sends(env, b.derived.challenge, b.tx.accounts.challenge, Pda.ChallengeOf(c.crux, c.challengeSeed))
      && SendsSubmission(env, b)
  {
    var c :- FetchChallenge(l, challengeKey);
    var treasury :- Find(env, Pda.TreasuryOf(c.crux));
    var profile :- Find(env, Pda.ProfileOf(c.crux, KeyOf(profileOwner)));
    var challenge :- Find(env, Pda.ChallengeOf(c.crux, c.challengeSeed));
    var submission :- Find(env, Pda.SubmissionOf(challenge.address, profile.address));
    Ok(Built(
      Tx(Surface.CreateSubmission,
         [Surface.U8Arg(treasury.bump), Surface.U8Arg(profile.bump), Surface.U8Arg(challenge.bump)],
         AccountKeys(crux := Some(c.crux), cruxTreasury := Some(treasury.address),
                     profileOwner := Some(KeyOf(profileOwner)), userProfile := Some(profile.address),
                     challenge := Some(challenge.address), challengeSeed := Some(c.challengeSeed),
                     submission := Some(submission.address), contentDataHash := Some(contentDataHash),
                     systemProgram := Some(env.systemProgram)),
         SignersOf(profileOwner)),
      Derivations(cruxTreasury := Some(treasury), userProfile := Some(profile),
                  challenge := Some(challenge), submission := Some(submission))))
  }

  /** The challenge record `editSubmission` and `deleteSubmission` recover:
      the challenge key from the submission record, crux and challenge seed
      from the challenge record. */
  function SubmissionContext(l: Ledger, submissionKey: Pubkey): Result<State.Challenge, ClientError>
  {
    var s :- FetchSubmission(l, submissionKey);
    FetchChallenge(l, s.challenge)
  }

  /** The instruction `editSubmission` and `deleteSubmission` both
      assemble: the profile is derived from the caller's key, not read from
      the submission record, and the submission sent is the one derived
      from it; `submissionKey` only serves to find the challenge. `extra`
      holds the account each adds (`newContentDataHash`, `receiver`). */
  function OwnSubmission(env: Env, l: Ledger, entry: Surface.EntryPoint, submissionKey: Pubkey, profileOwner: Party,
                         extra: AccountKeys)
    : (r: Result<Built, ClientError>)
    ensures submissionKey !in l.submissions ==> r == Err(AccountDoesNotExist(submissionKey))
    ensures submissionKey in l.submissions && l.submissions[submissionKey].challenge !in l.challenges ==>
              r == Err(AccountDoesNotExist(l.submissions[submissionKey].challenge))
    ensures r.Ok? ==> SubmissionContext(l, submissionKey).Ok?
    ensures r.Ok? && SubmissionContext(l, submissionKey).Ok? ==>
      var c := SubmissionContext(l, submissionKey).value; var b := r.value;
      && b.tx.entry == entry
      && b.tx.signers == SignersOf(profileOwner)
      && b.tx.accounts.crux == Some(c.crux) && b.tx.accounts.challengeSeed == Some(c.challengeSeed)
      && b.tx.accounts.profileOwner == Some(KeyOf(profileOwner))
      && b.tx.accounts.newContentDataHash == extra.newContentDataHash && b.tx.accounts.receiver == extra.receiver
      && Sends(env, b.derived.userProfile, b.tx.accounts.userProfile, Pda.ProfileOf(c.crux, KeyOf(profileOwner)))
      && Sends(env, b.derived.challenge, b.tx.accounts.challenge, Pda.ChallengeOf(c.crux, c.challengeSeed))
      && SendsSubmission(env, b)
      && b.tx.args == [Surface.U8Arg(b.derived.userProfile.value.bump), Surface.U8Arg(b.derived.challenge.value.bump),
                       Surface.U8Arg(b.derived.submission.value.bump)]
  {
    var c :- SubmissionContext(l, submissionKey);
    var profile :- Find(env, Pda.ProfileOf(c.crux, KeyOf(profileOwner)));
    var challenge :- Find(env, Pda.ChallengeOf(c.crux, c.challengeSeed));
    var submission :- Find(env, Pda.SubmissionOf(challenge.address, profile.address));
    Ok(Built(
      Tx(entry,
         [Surface.U8Arg(profile.bump), Surface.U8Arg(challenge.bump), Surface.U8Arg(submission.bump)],
         AccountKeys(crux := Some(c.crux), profileOwner := Some(KeyOf(profileOwner)),
                     userProfile := Some(profile.address), challenge := Some(challenge.address),
                     challengeSeed := Some(c.challengeSeed), submission := Some(submission.address),
                     newContentDataHash := extra.newContentDataHash, receiver := extra.receiver,
                     systemProgram := Some(env.systemProgram)),
         SignersOf(profileOwner)),
      Derivations(userProfile := Some(profile), challenge := Some(challenge), submission := Some(submission))))
  }

  /** `editSubmission` */
  function EditSubmission(env: Env, l: Ledger, submissionKey: Pubkey, profileOwner: Party, newContentDataHash: Pubkey)
    : (r: Result<Built, ClientError>)
    ensures r.Ok? ==> r.value.tx.entry == Surface.EditSubmission && MatchesEntryPoint(r.value)
    ensures r.Ok? ==> r.value.tx.accounts.newContentDataHash == Some(newContentDataHash)
  {
    OwnSubmission(env, l, Surface.EditSubmission, submissionKey, profileOwner,
                  AccountKeys(newContentDataHash := Some(newContentDataHash)))
  }

  /** `deleteSubmission` */
  function DeleteSubmission(env: Env, l: Ledger, submissionKey: Pubkey, profileOwner: Party, receiver: Pubkey)
    : (r: Result<Built, ClientError>)
    ensures r.Ok? ==> r.value.tx.entry == Surface.DeleteSubmission && MatchesEntryPoint(r.value)
    ensures r.Ok? ==> r.value.tx.accounts.receiver == Some(receiver)
  {
    OwnSubmission(env, l, Surface.DeleteSubmission, submissionKey, profileOwner, AccountKeys(receiver := Some(receiver)))
  }

  /** A submission stored at its derived address, under a challenge stored
      at its own: the derivation of `(challenge, profile)` with the profile
      it was made with. */
  predicate GenuineSubmission(env: Env, l: Ledger, submissionKey: Pubkey)
  {
    && submissionKey in l.submissions
    && var s := l.submissions[submissionKey];
    && s.challenge in l.challenges
    && var c := l.challenges[s.challenge];
    && env.derive(Pda.ChallengeOf(c.crux, c.challengeSeed)).Some?
    && env.derive(Pda.ChallengeOf(c.crux, c.challengeSeed)).value.address == s.challenge
    && env.derive(Pda.SubmissionOf(s.challenge, s.userProfile)).Some?
    && env.derive(Pda.SubmissionOf(s.challenge, s.userProfile)).value.address == submissionKey
  }

  /** Called by anyone but the author of the submission named,
      `editSubmission` and `deleteSubmission` send a different submission:
      the caller's own entry in the same challenge. Nothing tells the
      caller, so a `deleteSubmission` aimed at one submission deletes
      another when it exists. */
  lemma {:induction false} WrongOwnerSendsOtherSubmission(env: Env, l: Ledger, entry: Surface.EntryPoint,
                                                          submissionKey: Pubkey, profileOwner: Party, extra: AccountKeys)
    requires Faithful(env) && GenuineSubmission(env, l, submissionKey)
    requires var s := l.submissions[submissionKey]; var c := l.challenges[s.challenge];
             var mine := env.derive(Pda.ProfileOf(c.crux, KeyOf(profileOwner)));
             mine.Some? && mine.value.address != s.userProfile
             && Pda.CollisionFree(env.d, Pda.SubmissionOf(s.challenge, s.userProfile), Pda.SubmissionOf(s.challenge, mine.value.address))
    ensures var r := OwnSubmission(env, l, entry, submissionKey, profileOwner, extra);
            r.Ok? ==> r.value.tx.accounts.submission != Some(submissionKey)
  {
    var s := l.submissions[submissionKey];
    var c := l.challenges[s.challenge];
    assert SubmissionContext(l, submissionKey) == Ok(c);
    var mine := env.derive(Pda.ProfileOf(c.crux, KeyOf(profileOwner))).value.address;
    var theirs, ours := Pda.SubmissionOf(s.challenge, s.userProfile), Pda.SubmissionOf(s.challenge, mine);
    assert env.derive(theirs) == Pda.Derive(env.d, theirs) && env.derive(ours) == Pda.Derive(env.d, ours);
    Pda.DistinctSeedsDistinctAddresses(env.d, theirs, ours);
  }

  /** Why the evidently intended builders refuse: the client's own error, or
      a submission that is not the one named. */
  datatype CheckedError = Client(e: ClientError) | NotYourSubmission

  /** `editSubmission` as evidently intended: the re-derived submission must
      be the one the caller named, and the new content URL the handler
      takes is passed after the bumps, as the corrected entry point
      declares it. */
  function EditSubmissionChecked(env: Env, l: Ledger, submissionKey: Pubkey, profileOwner: Party,
                                 newContentDataHash: Pubkey, newContentDataUrl: seq<byte>)
    : (r: Result<Built, CheckedError>)
    ensures r.Ok? ==> r.value.tx.accounts.submission == Some(submissionKey)
    ensures r.Ok? ==> (Surface.WellTyped(r.value.tx.args, Surface.ParamsFixed(Surface.EditSubmission))
                       <==> |newContentDataUrl| <= U32_MAX)
    ensures r.Ok? ==> |r.value.tx.args| == 4 && r.value.tx.args[3] == Surface.StrArg(newContentDataUrl)
    ensures r.Ok? <==> EditSubmission(env, l, submissionKey, profileOwner, newContentDataHash).Ok?
                       && EditSubmission(env, l, submissionKey, profileOwner, newContentDataHash).value.tx.accounts.submission
                          == Some(submissionKey)
  {
    match EditSubmission(env, l, submissionKey, profileOwner, newContentDataHash)
    case Err(e) => Err(Client(e))
    case Ok(b) =>
      if b.tx.accounts.submission != Some(submissionKey) then Err(NotYourSubmission)
      else
        var args := b.tx.args + [Surface.StrArg(newContentDataUrl)];
        assert Surface.WellTyped(b.tx.args, Surface.Params(Surface.EditSubmission));
        assert Surface.ParamsFixed(Surface.EditSubmission) == Surface.Params(Surface.EditSubmission) + [Surface.StrParam];
        assert forall i :: 0 <= i < 3 ==> args[i] == b.tx.args[i];
        assert Surface.Fits(args[3], Surface.StrParam) <==> |newContentDataUrl| <= U32_MAX;
        Ok(b.(tx := b.tx.(args := args)))
  }

  /** `deleteSubmission` as evidently intended: it refuses to send a
      submission other than the one named. */
  function DeleteSubmissionChecked(env: Env, l: Ledger, submissionKey: Pubkey, profileOwner: Party, receiver: Pubkey)
    : (r: Result<Built, CheckedError>)
    ensures r.Ok? ==> r.value.tx.accounts.submission == Some(submissionKey) && MatchesEntryPoint(r.value)
    ensures r.Ok? <==> DeleteSubmission(env, l, submissionKey, profileOwner, receiver).Ok?
                       && DeleteSubmission(env, l, submissionKey, profileOwner, receiver).value.tx.accounts.submission
                          == Some(submissionKey)
  {
    match DeleteSubmission(env, l, submissionKey, profileOwner, receiver)
    case Err(e) => Err(Client(e))
    case Ok(b) => if b.tx.accounts.submission != Some(submissionKey) then Err(NotYourSubmission) else Ok(b)
  }

  /** The checked builders never send another author's submission. */
  lemma CheckedRefusesWrongOwner(env: Env, l: Ledger, submissionKey: Pubkey, profileOwner: Party,
                                 newContentDataHash: Pubkey, url: seq<byte>, receiver: Pubkey)
    requires Faithful(env) && GenuineSubmission(env, l, submissionKey)
    requires var s := l.submissions[submissionKey]; var c := l.challenges[s.challenge];
             var mine := env.derive(Pda.ProfileOf(c.crux, KeyOf(profileOwner)));
             mine.Some? && mine.value.address != s.userProfile
             && Pda.CollisionFree(env.d, Pda.SubmissionOf(s.challenge, s.userProfile), Pda.SubmissionOf(s.challenge, mine.value.address))
    ensures EditSubmissionChecked(env, l, submissionKey, profileOwner, newContentDataHash, url).Err?
    ensures DeleteSubmissionChecked(env, l, submissionKey, profileOwner, receiver).Err?
  {
    WrongOwnerSendsOtherSubmission(env, l, Surface.EditSubmission, submissionKey, profileOwner,
                                   AccountKeys(newContentDataHash := Some(newContentDataHash)));
    WrongOwnerSendsOtherSubmission(env, l, Surface.DeleteSubmission, submissionKey, profileOwner,
                                   AccountKeys(receiver := Some(receiver)));
  }

  /** The keys the moderator builders recover: the challenge record (crux,
      challenge seed) and the profile owner stored in the submission's
      user profile. */
  function ModeratorContext(l: Ledger, submissionKey: Pubkey): Result<(State.Challenge, Pubkey), ClientError>
  {
    var s :- FetchSubmission(l, submissionKey);
    var c :- FetchChallenge(l, s.challenge);
    var p :- FetchProfile(l, s.userProfile);
    Ok((c, p.profileOwner))
  }

  /** The accounts and derivations `deleteSubmissionModerator` and
      `evaluateSubmission` share: the moderator profile derived from the
      caller, the author's profile from the owner read from the record,
      challenge and submission derived as `editSubmission` derives them. */
  function ModeratedSubmission(env: Env, l: Ledger, submissionKey: Pubkey, moderator: Party)
    : (r: Result<(AccountKeys, Derivations), ClientError>)
    ensures submissionKey !in l.submissions ==> r == Err(AccountDoesNotExist(submissionKey))
    ensures r.Ok? ==> ModeratorContext(l, submissionKey).Ok?
    ensures r.Ok? ==> var ds := r.value.1;
      ds.moderatorProfile.Some? && ds.userProfile.Some? && ds.challenge.Some? && ds.submission.Some?
    ensures r.Ok? && ModeratorContext(l, submissionKey).Ok? ==>
      var (c, owner) := ModeratorContext(l, submissionKey).value; var (keys, ds) := r.value;
      && keys.crux == Some(c.crux) && keys.challengeSeed == Some(c.challengeSeed)
      && keys.profileOwner == Some(owner) && keys.moderator == Some(KeyOf(moderator))
      && Sends(env, ds.moderatorProfile, keys.moderatorProfile, Pda.ProfileOf(c.crux, KeyOf(moderator)))
      && Sends(env, ds.userProfile, keys.userProfile, Pda.ProfileOf(c.crux, owner))
      && Sends(env, ds.challenge, keys.challenge, Pda.ChallengeOf(c.crux, c.challengeSeed))
      && Sends(env, ds.submission, keys.submission, Pda.SubmissionOf(keys.challenge.value, keys.userProfile.value))
  {
    var (c, owner) :- ModeratorContext(l, submissionKey);
    var moderatorProfile :- Find(env, Pda.ProfileOf(c.crux, KeyOf(moderator)));
    var profile :- Find(env, Pda.ProfileOf(c.crux, owner));
    var challenge :- Find(env, Pda.ChallengeOf(c.crux, c.challengeSeed));
    var submission :- Find(env, Pda.SubmissionOf(challenge.address, profile.address));
    Ok((AccountKeys(crux := Some(c.crux), moderator := Some(KeyOf(moderator)),
                    moderatorProfile := Some(moderatorProfile.address), profileOwner := Some(owner),
                    userProfile := Some(profile.address), challenge := Some(challenge.address),
                    challengeSeed := Some(c.challengeSeed), submission := Some(submission.address),
                    systemProgram := Some(env.systemProgram)),
        Derivations(moderatorProfile := Some(moderatorProfile), userProfile := Some(profile),
                    challenge := Some(challenge), submission := Some(submission))))
  }

  /** `deleteSubmissionModerator` as written: it passes the moderator
      profile's bump first, four bumps in all, to an entry point that takes
      three. */
  function DeleteSubmissionModerator(env: Env, l: Ledger, submissionKey: Pubkey, moderator: Party, receiver: Pubkey)
    : (r: Result<Built, ClientError>)
    ensures r.Ok? <==> ModeratedSubmission(env, l, submissionKey, moderator).Ok?
    ensures r.Ok? ==> var b := r.value;
      && b.tx.entry == Surface.DeleteSubmissionModerator
      && b.derived.moderatorProfile.Some? && b.derived.userProfile.Some?
      && b.derived.challenge.Some? && b.derived.submission.Some?
      && b.tx.args == [Surface.U8Arg(b.derived.moderatorProfile.value.bump), Surface.U8Arg(b.derived.userProfile.value.bump),
                       Surface.U8Arg(b.derived.challenge.value.bump), Surface.U8Arg(b.derived.submission.value.bump)]
      && b.tx.signers == SignersOf(moderator)
    ensures r.Ok? ==> var m := ModeratedSubmission(env, l, submissionKey, moderator).value;
      r.value.tx.accounts == m.0.(receiver := Some(receiver)) && r.value.derived == m.1
  {
    match ModeratedSubmission(env, l, submissionKey, moderator)
    case Err(e) => Err(e)
    case Ok((keys, ds)) =>
      Ok(Built(
        Tx(Surface.DeleteSubmissionModerator,
           [Surface.U8Arg(ds.moderatorProfile.value.bump), Surface.U8Arg(ds.userProfile.value.bump),
            Surface.U8Arg(ds.challenge.value.bump), Surface.U8Arg(ds.submission.value.bump)],
           keys.(receiver := Some(receiver)),
           SignersOf(moderator)),
        ds))
  }

  /** Whatever the cluster holds, the instruction `deleteSubmissionModerator`
      assembles does not match its entry point: one argument too many, and
      the first bump slot, declared for the user profile, carries the
      moderator profile's bump. */
  lemma ModeratorDeleteDoesNotMatch(env: Env, l: Ledger, submissionKey: Pubkey, moderator: Party, receiver: Pubkey)
    requires DeleteSubmissionModerator(env, l, submissionKey, moderator, receiver).Ok?
    ensures var b := DeleteSubmissionModerator(env, l, submissionKey, moderator, receiver).value;
      && !MatchesEntryPoint(b)
      && |b.tx.args| == |Surface.Params(b.tx.entry)| + 1
      && Surface.Params(b.tx.entry)[0] == Surface.Bump(Surface.ProfileBump)
      && b.tx.args[0] == Surface.U8Arg(b.derived.moderatorProfile.value.bump)
  {
  }

  /** `deleteSubmissionModerator` as evidently intended: the three bumps the
      entry point declares, in its order, and the same accounts. */
  function DeleteSubmissionModeratorFixed(env: Env, l: Ledger, submissionKey: Pubkey, moderator: Party, receiver: Pubkey)
    : (r: Result<Built, ClientError>)
    ensures r.Ok? <==> DeleteSubmissionModerator(env, l, submissionKey, moderator, receiver).Ok?
    ensures r.Ok? ==> r.value.tx.entry == Surface.DeleteSubmissionModerator && MatchesEntryPoint(r.value)
    ensures r.Ok? ==> var w := DeleteSubmissionModerator(env, l, submissionKey, moderator, receiver).value;
      && r.value.tx.args == w.tx.args[1..]
      && r.value.tx.accounts == w.tx.accounts && r.value.tx.signers == w.tx.signers && r.value.derived == w.derived
  {
    match ModeratedSubmission(env, l, submissionKey, moderator)
    case Err(e) => Err(e)
    case Ok((keys, ds)) => Ok(ModeratorDeletion(keys, ds, moderator, receiver))
  }

  /** The instruction the corrected `deleteSubmissionModerator` sends once
      the accounts are assembled. */
  function ModeratorDeletion(keys: AccountKeys, ds: Derivations, moderator: Party, receiver: Pubkey): (b: Built)
    requires ds.userProfile.Some? && ds.challenge.Some? && ds.submission.Some?
    ensures b.tx.entry == Surface.DeleteSubmissionModerator && MatchesEntryPoint(b)
    ensures b.tx.signers == SignersOf(moderator)
    ensures b.tx.accounts == keys.(receiver := Some(receiver)) && b.derived == ds
  {
    Built(
      Tx(Surface.DeleteSubmissionModerator,
         [Surface.U8Arg(ds.userProfile.value.bump), Surface.U8Arg(ds.challenge.value.bump),
          Surface.U8Arg(ds.submission.value.bump)],
         keys.(receiver := Some(receiver)),
         SignersOf(moderator)),
      ds)
  }

  /** `evaluateSubmission`: the four bumps and the state, in the entry
      point's order. */
  function EvaluateSubmission(env: Env, l: Ledger, submissionKey: Pubkey, moderator: Party, state: State.SubmissionState)
    : (r: Result<Built, ClientError>)
    ensures r.Ok? <==> ModeratedSubmission(env, l, submissionKey, moderator).Ok?
    ensures r.Ok? ==> var b := r.value;
      && b.tx.entry == Surface.EvaluateSubmission && MatchesEntryPoint(b)
      && b.tx.args[4] == Surface.StateArg(state)
      && b.tx.signers == SignersOf(moderator)
    ensures r.Ok? ==> (r.value.tx.accounts, r.value.derived) == ModeratedSubmission(env, l, submissionKey, moderator).value
  {
    match ModeratedSubmission(env, l, submissionKey, moderator)
    case Err(e) => Err(e)
    case Ok((keys, ds)) => Ok(Evaluation(keys, ds, moderator, state))
  }

  /** The instruction `evaluateSubmission` sends once the accounts are
      assembled. */
  function Evaluation(keys: AccountKeys, ds: Derivations, moderator: Party, state: State.SubmissionState): (b: Built)
    requires ds.moderatorProfile.Some? && ds.userProfile.Some? && ds.challenge.Some? && ds.submission.Some?
    ensures b.tx.entry == Surface.EvaluateSubmission && MatchesEntryPoint(b)
    ensures b.tx.args[4] == Surface.StateArg(state) && b.tx.signers == SignersOf(moderator)
    ensures b.tx.accounts == keys && b.derived == ds
  {
    Built(
      Tx(Surface.EvaluateSubmission,
         [Surface.U8Arg(ds.moderatorProfile.value.bump), Surface.U8Arg(ds.userProfile.value.bump),
          Surface.U8Arg(ds.challenge.value.bump), Surface.U8Arg(ds.submission.value.bump), Surface.StateArg(state)],
         keys,
         SignersOf(moderator)),
      ds)
  }

  /** For a genuine submission whose author's profile is stored at its own
      derived address, the moderator builders send exactly the submission
      named, because they read its author from the record. */
  lemma {:induction false} ModeratorSendsRequestedSubmission(env: Env, l: Ledger, submissionKey: Pubkey, moderator: Party)
    requires GenuineSubmission(env, l, submissionKey)
    requires var s := l.submissions[submissionKey]; var c := l.challenges[s.challenge];
             s.userProfile in l.profiles
             && env.derive(Pda.ProfileOf(c.crux, l.profiles[s.userProfile].profileOwner)).Some?
             && env.derive(Pda.ProfileOf(c.crux, l.profiles[s.userProfile].profileOwner)).value.address == s.userProfile
    ensures var r := ModeratedSubmission(env, l, submissionKey, moderator);
            r.Ok? ==> r.value.0.submission == Some(submissionKey)
  {
    var s := l.submissions[submissionKey];
    var c := l.challenges[s.challenge];
    assert ModeratorContext(l, submissionKey) == Ok((c, l.profiles[s.userProfile].profileOwner));
  }

  // ------------------------------------------------ any account

  /** `closeAccount`: no derivation, nothing returned but the signature. */
  function CloseAccount(env: Env, signer: Party, accountToClose: Pubkey): (b: Built)
    ensures b.tx.entry == Surface.CloseAccount && MatchesEntryPoint(b)
    ensures b.tx.signers == SignersOf(signer)
    ensures b.tx.accounts.signer == Some(KeyOf(signer)) && b.tx.accounts.accountToClose == Some(accountToClose)
    ensures b.derived == Derivations()
  {
    Built(
      Tx(Surface.CloseAccount, [],
         AccountKeys(signer := Some(KeyOf(signer)), accountToClose := Some(accountToClose),
                     systemProgram := Some(env.systemProgram)),
         SignersOf(signer)),
      Derivations())
  }

  // ------------------------------------------------ tag names

  /** The name the program's interface description gives each `Tags`
      variant: its Rust name in lower camel case. */
  function TagName(t: State.Tag): string
  {
    match t
    case ArtificialIntelligence => "artificialIntelligence"
    case CryptoInfrastructure => "cryptoInfrastructure"
    case DaosAndNetworkStates => "daosAndNetworkStates"
    case DataAndAnalytics => "dataAndAnalytics"
    case Development => "development"
    case FinanceAndPayments => "financeAndPayments"
    case GamingAndEntertainment => "gamingAndEntertainment"
    case Ideas => "ideas"
    case MobileConsumerApps => "mobileConsumerApps"
    case Nfts => "nfts"
    case PhysicalInfrastructureNetworks => "physicalInfrastructureNetworks"
    case Social => "social"
  }

  /** How an enum object `{name: {}}` is encoded: the variant of that name,
      if the program has one (looked up by first letter, then in full). */
  function TagOfName(name: string): (r: Option<State.Tag>)
    ensures r.Some? ==> TagName(r.value) == name
  {
    if |name| == 0 then None
    else match name[0]
      case 'a' => if name == "artificialIntelligence" then Some(State.ArtificialIntelligence) else None
      case 'c' => if name == "cryptoInfrastructure" then Some(State.CryptoInfrastructure) else None
      case 'd' =>
        if name == "daosAndNetworkStates" then Some(State.DaosAndNetworkStates)
        else if name == "dataAndAnalytics" then Some(State.DataAndAnalytics)
        else if name == "development" then Some(State.Development)
        else None
      case 'f' => if name == "financeAndPayments" then Some(State.FinanceAndPayments) else None
      case 'g' => if name == "gamingAndEntertainment" then Some(State.GamingAndEntertainment) else None
      case 'i' => if name == "ideas" then Some(State.Ideas) else None
      case 'm' => if name == "mobileConsumerApps" then Some(State.MobileConsumerApps) else None
      case 'n' => if name == "nfts" then Some(State.Nfts) else None
      case 'p' => if name == "physicalInfrastructureNetworks" then Some(State.PhysicalInfrastructureNetworks) else None
      case 's' => if name == "social" then Some(State.Social) else None
      case _ => None
  }

  lemma TagNamesRoundTrip(t: State.Tag)
    ensures TagOfName(TagName(t)) == Some(t)
  {
  }

  /** `tagValues` as written: each exported name with the variant name of
      the object it stands for. */
  const TAG_VALUES: seq<(string, string)> := [
    ("Client", "client"), ("Concept", "concept"), ("Deploy", "deploy"), ("Gaming", "gaming"),
    ("Nfts", "nfts"), ("Sdk", "sdk"), ("Social", "social"), ("Staking", "staking"),
    ("Video", "video"), ("Wallets", "wallets")]

  /** Only two of the ten exported tag values name a variant of the
      program's `Tags`; the other eight cannot be encoded, and ten of the
      twelve variants have no exported value. */
  lemma TagValuesMostlyUnknown()
    ensures forall i :: 0 <= i < |TAG_VALUES| ==>
              (TagOfName(TAG_VALUES[i].1).Some? <==> TAG_VALUES[i].1 == "nfts" || TAG_VALUES[i].1 == "social")
    ensures TagOfName(TAG_VALUES[0].1) == None
    ensures forall i :: 0 <= i < |TAG_VALUES| ==> TagOfName(TAG_VALUES[i].1) != Some(State.ArtificialIntelligence)
  {
  }

  /** `tagValues` as evidently intended: one entry per program variant, in
      declaration order, naming it as the interface does. */
  function TagValuesFixed(): (r: seq<(State.Tag, string)>)
    ensures |r| == |Borsh.ALL_TAGS|
    ensures forall i :: 0 <= i < |r| ==> TagOfName(r[i].1) == Some(r[i].0)
    ensures forall t: State.Tag :: (t, TagName(t)) in r
  {
    var r := seq(|Borsh.ALL_TAGS|, i requires 0 <= i < |Borsh.ALL_TAGS| => (Borsh.ALL_TAGS[i], TagName(Borsh.ALL_TAGS[i])));
    assert forall t: State.Tag :: (t, TagName(t)) in r by {
      forall t: State.Tag ensures (t, TagName(t)) in r {
        assert r[Borsh.TagIndex(t)] == (t, TagName(t));
      }
    }
    assert forall i :: 0 <= i < |r| ==> TagOfName(r[i].1) == Some(r[i].0) by {
      forall i | 0 <= i < |r| ensures TagOfName(r[i].1) == Some(r[i].0) { TagNamesRoundTrip(r[i].0); }
    }
    r
  }

  // ------------------------------------------------ the client object

  datatype Connection = Connection(endpoint: string)
  datatype Wallet = Wallet(publicKey: Pubkey)
  /** An `AnchorProvider` with the default options. */
  datatype Provider = Provider(connection: Connection, wallet: Wallet)
  datatype Idl = Idl(name: string)

  /** The program handle: built from an interface description and a
      program id, or looked up in the test workspace by name. */
  datatype ProgramHandle =
    | Deployed(idl: Idl, programId: Pubkey, provider: Option<Provider>)
    | Workspace(name: string)

  /** The name `setChallengerProgram` looks the test workspace up under. */
  const WORKSPACE_PROGRAM: string := "BountyPool"

  class ChallengerClient {
    var connection: Connection
    var wallet: Wallet
    /** Declared with a definite-assignment assertion: unset until
        `setProvider` runs. */
    var provider: Option<Provider>
    var challengerProgram: Option<ProgramHandle>

    constructor (connection: Connection, wallet: Wallet, idl: Option<Idl>, programId: Option<Pubkey>)
      ensures this.connection == connection && this.wallet == wallet
      ensures provider == Some(Provider(connection, wallet))
      ensures idl.Some? && programId.Some? ==>
                challengerProgram == Some(Deployed(idl.value, programId.value, provider))
      ensures idl.None? || programId.None? ==> challengerProgram == Some(Workspace(WORKSPACE_PROGRAM))
    {
      this.connection := connection;
      this.wallet := wallet;
      provider := None;
      challengerProgram := None;
      new;
      SetProvider();
      SetChallengerProgram(idl, programId);
    }

    /** `setProvider`: a provider over the client's connection and wallet
        (also installed as Anchor's global provider, which is not modelled). */
    method SetProvider()
      modifies this
      ensures provider == Some(Provider(connection, wallet))
      ensures connection == old(connection) && wallet == old(wallet) && challengerProgram == old(challengerProgram)
    {
      provider := Some(Provider(connection, wallet));
    }

    /** `setChallengerProgram`: with both an interface description and a
        program id, a program over them and the current provider; otherwise
        the test workspace's program, looked up as `BountyPool`. */
    method SetChallengerProgram(idl: Option<Idl>, programId: Option<Pubkey>)
      modifies this
      ensures idl.Some? && programId.Some? ==> challengerProgram == Some(Deployed(idl.value, programId.value, provider))
      ensures idl.None? || programId.None? ==> challengerProgram == Some(Workspace(WORKSPACE_PROGRAM))
      ensures connection == old(connection) && wallet == old(wallet) && provider == old(provider)
    {
      if idl.Some? && programId.Some? {
        challengerProgram := Some(Deployed(idl.value, programId.value, provider));
      } else {
        challengerProgram := Some(Workspace(WORKSPACE_PROGRAM));
      }
    }
  }
}

=== FILE: close_crux.dfy ===
/**
 * `close_crux` (programs/challenger/src/instructions/close_crux.rs): once a
 * crux has no profiles, challenges or submissions left, the manager closes
 * the treasury and the crux into a receiver.
 */
module CloseCruxHandler {
  import opened Types
  import opened State
  import opened Accounts
  import Pda

  datatype Post = Post(crux: Acct<Crux>, treasury: Acct<Raw>, receiver: u64)

  predicate NoneLeft(counts: CruxCounts)
  {
    counts.profileCount == 0 && counts.challengeCount == 0 && counts.submissionCount == 0
  }

  /** The accounts after `close_crux`, or the error: a crux with any count
      above zero is refused; otherwise the treasury and then the crux are
      closed into the receiver. */
  function Outcome(crux: Acct<Crux>, treasury: Acct<Raw>, receiver: u64): (r: Result<Post, ErrorCode>)
    ensures !NoneLeft(crux.data.cruxCounts) ==> r == Err(NotAllCruxPDAsClosed)
    ensures r.Ok? <==> NoneLeft(crux.data.cruxCounts) && receiver + treasury.lamports + crux.lamports <= U64_MAX
    ensures r.Ok? ==> r.value.crux == Closed(crux) && r.value.treasury == Closed(treasury)
    ensures r.Ok? ==> r.value.receiver == receiver + treasury.lamports + crux.lamports
  {
    if !NoneLeft(crux.data.cruxCounts) then Err(NotAllCruxPDAsClosed)
    else
      var afterTreasury :- CloseInto(treasury.lamports, receiver);
      var afterCrux :- CloseInto(crux.lamports, afterTreasury);
      Ok(Post(Closed(crux), Closed(treasury), afterCrux))
  }

  /** The instruction. The receiver is taken to be neither the treasury nor
      the crux. */
  method Handler(d: Pda.Deriver, crux: Account<Crux>, managerKey: Pubkey,
                 treasury: Account<Raw>, receiver: Account<Raw>, bumpTreasury: byte)
    returns (r: Result<(), ErrorCode>)
    requires crux.live && crux.data.cruxManager == managerKey && crux.data.cruxTreasury == treasury.key
    requires Pda.SeedsCheck(d, Pda.CruxTreasurySeeds(crux.key), bumpTreasury, treasury.key)
    requires receiver != treasury
    modifies crux, treasury, receiver
    ensures var o := Outcome(old(crux.View()), old(treasury.View()), old(receiver.lamports));
      && (o.Ok? ==> r.Ok? && crux.View() == o.value.crux && treasury.View() == o.value.treasury
                    && receiver.View() == old(receiver.View()).(lamports := o.value.receiver))
      && (o.Err? ==> r == Err(o.error) && unchanged(crux, treasury, receiver))
  {
    var counts := crux.data.cruxCounts;
    if counts.profileCount > 0 || counts.challengeCount > 0 || counts.submissionCount > 0 {
      return Err(NotAllCruxPDAsClosed);
    }
    var afterTreasury := CloseInto(treasury.lamports, receiver.lamports);
    if afterTreasury.Err? { return Err(afterTreasury.error); }
    var afterCrux := CloseInto(crux.lamports, afterTreasury.value);
    if afterCrux.Err? { return Err(afterCrux.error); }
    receiver.lamports := afterCrux.value;
    treasury.lamports, treasury.live := 0, false;
    crux.lamports, crux.live := 0, false;
    r := Ok(());
  }
}

=== FILE: create_user_profile.dfy ===
/**
 * `create_user_profile` (programs/challenger/src/instructions/create_user_profile.rs):
 * a wallet opens its profile in a crux, paying the crux's profile fee into
 * the treasury; the crux counts one more profile.
 */
module CreateUserProfileHandler {
  import opened Types
  import opened State
  import opened Accounts
  import Pda

  /** `8 + size_of::<UserProfile>()` */
  const PROFILE_SPACE: nat := 8 + USER_PROFILE_SIZE

  datatype Post = Post(crux: Crux, treasury: u64, owner: u64, profile: Acct<UserProfile>)

  /** The accounts after `create_user_profile`, or the error: Anchor
      initialises the profile at the owner's expense, the owner pays a
      non-zero fee into the treasury, the profile is filled in and the
      crux's profile count goes up by one. */
  function Outcome(cruxKey: Pubkey, ownerKey: Pubkey, crux: Crux, treasury: u64, owner: u64,
                   profile: Acct<UserProfile>, now: u64, rent: nat -> u64)
    : (r: Result<Post, ErrorCode>)
    ensures profile.live ==> r == Err(AccountAlreadyInUse)
    ensures r.Ok? ==> r.value.profile.live && r.value.profile.size == PROFILE_SPACE
                      && r.value.profile.lamports >= rent(PROFILE_SPACE)
    ensures r.Ok? ==> var p := r.value.profile.data;
      && p.profileOwner == ownerKey && p.crux == cruxKey
      && p.profileCreatedTs == now && p.mostRecentEngagementTs == now
      && p.challengesSubmitted == 0 && p.challengesCompleted == 0 && p.reputationScore == 0
      && p.nftPfpTokenMint == ZERO_KEY && !p.isModerator
    ensures r.Ok? ==> r.value.crux.cruxCounts.profileCount == crux.cruxCounts.profileCount + 1
                      && r.value.crux.(cruxCounts := crux.cruxCounts) == crux
                      && r.value.crux.cruxCounts.(profileCount := crux.cruxCounts.profileCount) == crux.cruxCounts
    ensures r.Ok? ==> r.value.treasury == treasury + crux.cruxFees.profileFee
    ensures r.Ok? ==> r.value.owner + r.value.treasury + r.value.profile.lamports == owner + treasury + profile.lamports
  {
    var funded :- InitFunding(owner, profile.lamports, profile.live, rent(PROFILE_SPACE));
    var fee := crux.cruxFees.profileFee;
    var paid :- if fee > 0 then Transfer(funded.0, treasury, fee) else Ok((funded.0, treasury));
    var count :- TryAdd(crux.cruxCounts.profileCount, 1);
    Ok(Post(
      crux.(cruxCounts := crux.cruxCounts.(profileCount := count)),
      paid.1,
      paid.0,
      Acct(funded.1, PROFILE_SPACE, true,
           UserProfile(ownerKey, cruxKey, now, now, 0, 0, 0, ZERO_KEY, false))))
  }

  /** A wallet has at most one profile per crux: once created, creating it
      again fails. */
  lemma CreateTwiceFails(cruxKey: Pubkey, ownerKey: Pubkey, crux: Crux, treasury: u64, owner: u64,
                         profile: Acct<UserProfile>, now: u64, later: u64, rent: nat -> u64)
    requires Outcome(cruxKey, ownerKey, crux, treasury, owner, profile, now, rent).Ok?
    ensures var p := Outcome(cruxKey, ownerKey, crux, treasury, owner, profile, now, rent).value;
      Outcome(cruxKey, ownerKey, p.crux, p.treasury, p.owner, p.profile, later, rent) == Err(AccountAlreadyInUse)
  {
  }

  /** The instruction. The profile's address is the canonical derivation
      from the crux and the owner; the treasury is the crux's. */
  method Handler(d: Pda.Deriver, rent: nat -> u64, now: u64,
                 crux: Account<Crux>, treasury: Account<Raw>, owner: Account<Raw>, profile: Account<UserProfile>,
                 bumpTreasury: byte)
    returns (r: Result<(), ErrorCode>)
    requires crux.live && crux.data.cruxTreasury == treasury.key
    requires Pda.SeedsCheck(d, Pda.CruxTreasurySeeds(crux.key), bumpTreasury, treasury.key)
    requires d.onCurve(owner.key)
    requires Pda.CanonicalCheck(d, Pda.UserProfileSeeds(crux.key, owner.key), profile.key)
    modifies crux, treasury, owner, profile
    ensures var o := Outcome(crux.key, owner.key, old(crux.data), old(treasury.lamports), old(owner.lamports),
                             old(profile.View()), now, rent);
      && (o.Ok? ==> r.Ok? && crux.View() == old(crux.View()).(data := o.value.crux)
                    && treasury.View() == old(treasury.View()).(lamports := o.value.treasury)
                    && owner.View() == old(owner.View()).(lamports := o.value.owner)
                    && profile.View() == o.value.profile)
      && (o.Err? ==> r == Err(o.error) && unchanged(crux, treasury, owner, profile))
  {
    Pda.SignerIsNotDerived(d, owner.key, Pda.CruxTreasurySeeds(crux.key), bumpTreasury, treasury.key);
    var funded := InitFunding(owner.lamports, profile.lamports, profile.live, rent(PROFILE_SPACE));
    if funded.Err? { return Err(funded.error); }
    var fee := crux.data.cruxFees.profileFee;
    var paid := Ok((funded.value.0, treasury.lamports));
    if fee > 0 {
      paid := Transfer(funded.value.0, treasury.lamports, fee);
      if paid.Err? { return Err(paid.error); }
    }
    var count := TryAdd(crux.data.cruxCounts.profileCount, 1);
    if count.Err? { return Err(count.error); }

    owner.lamports, treasury.lamports := paid.value.0, paid.value.1;
    profile.lamports, profile.size, profile.live := funded.value.1, PROFILE_SPACE, true;
    profile.data := UserProfile(owner.key, crux.key, now, now, 0, 0, 0, ZERO_KEY, false);
    crux.data := crux.data.(cruxCounts := crux.data.cruxCounts.(profileCount := count.value));
    r := Ok(());
  }
}

=== FILE: delete_challenge.dfy ===
/**
 * `delete_challenge` (programs/challenger/src/instructions/delete_challenge.rs):
 * a moderator closes a challenge into a receiver; the crux counts one
 * challenge fewer.
 */
module DeleteChallengeHandler {
  import opened Types
  import opened State
  import opened Accounts
  import Pda

  datatype Post = Post(crux: Crux, moderatorProfile: UserProfile, challenge: Acct<Challenge>, receiver: u64)

  /** The accounts after `delete_challenge`, or the error: only a moderator
      may delete; the challenge is closed into the receiver and the
      challenge count decremented (checked). */
  function Outcome(crux: Crux, moderatorProfile: UserProfile, challenge: Acct<Challenge>, receiver: u64, now: u64)
    : (r: Result<Post, ErrorCode>)
    ensures !moderatorProfile.isModerator ==> r == Err(ProfileIsNotModerator)
    ensures r.Ok? <==> moderatorProfile.isModerator && receiver + challenge.lamports <= U64_MAX
                       && crux.cruxCounts.challengeCount >= 1
    ensures r.Ok? ==> r.value.challenge == Closed(challenge) && r.value.receiver == receiver + challenge.lamports
    ensures r.Ok? ==> r.value.crux.cruxCounts.challengeCount + 1 == crux.cruxCounts.challengeCount
                      && r.value.crux.(cruxCounts := crux.cruxCounts) == crux
                      && r.value.crux.cruxCounts.(challengeCount := crux.cruxCounts.challengeCount) == crux.cruxCounts
    ensures r.Ok? ==> r.value.moderatorProfile == moderatorProfile.(mostRecentEngagementTs := now)
  {
    if !moderatorProfile.isModerator then Err(ProfileIsNotModerator)
    else
      var credited :- CloseInto(challenge.lamports, receiver);
      var count :- TrySub(crux.cruxCounts.challengeCount, 1);
      Ok(Post(crux.(cruxCounts := crux.cruxCounts.(challengeCount := count)),
              moderatorProfile.(mostRecentEngagementTs := now), Closed(challenge), credited))
  }

  /** The instruction, with the same account constraints as `edit_challenge`
      and a receiver. */
  method Handler(d: Pda.Deriver, now: u64,
                 crux: Account<Crux>, moderatorKey: Pubkey, moderatorProfile: Account<UserProfile>,
                 challenge: Account<Challenge>, challengeSeedKey: Pubkey, receiver: Account<Raw>,
                 bumpModeratorProfile: byte, bumpChallenge: byte)
    returns (r: Result<(), ErrorCode>)
    requires crux.live && moderatorProfile.live && challenge.live
    requires Pda.SeedsCheck(d, Pda.UserProfileSeeds(crux.key, moderatorKey), bumpModeratorProfile, moderatorProfile.key)
    requires moderatorProfile.data.crux == crux.key && moderatorProfile.data.profileOwner == moderatorKey
    requires Pda.SeedsCheck(d, Pda.ChallengeSeeds(crux.key, challengeSeedKey), bumpChallenge, challenge.key)
    requires challenge.data.crux == crux.key && challenge.data.challengeSeed == challengeSeedKey
    modifies crux, moderatorProfile, challenge, receiver
    ensures var o := Outcome(old(crux.data), old(moderatorProfile.data), old(challenge.View()), old(receiver.lamports), now);
      && (o.Ok? ==> r.Ok? && crux.View() == old(crux.View()).(data := o.value.crux)
                    && moderatorProfile.View() == old(moderatorProfile.View()).(data := o.value.moderatorProfile)
                    && challenge.View() == o.value.challenge
                    && receiver.View() == old(receiver.View()).(lamports := o.value.receiver))
      && (o.Err? ==> r == Err(o.error) && unchanged(crux, moderatorProfile, challenge, receiver))
  {
    if !moderatorProfile.data.isModerator { return Err(ProfileIsNotModerator); }
    var credited := CloseInto(challenge.lamports, receiver.lamports);
    if credited.Err? { return Err(credited.error); }
    var count := TrySub(crux.data.cruxCounts.challengeCount, 1);
    if count.Err? { return Err(count.error); }
    receiver.lamports := credited.value;
    challenge.lamports, challenge.live := 0, false;
    crux.data := crux.data.(cruxCounts := crux.data.cruxCounts.(challengeCount := count.value));
    moderatorProfile.data := moderatorProfile.data.(mostRecentEngagementTs := now);
    r := Ok(());
  }
}

=== FILE: delete_submission.dfy ===
/**
 * `delete_submission` (programs/challenger/src/instructions/delete_submission.rs):
 * the owner of a submission that was not accepted closes it into a
 * receiver; the crux and the profile each count one submission fewer.
 */
module DeleteSubmissionHandler {
  import opened Types
  import opened State
  import opened Accounts
  import Pda

  datatype Post = Post(crux: Crux, profile: UserProfile, submission: Acct<Submission>, receiver: u64)

  /** The accounts after `delete_submission`, or the error: a completed
      (accepted) submission cannot be deleted; otherwise it is closed into
      the receiver and both submission counts are decremented (checked). */
  function Outcome(crux: Crux, profile: UserProfile, submission: Acct<Submission>, receiver: u64, now: u64)
    : (r: Result<Post, ErrorCode>)
    ensures submission.data.submissionState == Completed ==> r == Err(AccountCannotBeEdited)
    ensures r.Ok? <==>
      && submission.data.submissionState != Completed
      && receiver + submission.lamports <= U64_MAX
      && crux.cruxCounts.submissionCount >= 1
      && profile.challengesSubmitted >= 1
    ensures r.Ok? ==> r.value.submission == Closed(submission) && r.value.receiver == receiver + submission.lamports
    ensures r.Ok? ==> r.value.crux.cruxCounts.submissionCount + 1 == crux.cruxCounts.submissionCount
                      && r.value.crux.(cruxCounts := crux.cruxCounts) == crux
                      && r.value.crux.cruxCounts.(submissionCount := crux.cruxCounts.submissionCount) == crux.cruxCounts
    ensures r.Ok? ==> r.value.profile.challengesSubmitted + 1 == profile.challengesSubmitted
                      && r.value.profile.mostRecentEngagementTs == now
                      && r.value.profile.(challengesSubmitted := profile.challengesSubmitted,
                                          mostRecentEngagementTs := profile.mostRecentEngagementTs) == profile
  {
    if submission.data.submissionState == Completed then Err(AccountCannotBeEdited)
    else
      var credited :- CloseInto(submission.lamports, receiver);
      var cruxCount :- TrySub(crux.cruxCounts.submissionCount, 1);
      var profileCount :- TrySub(profile.challengesSubmitted, 1);
      Ok(Post(crux.(cruxCounts := crux.cruxCounts.(submissionCount := cruxCount)),
              profile.(challengesSubmitted := profileCount, mostRecentEngagementTs := now),
              Closed(submission), credited))
  }

  /** The instruction: the profile is the signer's in this crux, the
      challenge the crux's, and the submission the one derived from both. */
  method Handler(d: Pda.Deriver, now: u64,
                 crux: Account<Crux>, ownerKey: Pubkey, profile: Account<UserProfile>,
                 challenge: Account<Challenge>, challengeSeedKey: Pubkey, submission: Account<Submission>,
                 receiver: Account<Raw>, bumpUserProfile: byte, bumpChallenge: byte, bumpSubmission: byte)
    returns (r: Result<(), ErrorCode>)
    requires crux.live && profile.live && challenge.live && submission.live
    requires Pda.SeedsCheck(d, Pda.UserProfileSeeds(crux.key, ownerKey), bumpUserProfile, profile.key)
    requires profile.data.crux == crux.key && profile.data.profileOwner == ownerKey
    requires Pda.SeedsCheck(d, Pda.ChallengeSeeds(crux.key, challengeSeedKey), bumpChallenge, challenge.key)
    requires challenge.data.crux == crux.key && challenge.data.challengeSeed == challengeSeedKey
    requires Pda.SeedsCheck(d, Pda.SubmissionSeeds(challenge.key, profile.key), bumpSubmission, submission.key)
    requires submission.data.challenge == challenge.key && submission.data.userProfile == profile.key
    modifies crux, profile, submission, receiver
    ensures var o := Outcome(old(crux.data), old(profile.data), old(submission.View()), old(receiver.lamports), now);
      && (o.Ok? ==> r.Ok? && crux.View() == old(crux.View()).(data := o.value.crux)
                    && profile.View() == old(profile.View()).(data := o.value.profile)
                    && submission.View() == o.value.submission
                    && receiver.View() == old(receiver.View()).(lamports := o.value.receiver))
      && (o.Err? ==> r == Err(o.error) && unchanged(crux, profile, submission, receiver))
  {
    if submission.data.submissionState == Completed { return Err(AccountCannotBeEdited); }
    var credited := CloseInto(submission.lamports, receiver.lamports);
    if credited.Err? { return Err(credited.error); }
    var cruxCount := TrySub(crux.data.cruxCounts.submissionCount, 1);
    if cruxCount.Err? { return Err(cruxCount.error); }
    var profileCount := TrySub(profile.data.challengesSubmitted, 1);
    if profileCount.Err? { return Err(profileCount.error); }
    receiver.lamports := credited.value;
    submission.lamports, submission.live := 0, false;
    crux.data := crux.data.(cruxCounts := crux.data.cruxCounts.(submissionCount := cruxCount.value));
    profile.data := profile.data.(challengesSubmitted := profileCount.value);
    profile.data := profile.data.(mostRecentEngagementTs := now);
    r := Ok(());
  }
}

=== FILE: delete_user_profile.dfy ===
/**
 * `delete_user_profile` (programs/challenger/src/instructions/delete_user_profile.rs):
 * the owner closes their profile into a receiver; the crux counts one
 * profile fewer.
 */
module DeleteUserProfileHandler {
  import opened Types
  import opened State
  import opened Accounts
  import Pda
  import CreateUserProfileHandler

  datatype Post = Post(crux: Crux, profile: Acct<UserProfile>, receiver: u64)

  /** The accounts after `delete_user_profile`, or the error: the profile is
      closed into the receiver, then the profile count is decremented
      (checked). */
  function Outcome(crux: Crux, profile: Acct<UserProfile>, receiver: u64): (r: Result<Post, ErrorCode>)
    ensures r.Ok? <==> receiver + profile.lamports <= U64_MAX && crux.cruxCounts.profileCount >= 1
    ensures r.Err? ==> r.error == ArithmeticError
    ensures r.Ok? ==> r.value.profile == Closed(profile) && r.value.receiver == receiver + profile.lamports
    ensures r.Ok? ==> r.value.crux.cruxCounts.profileCount + 1 == crux.cruxCounts.profileCount
                      && r.value.crux.(cruxCounts := crux.cruxCounts) == crux
                      && r.value.crux.cruxCounts.(profileCount := crux.cruxCounts.profileCount) == crux.cruxCounts
  {
    var credited :- CloseInto(profile.lamports, receiver);
    var count :- TrySub(crux.cruxCounts.profileCount, 1);
    Ok(Post(crux.(cruxCounts := crux.cruxCounts.(profileCount := count)), Closed(profile), credited))
  }

  /** Creating a profile and deleting it again leaves the crux record exactly
      as it was, and returns the profile's lamports to the receiver. */
  lemma CreateThenDeleteRestoresCrux(cruxKey: Pubkey, ownerKey: Pubkey, crux: Crux, treasury: u64, owner: u64,
                                     profile: Acct<UserProfile>, now: u64, rent: nat -> u64, receiver: u64)
    requires CreateUserProfileHandler.Outcome(cruxKey, ownerKey, crux, treasury, owner, profile, now, rent).Ok?
    requires receiver + CreateUserProfileHandler.Outcome(cruxKey, ownerKey, crux, treasury, owner, profile, now, rent).value.profile.lamports <= U64_MAX
    ensures var created := CreateUserProfileHandler.Outcome(cruxKey, ownerKey, crux, treasury, owner, profile, now, rent).value;
      var deleted := Outcome(created.crux, created.profile, receiver);
      && deleted.Ok?
      && deleted.value.crux == crux
      && !deleted.value.profile.live
  {
  }

  /** The instruction: the profile is the signer's, in this crux. The
      receiver is taken to be another account than the profile. */
  method Handler(d: Pda.Deriver, crux: Account<Crux>, ownerKey: Pubkey, profile: Account<UserProfile>,
                 receiver: Account<Raw>, bumpUserProfile: byte)
    returns (r: Result<(), ErrorCode>)
    requires crux.live && profile.live
    requires Pda.SeedsCheck(d, Pda.UserProfileSeeds(crux.key, ownerKey), bumpUserProfile, profile.key)
    requires profile.data.profileOwner == ownerKey && profile.data.crux == crux.key
    modifies crux, profile, receiver
    ensures var o := Outcome(old(crux.data), old(profile.View()), old(receiver.lamports));
      && (o.Ok? ==> r.Ok? && crux.View() == old(crux.View()).(data := o.value.crux)
                    && profile.View() == o.value.profile
                    && receiver.View() == old(receiver.View()).(lamports := o.value.receiver))
      && (o.Err? ==> r == Err(o.error) && unchanged(crux, profile, receiver))
  {
    var credited := CloseInto(profile.lamports, receiver.lamports);
    if credited.Err? { return Err(credited.error); }
    var count := TrySub(crux.data.cruxCounts.profileCount, 1);
    if count.Err? { return Err(count.error); }
    receiver.lamports := credited.value;
    profile.lamports, profile.live := 0, false;
    crux.data := crux.data.(cruxCounts := crux.data.cruxCounts.(profileCount := count.value));
    r := Ok(());
  }
}

=== FILE: edit_challenge.dfy ===
/**
 * `edit_challenge` (programs/challenger/src/instructions/edit_challenge.rs):
 * a moderator rewrites a challenge's title, URL, tags, expiry, reputation and
 * content hash, paying for any growth of the account.
 */
module EditChallengeHandler {
  import opened Types
  import opened State
  import opened Accounts
  import opened Borsh
  import Pda

  /** Titles and URLs are at most 256 bytes. */
  const MAX_TEXT: nat := 256

  datatype Post = Post(moderator: u64, moderatorProfile: UserProfile, challenge: Acct<Challenge>)

  /** The challenge with the edited fields; its crux, seed and posting time
      are kept. */
  function Edited(c: Challenge, title: BStr, url: BStr, tags: TagList, expires: u64, reputation: u64, hash: Pubkey)
    : (r: Challenge)
    ensures r.title == title && r.contentDataUrl == url && r.tags == tags
    ensures r.challengeExpiresTs == expires && r.reputation == reputation && r.contentDataHash == hash
    ensures r.crux == c.crux && r.challengeSeed == c.challengeSeed && r.challengePostedTs == c.challengePostedTs
  {
    c.(challengeExpiresTs := expires, reputation := reputation, tags := tags, title := title,
       contentDataUrl := url, contentDataHash := hash)
  }

  /** The accounts after `edit_challenge`, or the error, checked in the
      handler's order: moderator, empty text, long text, expiry in the past,
      then the growth payment (which fails when the challenge already holds
      more than the new minimum). */
  function Outcome(moderatorProfile: UserProfile, moderator: u64, challenge: Acct<Challenge>, hashKey: Pubkey,
                   title: BStr, url: BStr, tags: TagList, expires: u64, reputation: u64, now: u64, rent: nat -> u64)
    : (r: Result<Post, ErrorCode>)
    ensures !moderatorProfile.isModerator ==> r == Err(ProfileIsNotModerator)
    ensures moderatorProfile.isModerator && (|title| == 0 || |url| == 0) ==> r == Err(InvalidStringInput)
    ensures moderatorProfile.isModerator && 0 < |title| && 0 < |url| && (|title| > MAX_TEXT || |url| > MAX_TEXT) ==>
      r == Err(TitleOrUrlTooLong)
    ensures moderatorProfile.isModerator && 0 < |title| <= MAX_TEXT && 0 < |url| <= MAX_TEXT && expires <= now ==>
      r == Err(InvalidExpiryTs)
    ensures r.Ok? <==>
      && moderatorProfile.isModerator
      && 0 < |title| <= MAX_TEXT && 0 < |url| <= MAX_TEXT
      && now < expires
      && Grow(moderator, challenge.lamports, challenge.lamports, challenge.size,
              EditChallengeSize(tags, title, url), rent).Ok?
    ensures r.Ok? ==> r.value.challenge.data == Edited(challenge.data, title, url, tags, expires, reputation, hashKey)
    ensures r.Ok? ==> r.value.challenge.size == (if EditChallengeSize(tags, title, url) > challenge.size
                                                 then EditChallengeSize(tags, title, url) else challenge.size)
                      && r.value.challenge.live == challenge.live
    ensures r.Ok? && EditChallengeSize(tags, title, url) <= challenge.size ==>
      r.value.challenge.lamports == challenge.lamports && r.value.moderator == moderator
    ensures r.Ok? ==> r.value.moderatorProfile == moderatorProfile.(mostRecentEngagementTs := now)
    ensures r.Ok? ==> r.value.moderator + r.value.challenge.lamports == moderator + challenge.lamports
    ensures r.Ok? && EditChallengeSize(tags, title, url) > challenge.size ==>
      r.value.challenge.lamports == rent(EditChallengeSize(tags, title, url))
  {
    if !moderatorProfile.isModerator then Err(ProfileIsNotModerator)
    else if |title| == 0 || |url| == 0 then Err(InvalidStringInput)
    else if |title| > MAX_TEXT || |url| > MAX_TEXT then Err(TitleOrUrlTooLong)
    else if !(expires > now) then Err(InvalidExpiryTs)
    else
      var grown :- Grow(moderator, challenge.lamports, challenge.lamports, challenge.size,
                        EditChallengeSize(tags, title, url), rent);
      Ok(Post(grown.0, moderatorProfile.(mostRecentEngagementTs := now),
              Acct(grown.1, grown.2, challenge.live,
                   Edited(challenge.data, title, url, tags, expires, reputation, hashKey))))
  }

  /** After a successful edit the account is large enough for the edited
      record: its Borsh serialization behind the discriminator fits. */
  lemma {:induction false} EditedChallengeFits(disc: Disc, moderatorProfile: UserProfile, moderator: u64,
    challenge: Acct<Challenge>, hashKey: Pubkey, title: BStr, url: BStr, tags: TagList, expires: u64,
    reputation: u64, now: u64, rent: nat -> u64)
    requires Outcome(moderatorProfile, moderator, challenge, hashKey, title, url, tags, expires, reputation, now, rent).Ok?
    ensures var c := Outcome(moderatorProfile, moderator, challenge, hashKey, title, url, tags, expires, reputation, now, rent).value.challenge;
      |AccountData(disc, SerializeChallenge(c.data))| <= c.size
  {
    var c := Outcome(moderatorProfile, moderator, challenge, hashKey, title, url, tags, expires, reputation, now, rent).value.challenge;
    ChallengeLayout(disc, c.data);
  }

  /** The instruction. The moderator signs and pays; the moderator profile
      is the signer's in this crux; the challenge is the crux's, derived from
      its seed. */
  method Handler(d: Pda.Deriver, rent: nat -> u64, now: u64,
                 crux: Account<Crux>, moderator: Account<Raw>, moderatorProfile: Account<UserProfile>,
                 challenge: Account<Challenge>, challengeSeedKey: Pubkey, hashKey: Pubkey,
                 bumpModeratorProfile: byte, bumpChallenge: byte,
                 title: BStr, url: BStr, tags: TagList, expires: u64, reputation: u64)
    returns (r: Result<(), ErrorCode>)
    requires crux.live && moderatorProfile.live && challenge.live
    requires Pda.SeedsCheck(d, Pda.UserProfileSeeds(crux.key, moderator.key), bumpModeratorProfile, moderatorProfile.key)
    requires moderatorProfile.data.crux == crux.key && moderatorProfile.data.profileOwner == moderator.key
    requires Pda.SeedsCheck(d, Pda.ChallengeSeeds(crux.key, challengeSeedKey), bumpChallenge, challenge.key)
    requires challenge.data.crux == crux.key && challenge.data.challengeSeed == challengeSeedKey
    modifies moderator, moderatorProfile, challenge
    ensures var o := Outcome(old(moderatorProfile.data), old(moderator.lamports), old(challenge.View()), hashKey,
                             title, url, tags, expires, reputation, now, rent);
      && (o.Ok? ==> r.Ok? && moderator.View() == old(moderator.View()).(lamports := o.value.moderator)
                    && moderatorProfile.View() == old(moderatorProfile.View()).(data := o.value.moderatorProfile)
                    && challenge.View() == o.value.challenge)
      && (o.Err? ==> r == Err(o.error) && unchanged(moderator, moderatorProfile, challenge))
  {
    if !moderatorProfile.data.isModerator { return Err(ProfileIsNotModerator); }
    if |title| == 0 || |url| == 0 { return Err(InvalidStringInput); }
    if |title| > MAX_TEXT || |url| > MAX_TEXT { return Err(TitleOrUrlTooLong); }
    if !(expires > now) { return Err(InvalidExpiryTs); }

    var newSize := 96 + |Tags(tags)| + |Str(title)| + |Str(url)| + 32;
    var grown := Grow(moderator.lamports, challenge.lamports, challenge.lamports, challenge.size, newSize, rent);
    if grown.Err? { return Err(grown.error); }
    moderator.lamports := grown.value.0;
    challenge.lamports, challenge.size := grown.value.1, grown.value.2;

    challenge.data := challenge.data.(challengeExpiresTs := expires, reputation := reputation);
    challenge.data := challenge.data.(tags := tags, title := title, contentDataUrl := url);
    challenge.data := challenge.data.(contentDataHash := hashKey);
    moderatorProfile.data := moderatorProfile.data.(mostRecentEngagementTs := now);
    r := Ok(());
  }
}

=== FILE: edit_question.dfy ===
/**
 * `edit_question` of the forum program
 * (programs/forum/src/instructions/edit_question.rs): the author of a
 * question replaces its title, content and tag, paying for any growth of
 * the account.
 */
module EditQuestionHandler {
  import opened Types
  import opened Accounts
  import opened Borsh
  import Pda

  /** Titles are at most 256 bytes; content is not limited here. */
  const MAX_TITLE: nat := 256

  const QUESTION: seq<byte> := Ascii("question")

  /** The forum's `Tags` value; the enum is not part of this model and is
      taken to be fieldless, one byte in Borsh. */
  type ForumTag = byte

  /** The fields of `Question` that the handler reads or writes (the struct
      is not part of this model). */
  datatype Question = Question(
    userProfile: Pubkey,
    questionSeed: Pubkey,
    mostRecentEngagementTs: u64,
    title: BStr,
    content: BStr,
    tag: ForumTag)

  /** `["question", forum, user_profile, question_seed]` */
  function QuestionSeeds(forum: Pubkey, profile: Pubkey, seed: Pubkey): seq<seq<byte>>
  {
    [QUESTION, forum, profile, seed]
  }

  /** The size the handler computes: 128 fixed bytes, title, content and
      the one-byte tag, plus one. */
  function QuestionSize(title: BStr, content: BStr): nat
  {
    128 + |Str(title)| + |Str(content)| + 1 + 1
  }

  datatype Post = Post(owner: u64, question: Acct<Question>)

  /** The accounts after `edit_question`, or the error, in the handler's
      order: empty title or content, long title, then the growth payment. */
  function Outcome(owner: u64, question: Acct<Question>, title: BStr, content: BStr, tag: ForumTag,
                   now: u64, rent: nat -> u64)
    : (r: Result<Post, ErrorCode>)
    ensures |title| == 0 || |content| == 0 ==> r == Err(InvalidStringInputs)
    ensures 0 < |title| && 0 < |content| && |title| > MAX_TITLE ==> r == Err(TitleTooLong)
    ensures r.Ok? <==>
      && 0 < |title| <= MAX_TITLE && 0 < |content|
      && Grow(owner, question.lamports, question.lamports, question.size, QuestionSize(title, content), rent).Ok?
    ensures r.Ok? ==> var q := r.value.question.data;
      && q.title == title && q.content == content && q.tag == tag && q.mostRecentEngagementTs == now
      && q.userProfile == question.data.userProfile && q.questionSeed == question.data.questionSeed
    ensures r.Ok? ==> r.value.question.size == (if QuestionSize(title, content) > question.size
                                                then QuestionSize(title, content) else question.size)
                      && r.value.question.live == question.live
    ensures r.Ok? && QuestionSize(title, content) <= question.size ==>
      r.value.question.lamports == question.lamports && r.value.owner == owner
    ensures r.Ok? ==> r.value.owner + r.value.question.lamports == owner + question.lamports
    ensures r.Ok? && QuestionSize(title, content) > question.size ==>
      r.value.question.lamports == rent(QuestionSize(title, content))
  {
    if |title| == 0 || |content| == 0 then Err(InvalidStringInputs)
    else if |title| > MAX_TITLE then Err(TitleTooLong)
    else
      var grown :- Grow(owner, question.lamports, question.lamports, question.size, QuestionSize(title, content), rent);
      Ok(Post(grown.0, Acct(grown.1, grown.2, question.live,
        question.data.(mostRecentEngagementTs := now, title := title, content := content, tag := tag))))
  }

  /** Editing to the same text again needs no further payment: the second
      edit leaves the balances and the size as the first left them. */
  lemma SecondEditPaysNothing(owner: u64, question: Acct<Question>, title: BStr, content: BStr, tag: ForumTag,
                              now: u64, later: u64, rent: nat -> u64)
    requires Outcome(owner, question, title, content, tag, now, rent).Ok?
    ensures var p := Outcome(owner, question, title, content, tag, now, rent).value;
      var again := Outcome(p.owner, p.question, title, content, tag, later, rent);
      again.Ok? && again.value.owner == p.owner && again.value.question.lamports == p.question.lamports
      && again.value.question.size == p.question.size
  {
  }

  /** The instruction, run by the forum program (`d` carries its id). The
      profile is the signer's (`["user_profile", owner]`); the question is
      that profile's, derived from its seed. */
  method Handler(d: Pda.Deriver, rent: nat -> u64, now: u64, forumKey: Pubkey, owner: Account<Raw>,
                 profileKey: Pubkey, question: Account<Question>, questionSeedKey: Pubkey,
                 bumpUserProfile: byte, bumpQuestion: byte, title: BStr, content: BStr, tag: ForumTag)
    returns (r: Result<(), ErrorCode>)
    requires question.live
    requires Pda.SeedsCheck(d, Pda.ForumUserProfileSeeds(owner.key), bumpUserProfile, profileKey)
    requires Pda.SeedsCheck(d, QuestionSeeds(forumKey, profileKey, questionSeedKey), bumpQuestion, question.key)
    requires question.data.userProfile == profileKey && question.data.questionSeed == questionSeedKey
    modifies owner, question
    ensures var o := Outcome(old(owner.lamports), old(question.View()), title, content, tag, now, rent);
      && (o.Ok? ==> r.Ok? && owner.View() == old(owner.View()).(lamports := o.value.owner)
                    && question.View() == o.value.question)
      && (o.Err? ==> r == Err(o.error) && unchanged(owner, question))
  {
    if |title| == 0 || |content| == 0 { return Err(InvalidStringInputs); }
    if |title| > MAX_TITLE { return Err(TitleTooLong); }
    var newSize := 128 + |Str(title)| + |Str(content)| + 1 + 1;
    var grown := Grow(owner.lamports, question.lamports, question.lamports, question.size, newSize, rent);
    if grown.Err? { return Err(grown.error); }
    owner.lamports := grown.value.0;
    question.lamports, question.size := grown.value.1, grown.value.2;
    question.data := question.data.(mostRecentEngagementTs := now, title := title);
    question.data := question.data.(content := content, tag := tag);
    r := Ok(());
  }
}

=== FILE: edit_submission.dfy ===
/**
 * `edit_submission` (programs/challenger/src/instructions/edit_submission.rs):
 * the owner of a submission replaces its content URL and hash, and the
 * submission goes back to pending review.
 *
 * `OutcomeAsWritten` and `HandlerAsWritten` follow the handler line by line.
 * `Outcome` and `Handler` are the evidently intended behaviour, which the
 * rest of the model uses: editing is
 * refused once the challenge has expired (not while it is open), an evaluated
 * (accepted or rejected) submission cannot be edited, and the growth payment is computed from the
 * submission's own balance (not the challenge's).
 */
module EditSubmissionHandler {
  import opened Types
  import opened State
  import opened Accounts
  import opened Borsh
  import Pda
  import DeleteSubmissionHandler

  /** URLs are at most 256 bytes. */
  const MAX_TEXT: nat := 256

  /** The size the handler computes for the edited submission: 88 fixed
      bytes, the URL, the hash and the one-byte state. */
  function SubmissionSize(url: BStr): nat
  {
    88 + |Str(url)| + 32 + 1
  }

  datatype Post = Post(owner: u64, profile: UserProfile, submission: Acct<Submission>)

  /** The edited submission: new URL, hash and time, back to `Pending`;
      challenge and profile links kept. */
  function Resubmitted(s: Submission, url: BStr, hash: Pubkey, now: u64): (r: Submission)
    ensures r.contentDataUrl == url && r.contentDataHash == hash && r.mostRecentEngagementTs == now
    ensures r.submissionState == Pending
    ensures r.challenge == s.challenge && r.userProfile == s.userProfile
  {
    s.(mostRecentEngagementTs := now, contentDataUrl := url, contentDataHash := hash, submissionState := Pending)
  }

  /** `edit_submission` as written: the expiry test refuses challenges that
      are still open, a completed submission is reset to pending, and the
      growth payment is the new minimum less the CHALLENGE's balance. */
  function OutcomeAsWritten(profile: UserProfile, owner: u64, challenge: Challenge, challengeLamports: u64,
                            submission: Acct<Submission>, hashKey: Pubkey, url: BStr, now: u64, rent: nat -> u64)
    : (r: Result<Post, ErrorCode>)
    ensures |url| == 0 ==> r == Err(InvalidStringInput)
    ensures 0 < |url| <= MAX_TEXT && now < challenge.challengeExpiresTs ==> r == Err(ChallengeExpired)
    ensures |url| > MAX_TEXT ==> r == Err(TitleOrUrlTooLong)
    ensures r.Ok? <==>
      && 0 < |url| <= MAX_TEXT && challenge.challengeExpiresTs <= now
      && Grow(owner, submission.lamports, challengeLamports, submission.size, SubmissionSize(url), rent).Ok?
    ensures r.Ok? ==> r.value.submission.data == Resubmitted(submission.data, url, hashKey, now)
    ensures r.Ok? ==> r.value.profile == profile.(mostRecentEngagementTs := now)
    ensures r.Ok? ==> r.value.owner + r.value.submission.lamports == owner + submission.lamports
    ensures r.Ok? && SubmissionSize(url) > submission.size ==>
      && r.value.submission.size == SubmissionSize(url)
      && r.value.submission.lamports == submission.lamports + (rent(SubmissionSize(url)) - challengeLamports)
    ensures r.Ok? && SubmissionSize(url) <= submission.size ==>
      && r.value.submission.size == submission.size
      && r.value.submission.lamports == submission.lamports && r.value.owner == owner
  {
    if |url| == 0 then Err(InvalidStringInput)
    else if |url| > MAX_TEXT then Err(TitleOrUrlTooLong)
    else if challenge.challengeExpiresTs > now then Err(ChallengeExpired)
    else
      var grown :- Grow(owner, submission.lamports, challengeLamports, submission.size, SubmissionSize(url), rent);
      Ok(Post(grown.0, profile.(mostRecentEngagementTs := now),
              Acct(grown.1, grown.2, submission.live, Resubmitted(submission.data, url, hashKey, now))))
  }

  /** `edit_submission` as intended: edits only while the challenge is open
      and the submission is still pending, so an evaluation is never undone. */
  function Outcome(profile: UserProfile, owner: u64, challenge: Challenge,
                   submission: Acct<Submission>, hashKey: Pubkey, url: BStr, now: u64, rent: nat -> u64)
    : (r: Result<Post, ErrorCode>)
    ensures |url| == 0 ==> r == Err(InvalidStringInput)
    ensures |url| > MAX_TEXT ==> r == Err(TitleOrUrlTooLong)
    ensures 0 < |url| <= MAX_TEXT && challenge.challengeExpiresTs <= now ==> r == Err(ChallengeExpired)
    ensures 0 < |url| <= MAX_TEXT && now < challenge.challengeExpiresTs && submission.data.submissionState != Pending
            ==> r == Err(AccountCannotBeEdited)
    ensures r.Ok? <==>
      && 0 < |url| <= MAX_TEXT && now < challenge.challengeExpiresTs
      && submission.data.submissionState == Pending
      && Grow(owner, submission.lamports, submission.lamports, submission.size, SubmissionSize(url), rent).Ok?
    ensures r.Ok? ==> r.value.submission.data == Resubmitted(submission.data, url, hashKey, now)
    ensures r.Ok? ==> r.value.profile == profile.(mostRecentEngagementTs := now)
    ensures r.Ok? ==> r.value.owner + r.value.submission.lamports == owner + submission.lamports
    ensures r.Ok? ==> r.value.submission.size == (if SubmissionSize(url) > submission.size
                                                  then SubmissionSize(url) else submission.size)
                      && r.value.submission.live == submission.live
    ensures r.Ok? && SubmissionSize(url) > submission.size ==> r.value.submission.lamports == rent(SubmissionSize(url))
    ensures r.Ok? && SubmissionSize(url) <= submission.size ==>
      r.value.submission.lamports == submission.lamports && r.value.owner == owner
  {
    if |url| == 0 then Err(InvalidStringInput)
    else if |url| > MAX_TEXT then Err(TitleOrUrlTooLong)
    else if challenge.challengeExpiresTs <= now then Err(ChallengeExpired)
    else if submission.data.submissionState != Pending then Err(AccountCannotBeEdited)
    else
      var grown :- Grow(owner, submission.lamports, submission.lamports, submission.size, SubmissionSize(url), rent);
      Ok(Post(grown.0, profile.(mostRecentEngagementTs := now),
              Acct(grown.1, grown.2, submission.live, Resubmitted(submission.data, url, hashKey, now))))
  }

  // ------------------------------------------------ the discrepancies, exhibited

  /** A rent schedule for the examples: 10 lamports a byte. */
  function SampleRent(n: nat): u64
  {
    if n * 10 <= U64_MAX then n * 10 else U64_MAX
  }

  /** As written, a challenge that is still open (expires at 200, now is
      100) cannot have its submissions edited, while the intended handler
      accepts the edit. */
  lemma OpenChallengeRefused(profile: UserProfile, challenge: Challenge, submission: Submission, hashKey: Pubkey)
    requires challenge.challengeExpiresTs == 200
    requires submission.submissionState == Pending
    ensures OutcomeAsWritten(profile, 1000, challenge, 0, Acct(2000, 500, true, submission), hashKey, [1], 100, SampleRent)
            == Err(ChallengeExpired)
    ensures Outcome(profile, 1000, challenge, Acct(2000, 500, true, submission), hashKey, [1], 100, SampleRent).Ok?
  {
  }

  /** As written, editing an accepted submission (after its challenge has
      expired) turns it back into a pending one, which `delete_submission`
      then closes, although it refuses to close the accepted one. The
      intended handler refuses the edit. */
  lemma {:induction false} EditUnlocksAcceptedSubmission(crux: Crux, profile: UserProfile, challenge: Challenge,
                                                         submission: Submission, hashKey: Pubkey, now: u64)
    requires submission.submissionState == Completed
    requires challenge.challengeExpiresTs <= now
    requires crux.cruxCounts.submissionCount >= 1 && profile.challengesSubmitted >= 1
    ensures DeleteSubmissionHandler.Outcome(crux, profile, Acct(2000, 500, true, submission), 0, now)
            == Err(AccountCannotBeEdited)
    ensures var edited := OutcomeAsWritten(profile, 1000, challenge, 0, Acct(2000, 500, true, submission), hashKey, [1], now, SampleRent);
      && edited.Ok?
      && DeleteSubmissionHandler.Outcome(crux, edited.value.profile, edited.value.submission, 0, now).Ok?
    ensures Outcome(profile, 1000, challenge, Acct(2000, 500, true, submission), hashKey, [1], now, SampleRent).Err?
  {
    var edited := OutcomeAsWritten(profile, 1000, challenge, 0, Acct(2000, 500, true, submission), hashKey, [1], now, SampleRent);
    assert edited.Ok?;
    assert edited.value.submission.data.submissionState == Pending;
  }

  /** As written, growing a submission is paid for from the challenge's
      balance: a challenge holding exactly the new minimum means nothing is
      paid and the grown submission is left below it. */
  lemma GrowthUnderpaid(profile: UserProfile, challenge: Challenge, submission: Submission, hashKey: Pubkey)
    requires challenge.challengeExpiresTs == 0
    ensures SubmissionSize([1]) == 126 && SampleRent(126) == 1260
    ensures var edited := OutcomeAsWritten(profile, 5000, challenge, 1260, Acct(1250, 125, true, submission), hashKey, [1], 100, SampleRent);
      && edited.Ok? && edited.value.submission.size == 126 && edited.value.submission.lamports == 1250
  {
  }

  /** As intended, a submission the edit grows holds exactly the rent-exempt
      minimum of its new size; one it does not grow keeps its balance. */
  lemma IntendedGrowthIsRentExempt(profile: UserProfile, owner: u64, challenge: Challenge,
                                   submission: Acct<Submission>, hashKey: Pubkey, url: BStr, now: u64, rent: nat -> u64)
    requires Outcome(profile, owner, challenge, submission, hashKey, url, now, rent).Ok?
    ensures var s := Outcome(profile, owner, challenge, submission, hashKey, url, now, rent).value.submission;
      if SubmissionSize(url) > submission.size then s.lamports == rent(s.size) && s.size == SubmissionSize(url)
      else s.lamports == submission.lamports && s.size == submission.size
  {
  }

  /** As intended, an evaluated submission keeps its verdict: no edit sends
      an accepted or rejected submission back to pending, so an accepted one
      stays undeletable and a rejected one stays rejected. */
  lemma IntendedEditKeepsResolvedLocked(profile: UserProfile, owner: u64, challenge: Challenge,
                                        submission: Acct<Submission>, hashKey: Pubkey, url: BStr, now: u64, rent: nat -> u64)
    requires submission.data.submissionState != Pending
    ensures Outcome(profile, owner, challenge, submission, hashKey, url, now, rent).Err?
  {
  }

  /** As written, a rejected submission is edited back to pending once its
      challenge has expired; the intended handler refuses the edit. */
  lemma EditReopensRejectedSubmission(profile: UserProfile, challenge: Challenge, submission: Submission,
                                      hashKey: Pubkey, now: u64)
    requires submission.submissionState == Rejected
    requires challenge.challengeExpiresTs <= now
    ensures var edited := OutcomeAsWritten(profile, 1000, challenge, 0, Acct(2000, 500, true, submission), hashKey, [1], now, SampleRent);
      edited.Ok? && edited.value.submission.data.submissionState == Pending
    ensures Outcome(profile, 1000, challenge, Acct(2000, 500, true, submission), hashKey, [1], now, SampleRent)
            == Err(ChallengeExpired)
  {
  }

  /** The instruction as written: the expiry test is inverted, a completed
      submission is reset to pending, and the growth payment is priced
      against the challenge account's balance. Same accounts as `Handler`. */
  method HandlerAsWritten(d: Pda.Deriver, rent: nat -> u64, now: u64,
                          crux: Account<Crux>, owner: Account<Raw>, profile: Account<UserProfile>,
                          challenge: Account<Challenge>, challengeSeedKey: Pubkey, submission: Account<Submission>,
                          hashKey: Pubkey, bumpUserProfile: byte, bumpChallenge: byte, bumpSubmission: byte, url: BStr)
    returns (r: Result<(), ErrorCode>)
    requires crux.live && profile.live && challenge.live && submission.live
    requires Pda.SeedsCheck(d, Pda.UserProfileSeeds(crux.key, owner.key), bumpUserProfile, profile.key)
    requires profile.data.crux == crux.key && profile.data.profileOwner == owner.key
    requires Pda.SeedsCheck(d, Pda.ChallengeSeeds(crux.key, challengeSeedKey), bumpChallenge, challenge.key)
    requires challenge.data.crux == crux.key && challenge.data.challengeSeed == challengeSeedKey
    requires Pda.SeedsCheck(d, Pda.SubmissionSeeds(challenge.key, profile.key), bumpSubmission, submission.key)
    requires submission.data.challenge == challenge.key && submission.data.userProfile == profile.key
    modifies owner, profile, submission
    ensures var o := OutcomeAsWritten(old(profile.data), old(owner.lamports), challenge.data, challenge.lamports,
                                      old(submission.View()), hashKey, url, now, rent);
      && (o.Ok? ==> r.Ok? && owner.View() == old(owner.View()).(lamports := o.value.owner)
                    && profile.View() == old(profile.View()).(data := o.value.profile)
                    && submission.View() == o.value.submission)
      && (o.Err? ==> r == Err(o.error) && unchanged(owner, profile, submission))
  {
    if |url| == 0 { return Err(InvalidStringInput); }
    if |url| > MAX_TEXT { return Err(TitleOrUrlTooLong); }
    if challenge.data.challengeExpiresTs > now { return Err(ChallengeExpired); }

    var newSize := 88 + |Str(url)| + 32 + 1;
    var grown := Grow(owner.lamports, submission.lamports, challenge.lamports, submission.size, newSize, rent);
    if grown.Err? { return Err(grown.error); }
    owner.lamports := grown.value.0;
    submission.lamports, submission.size := grown.value.1, grown.value.2;

    submission.data := submission.data.(mostRecentEngagementTs := now, contentDataUrl := url);
    submission.data := submission.data.(contentDataHash := hashKey, submissionState := Pending);
    profile.data := profile.data.(mostRecentEngagementTs := now);
    r := Ok(());
  }

  /** The instruction as intended. The owner signs and pays; the profile is
      the owner's in this crux, the challenge the crux's, the submission the
      one derived from challenge and profile. */
  method Handler(d: Pda.Deriver, rent: nat -> u64, now: u64,
                 crux: Account<Crux>, owner: Account<Raw>, profile: Account<UserProfile>,
                 challenge: Account<Challenge>, challengeSeedKey: Pubkey, submission: Account<Submission>,
                 hashKey: Pubkey, bumpUserProfile: byte, bumpChallenge: byte, bumpSubmission: byte, url: BStr)
    returns (r: Result<(), ErrorCode>)
    requires crux.live && profile.live && challenge.live && submission.live
    requires Pda.SeedsCheck(d, Pda.UserProfileSeeds(crux.key, owner.key), bumpUserProfile, profile.key)
    requires profile.data.crux == crux.key && profile.data.profileOwner == owner.key
    requires Pda.SeedsCheck(d, Pda.ChallengeSeeds(crux.key, challengeSeedKey), bumpChallenge, challenge.key)
    requires challenge.data.crux == crux.key && challenge.data.challengeSeed == challengeSeedKey
    requires Pda.SeedsCheck(d, Pda.SubmissionSeeds(challenge.key, profile.key), bumpSubmission, submission.key)
    requires submission.data.challenge == challenge.key && submission.data.userProfile == profile.key
    modifies owner, profile, submission
    ensures var o := Outcome(old(profile.data), old(owner.lamports), challenge.data, old(submission.View()),
                             hashKey, url, now, rent);
      && (o.Ok? ==> r.Ok? && owner.View() == old(owner.View()).(lamports := o.value.owner)
                    && profile.View() == old(profile.View()).(data := o.value.profile)
                    && submission.View() == o.value.submission)
      && (o.Err? ==> r == Err(o.error) && unchanged(owner, profile, submission))
  {
    if |url| == 0 { return Err(InvalidStringInput); }
    if |url| > MAX_TEXT { return Err(TitleOrUrlTooLong); }
    if challenge.data.challengeExpiresTs <= now { return Err(ChallengeExpired); }
    if submission.data.submissionState != Pending { return Err(AccountCannotBeEdited); }

    var newSize := 88 + |Str(url)| + 32 + 1;
    var grown := Grow(owner.lamports, submission.lamports, submission.lamports, submission.size, newSize, rent);
    if grown.Err? { return Err(grown.error); }
    owner.lamports := grown.value.0;
    submission.lamports, submission.size := grown.value.1, grown.value.2;

    submission.data := submission.data.(mostRecentEngagementTs := now, contentDataUrl := url);
    submission.data := submission.data.(contentDataHash := hashKey, submissionState := Pending);
    profile.data := profile.data.(mostRecentEngagementTs := now);
    r := Ok(());
  }
}

=== FILE: edit_user_profile.dfy ===
/**
 * `edit_user_profile` (programs/challenger/src/instructions/edit_user_profile.rs):
 * the owner sets the NFT mint shown as their picture.
 */
module EditUserProfileHandler {
  import opened Types
  import opened State
  import opened Accounts
  import Pda

  /** The profile with a new picture mint and engagement time; nothing else
      (moderator flag, counters, reputation) changes. */
  function WithPicture(p: UserProfile, mint: Pubkey, now: u64): (r: UserProfile)
    ensures r.nftPfpTokenMint == mint && r.mostRecentEngagementTs == now
    ensures r.(nftPfpTokenMint := p.nftPfpTokenMint, mostRecentEngagementTs := p.mostRecentEngagementTs) == p
  {
    p.(nftPfpTokenMint := mint, mostRecentEngagementTs := now)
  }

  /** The instruction: the profile is the signer's, in this crux. */
  method Handler(d: Pda.Deriver, now: u64, crux: Account<Crux>, ownerKey: Pubkey, profile: Account<UserProfile>,
                 mintKey: Pubkey, bumpUserProfile: byte)
    requires crux.live && profile.live
    requires Pda.SeedsCheck(d, Pda.UserProfileSeeds(crux.key, ownerKey), bumpUserProfile, profile.key)
    requires profile.data.profileOwner == ownerKey && profile.data.crux == crux.key
    modifies profile
    ensures profile.View() == old(profile.View()).(data := WithPicture(old(profile.data), mintKey, now))
  {
    profile.data := profile.data.(nftPfpTokenMint := mintKey);
    profile.data := profile.data.(mostRecentEngagementTs := now);
  }
}

=== FILE: filters.dfy ===
/**
 * The account scans of the client (`fetchAll*PDAs` in
 * src/challenger.client.ts): each builds a list of `memcmp` filters, at most
 * one, comparing 32 bytes at a fixed offset of the account data with a key.
 * The offsets are checked here against the Borsh layout of the records.
 */
module Filters {
  import opened Types
  import opened State
  import opened Borsh

  /** A `memcmp` filter: the 32 bytes at `offset` must equal `bytes` (the
      client passes the key in Base58; the node compares the decoded bytes). */
  datatype Memcmp = Memcmp(offset: nat, bytes: Pubkey)

  predicate Matches(data: seq<byte>, f: Memcmp)
  {
    f.offset + 32 <= |data| && data[f.offset..f.offset + 32] == f.bytes
  }

  predicate MatchesAll(data: seq<byte>, fs: seq<Memcmp>)
  {
    forall i :: 0 <= i < |fs| ==> Matches(data, fs[i])
  }

  lemma MatchesSingle(data: seq<byte>, f: Memcmp)
    ensures MatchesAll(data, [f]) <==> Matches(data, f)
  {
    if Matches(data, f) {
      forall i | 0 <= i < |[f]| ensures Matches(data, [f][i]) { assert [f][i] == f; }
    } else {
      assert !Matches(data, [f][0]);
    }
  }

  /** One optional-key filter, as every `fetchAll*` writes it. */
  function Optional(key: Option<Pubkey>, offset: nat): (r: seq<Memcmp>)
    ensures key.None? ==> r == []
    ensures key.Some? ==> r == [Memcmp(offset, key.value)]
  {
    match key
    case None => []
    case Some(k) => [Memcmp(offset, k)]
  }

  /** `fetchAllCruxPDAs`: by manager, at offset 10. */
  function CruxFilters(cruxManager: Option<Pubkey>): seq<Memcmp> { Optional(cruxManager, 10) }

  /** `fetchAllUserProfilePDAs`: by crux, at offset 40. */
  function UserProfileFilters(crux: Option<Pubkey>): seq<Memcmp> { Optional(crux, 40) }

  /** `fetchAllUserProfilePDAsByProfileOwner`: by owner, at offset 8 (the key
      is a required parameter, so the filter is always present). */
  function UserProfileByOwnerFilters(profileOwner: Pubkey): seq<Memcmp> { Optional(Some(profileOwner), 8) }

  /** `fetchAllChallengePDAs`: by crux, at offset 8. */
  function ChallengeFilters(crux: Option<Pubkey>): seq<Memcmp> { Optional(crux, 8) }

  /** `fetchAllSubmissionPDAs`: by challenge, at offset 8. */
  function SubmissionFilters(challenge: Option<Pubkey>): seq<Memcmp> { Optional(challenge, 8) }

  /** `fetchAllSubmissionPDAsByUserProfile`: by user profile, at offset 40. */
  function SubmissionByProfileFilters(userProfile: Pubkey): seq<Memcmp> { Optional(Some(userProfile), 40) }

  /** An absent key gives no filter, so every account is returned. */
  lemma NoKeyMatchesEverything(data: seq<byte>)
    ensures MatchesAll(data, CruxFilters(None))
    ensures MatchesAll(data, UserProfileFilters(None))
    ensures MatchesAll(data, ChallengeFilters(None))
    ensures MatchesAll(data, SubmissionFilters(None))
  {
  }

  /** The crux scan selects exactly the cruxes whose manager is the key. */
  lemma CruxFilterSelectsManager(disc: Disc, c: Crux, k: Pubkey)
    ensures MatchesAll(AccountData(disc, SerializeCrux(c)), CruxFilters(Some(k))) <==> c.cruxManager == k
  {
    CruxLayout(c);
    var data := AccountData(disc, SerializeCrux(c));
    assert data[10..42] == SerializeCrux(c)[2..34];
    MatchesSingle(data, Memcmp(10, k));
  }

  /** The profile scan by crux selects exactly the profiles of that crux. */
  lemma UserProfileFilterSelectsCrux(disc: Disc, p: UserProfile, k: Pubkey)
    ensures MatchesAll(AccountData(disc, SerializeUserProfile(p)), UserProfileFilters(Some(k))) <==> p.crux == k
  {
    UserProfileLayout(p);
    var data := AccountData(disc, SerializeUserProfile(p));
    assert data[40..72] == SerializeUserProfile(p)[32..64];
    MatchesSingle(data, Memcmp(40, k));
  }

  /** The profile scan by owner selects exactly the profiles of that owner. */
  lemma UserProfileFilterSelectsOwner(disc: Disc, p: UserProfile, k: Pubkey)
    ensures MatchesAll(AccountData(disc, SerializeUserProfile(p)), UserProfileByOwnerFilters(k)) <==> p.profileOwner == k
  {
    UserProfileLayout(p);
    var data := AccountData(disc, SerializeUserProfile(p));
    assert data[8..40] == SerializeUserProfile(p)[..32];
    MatchesSingle(data, Memcmp(8, k));
  }

  /** The challenge scan selects exactly the challenges of that crux. */
  lemma ChallengeFilterSelectsCrux(disc: Disc, c: Challenge, k: Pubkey)
    ensures MatchesAll(AccountData(disc, SerializeChallenge(c)), ChallengeFilters(Some(k))) <==> c.crux == k
  {
    ChallengeLayout(disc, c);
    var data := AccountData(disc, SerializeChallenge(c));
    assert |SerializeChallenge(c)| >= 64;
    assert data[8..40] == SerializeChallenge(c)[..32];
    MatchesSingle(data, Memcmp(8, k));
  }

  /** What `account.crux.all(filters)` returns, over a snapshot of the crux
      accounts: the addresses whose data passes every filter. */
  function ScanCruxes(disc: Disc, cruxes: map<Pubkey, Crux>, fs: seq<Memcmp>): set<Pubkey>
  {
    set a | a in cruxes && MatchesAll(AccountData(disc, SerializeCrux(cruxes[a])), fs)
  }

  function ScanUserProfiles(disc: Disc, profiles: map<Pubkey, UserProfile>, fs: seq<Memcmp>): set<Pubkey>
  {
    set a | a in profiles && MatchesAll(AccountData(disc, SerializeUserProfile(profiles[a])), fs)
  }

  function ScanChallenges(disc: Disc, challenges: map<Pubkey, Challenge>, fs: seq<Memcmp>): set<Pubkey>
  {
    set a | a in challenges && MatchesAll(AccountData(disc, SerializeChallenge(challenges[a])), fs)
  }

  /** `fetchAllCruxPDAs(manager)` returns exactly the cruxes that manager
      manages, and `fetchAllCruxPDAs()` all of them. */
  lemma FetchAllCruxes(disc: Disc, cruxes: map<Pubkey, Crux>, manager: Option<Pubkey>)
    ensures ScanCruxes(disc, cruxes, CruxFilters(manager))
      == set a | a in cruxes && (manager.None? || cruxes[a].cruxManager == manager.value)
  {
    forall a | a in cruxes
      ensures MatchesAll(AccountData(disc, SerializeCrux(cruxes[a])), CruxFilters(manager))
          <==> (manager.None? || cruxes[a].cruxManager == manager.value)
    {
      if manager.Some? { CruxFilterSelectsManager(disc, cruxes[a], manager.value); }
    }
  }

  /** `fetchAllUserProfilePDAs(crux)` returns exactly that crux's profiles. */
  lemma FetchAllUserProfiles(disc: Disc, profiles: map<Pubkey, UserProfile>, crux: Option<Pubkey>)
    ensures ScanUserProfiles(disc, profiles, UserProfileFilters(crux))
      == set a | a in profiles && (crux.None? || profiles[a].crux == crux.value)
  {
    forall a | a in profiles
      ensures MatchesAll(AccountData(disc, SerializeUserProfile(profiles[a])), UserProfileFilters(crux))
          <==> (crux.None? || profiles[a].crux == crux.value)
    {
      if crux.Some? { UserProfileFilterSelectsCrux(disc, profiles[a], crux.value); }
    }
  }

  /** `fetchAllUserProfilePDAsByProfileOwner(owner)` returns exactly the
      owner's profiles, across all cruxes. */
  lemma FetchAllUserProfilesByOwner(disc: Disc, profiles: map<Pubkey, UserProfile>, owner: Pubkey)
    ensures ScanUserProfiles(disc, profiles, UserProfileByOwnerFilters(owner))
      == set a | a in profiles && profiles[a].profileOwner == owner
  {
    forall a | a in profiles
      ensures MatchesAll(AccountData(disc, SerializeUserProfile(profiles[a])), UserProfileByOwnerFilters(owner))
          <==> profiles[a].profileOwner == owner
    {
      UserProfileFilterSelectsOwner(disc, profiles[a], owner);
    }
  }

  /** `fetchAllChallengePDAs(crux)` returns exactly that crux's challenges. */
  lemma FetchAllChallenges(disc: Disc, challenges: map<Pubkey, Challenge>, crux: Option<Pubkey>)
    ensures ScanChallenges(disc, challenges, ChallengeFilters(crux))
      == set a | a in challenges && (crux.None? || challenges[a].crux == crux.value)
  {
    forall a | a in challenges
      ensures MatchesAll(AccountData(disc, SerializeChallenge(challenges[a])), ChallengeFilters(crux))
          <==> (crux.None? || challenges[a].crux == crux.value)
    {
      if crux.Some? { ChallengeFilterSelectsCrux(disc, challenges[a], crux.value); }
    }
  }
}

=== FILE: init_crux.dfy ===
/**
 * `init_crux` (programs/challenger/src/instructions/init_crux.rs): creates a
 * crux and its treasury, both paid for by the crux manager, and records the
 * crux authority the handler derives itself.
 */
module InitCruxHandler {
  import opened Types
  import opened State
  import opened Accounts
  import Pda

  /** `8 + size_of::<Crux>()` */
  const CRUX_SPACE: nat := 8 + CRUX_SIZE
  /** The treasury is created with `space = 8`. */
  const TREASURY_SPACE: nat := 8

  datatype Post = Post(crux: Acct<Crux>, manager: u64, treasury: Acct<Raw>)

  /** The accounts after `init_crux`, or the error it stops with: Anchor
      initialises the crux and then the treasury, each funded by the
      manager; the handler derives the authority and the treasury and
      asserts they are the accounts passed in. */
  function Outcome(d: Pda.Deriver, cruxKey: Pubkey, managerKey: Pubkey, authorityKey: Pubkey, treasuryKey: Pubkey,
                   crux: Acct<Crux>, manager: u64, treasury: Acct<Raw>, fees: CruxFees, rent: nat -> u64)
    : (r: Result<Post, ErrorCode>)
    ensures crux.live ==> r == Err(AccountAlreadyInUse)
    ensures r.Ok? ==> !treasury.live
    ensures r.Ok? ==> AuthorityConsistent(d, r.value.crux.data)
    ensures r.Ok? ==> Pda.Derive(d, Pda.TreasuryOf(cruxKey)).Some?
                      && Pda.Derive(d, Pda.TreasuryOf(cruxKey)).value.address == treasuryKey
    ensures r.Ok? ==> var c := r.value.crux.data;
      && c.version == LATEST_CRUX_VERSION
      && c.cruxManager == managerKey && c.cruxAuthority == authorityKey
      && c.cruxAuthoritySeed == cruxKey && c.cruxTreasury == treasuryKey
      && c.cruxFees == fees && c.cruxCounts == CruxCounts(0, 0, 0)
    ensures r.Ok? ==>
      && r.value.crux.live && r.value.crux.size == CRUX_SPACE && r.value.crux.lamports >= rent(CRUX_SPACE)
      && r.value.treasury.live && r.value.treasury.size == TREASURY_SPACE && r.value.treasury.lamports >= rent(TREASURY_SPACE)
    ensures r.Ok? ==> r.value.crux.lamports + r.value.manager + r.value.treasury.lamports
                      == crux.lamports + manager + treasury.lamports
  {
    var cruxFunded :- InitFunding(manager, crux.lamports, crux.live, rent(CRUX_SPACE));
    var treasuryFunded :- InitFunding(cruxFunded.0, treasury.lamports, treasury.live, rent(TREASURY_SPACE));
    match Pda.FindProgramAddress(d, Pda.CruxAuthoritySeeds(cruxKey))
    case None => Err(NoViableBump)
    case Some(authority) =>
      if authority.address != authorityKey then Err(AssertionFailed)
      else match Pda.FindProgramAddress(d, Pda.CruxTreasurySeeds(cruxKey))
      case None => Err(NoViableBump)
      case Some(derivedTreasury) =>
        if derivedTreasury.address != treasuryKey then Err(AssertionFailed)
        else Ok(Post(
          Acct(cruxFunded.1, CRUX_SPACE, true,
               Crux(LATEST_CRUX_VERSION, managerKey, authorityKey, cruxKey, authority.bump,
                    treasuryKey, fees, CruxCounts(0, 0, 0))),
          treasuryFunded.0,
          Acct(treasuryFunded.1, TREASURY_SPACE, true, treasury.data)))
  }

  /** With the account constraints met, the handler's derivations always
      find an address, its treasury assertion always holds, and its
      authority assertion fails only when the bump in the instruction is not
      the canonical one. */
  lemma {:induction false} ConstraintsLeaveOnlyBumpFailures(
    d: Pda.Deriver, cruxKey: Pubkey, managerKey: Pubkey, authorityKey: Pubkey, treasuryKey: Pubkey,
    crux: Acct<Crux>, manager: u64, treasury: Acct<Raw>, fees: CruxFees, rent: nat -> u64, bumpCruxAuth: byte)
    requires 1 <= bumpCruxAuth
    requires Pda.SeedsCheck(d, Pda.CruxAuthoritySeeds(cruxKey), bumpCruxAuth, authorityKey)
    requires Pda.CanonicalCheck(d, Pda.CruxTreasurySeeds(cruxKey), treasuryKey)
    ensures var r := Outcome(d, cruxKey, managerKey, authorityKey, treasuryKey, crux, manager, treasury, fees, rent);
      && r != Err(NoViableBump)
      && (r == Err(AssertionFailed) ==>
            Pda.Derive(d, Pda.AuthorityOf(cruxKey)).Some? && Pda.Derive(d, Pda.AuthorityOf(cruxKey)).value.bump != bumpCruxAuth)
  {
    var seeds := Pda.CruxAuthoritySeeds(cruxKey);
    var found := Pda.FindProgramAddress(d, seeds);
    assert Pda.CreateProgramAddress(d, seeds + [[bumpCruxAuth]]).Some?;
    assert found.Some?;
    if found.value.bump == bumpCruxAuth {
      assert found.value.address == authorityKey;
    }
  }

  /** The crux manager signs, so its key is a curve point; the treasury is a
      derived address, so it is not: the two are different accounts. */
  lemma SignerIsNotTreasury(d: Pda.Deriver, managerKey: Pubkey, cruxKey: Pubkey, treasuryKey: Pubkey)
    requires d.onCurve(managerKey)
    requires Pda.CanonicalCheck(d, Pda.CruxTreasurySeeds(cruxKey), treasuryKey)
    ensures managerKey != treasuryKey
  {
    var found := Pda.FindProgramAddress(d, Pda.CruxTreasurySeeds(cruxKey)).value;
    assert Pda.CreateProgramAddress(d, Pda.CruxTreasurySeeds(cruxKey) + [[found.bump]]) == Some(treasuryKey);
  }

  /** Writes the accounts `init_crux` produces. */
  method Commit(crux: Account<Crux>, manager: Account<Raw>, treasury: Account<Raw>, post: Post)
    requires manager != treasury
    modifies crux, manager, treasury
    ensures crux.View() == post.crux && treasury.View() == post.treasury
    ensures manager.View() == old(manager.View()).(lamports := post.manager)
  {
    manager.lamports := post.manager;
    crux.lamports, crux.size, crux.live, crux.data := post.crux.lamports, post.crux.size, post.crux.live, post.crux.data;
    treasury.lamports, treasury.size, treasury.live, treasury.data :=
      post.treasury.lamports, post.treasury.size, post.treasury.live, post.treasury.data;
  }

  /** The instruction: `crux` and `treasury` are initialised, the manager
      pays, the authority is only checked. */
  method Handler(d: Pda.Deriver, rent: nat -> u64,
                 crux: Account<Crux>, manager: Account<Raw>, authority: Account<Raw>, treasury: Account<Raw>,
                 bumpCruxAuth: byte, fees: CruxFees)
    returns (r: Result<(), ErrorCode>)
    requires d.onCurve(manager.key)
    requires Pda.SeedsCheck(d, Pda.CruxAuthoritySeeds(crux.key), bumpCruxAuth, authority.key)
    requires Pda.CanonicalCheck(d, Pda.CruxTreasurySeeds(crux.key), treasury.key)
    modifies crux, manager, treasury
    ensures var o := Outcome(d, crux.key, manager.key, authority.key, treasury.key,
                             old(crux.View()), old(manager.lamports), old(treasury.View()), fees, rent);
      && (o.Ok? ==> r.Ok? && crux.View() == o.value.crux && treasury.View() == o.value.treasury
                    && manager.View() == old(manager.View()).(lamports := o.value.manager))
      && (o.Err? ==> r == Err(o.error) && unchanged(crux, manager, treasury))
  {
    SignerIsNotTreasury(d, manager.key, crux.key, treasury.key);
    ghost var o := Outcome(d, crux.key, manager.key, authority.key, treasury.key,
                           crux.View(), manager.lamports, treasury.View(), fees, rent);
    var cruxFunded := InitFunding(manager.lamports, crux.lamports, crux.live, rent(CRUX_SPACE));
    if cruxFunded.Err? { return Err(cruxFunded.error); }
    var treasuryFunded := InitFunding(cruxFunded.value.0, treasury.lamports, treasury.live, rent(TREASURY_SPACE));
    if treasuryFunded.Err? { return Err(treasuryFunded.error); }

    var authorityPda := Pda.FindProgramAddress(d, Pda.CruxAuthoritySeeds(crux.key));
    if authorityPda.None? { return Err(NoViableBump); }
    if authority.key != authorityPda.value.address { return Err(AssertionFailed); }
    var treasuryPda := Pda.FindProgramAddress(d, Pda.CruxTreasurySeeds(crux.key));
    if treasuryPda.None? { return Err(NoViableBump); }
    if treasury.key != treasuryPda.value.address { return Err(AssertionFailed); }

    var post := Post(Acct(cruxFunded.value.1, CRUX_SPACE, true,
                          Crux(LATEST_CRUX_VERSION, manager.key, authority.key, crux.key, authorityPda.value.bump,
                               treasury.key, fees, CruxCounts(0, 0, 0))),
                     treasuryFunded.value.0,
                     Acct(treasuryFunded.value.1, TREASURY_SPACE, true, treasury.data));
    assert o == Ok(post);
    Commit(crux, manager, treasury, post);
    r := Ok(());
  }
}

=== FILE: payout_from_treasury.dfy ===
/**
 * `payout_from_treasury` (programs/challenger/src/instructions/payout_from_treasury.rs):
 * the crux manager sends everything in the treasury above the rent-exempt
 * minimum of 16 bytes to a receiver of their choice.
 */
module PayoutFromTreasuryHandler {
  import opened Types
  import opened State
  import opened Accounts
  import Pda

  /** The treasury keeps `minimum_balance(16)`. */
  const RESERVE_SPACE: nat := 16

  datatype Post = Post(treasury: u64, receiver: u64)

  /** The balances after the payout, or the error. The receiver is any
      writable account; when it is the treasury itself (`aliased`) both
      writes land on one balance and the runtime rejects the lamports that
      vanish. */
  function Outcome(treasury: u64, receiver: u64, aliased: bool, minimum: u64): (r: Result<Post, ErrorCode>)
    ensures treasury < minimum ==> r == Err(ArithmeticError)
    ensures r.Ok? <==> minimum <= treasury
                       && (if aliased then treasury == minimum else receiver + (treasury - minimum) <= U64_MAX)
    ensures r.Ok? ==> r.value.treasury == minimum
    ensures r.Ok? && !aliased ==> r.value.receiver == receiver + (treasury - minimum)
                                   && r.value.treasury + r.value.receiver == treasury + receiver
    ensures r.Ok? && aliased ==> r.value.receiver == minimum
  {
    var amount :- TrySub(treasury, minimum);
    var receiverInitial := if aliased then treasury else receiver;
    var credited :- TryAdd(receiverInitial, amount);
    if !aliased then Ok(Post(minimum, credited))
    else if amount > 0 then Err(UnbalancedLamports)
    else Ok(Post(minimum, minimum))
  }

  /** A payout leaves nothing more to pay out: a second one moves nothing. */
  lemma PayoutDrainsSurplus(treasury: u64, receiver: u64, aliased: bool, minimum: u64)
    requires Outcome(treasury, receiver, aliased, minimum).Ok?
    ensures var p := Outcome(treasury, receiver, aliased, minimum).value;
      Outcome(p.treasury, p.receiver, aliased, minimum) == Ok(p)
  {
  }

  /** The instruction. `has_one` binds the manager and the treasury to the
      crux, and the treasury's `seeds`/`bump` constraint to its address. */
  method Handler(d: Pda.Deriver, rent: nat -> u64, crux: Account<Crux>, managerKey: Pubkey,
                 treasury: Account<Raw>, receiver: Account<Raw>, bumpTreasury: byte)
    returns (r: Result<(), ErrorCode>)
    requires crux.live && crux.data.cruxManager == managerKey && crux.data.cruxTreasury == treasury.key
    requires Pda.SeedsCheck(d, Pda.CruxTreasurySeeds(crux.key), bumpTreasury, treasury.key)
    modifies treasury, receiver
    ensures var o := Outcome(old(treasury.lamports), old(receiver.lamports), treasury == receiver, rent(RESERVE_SPACE));
      && (o.Ok? ==> r.Ok? && treasury.View() == old(treasury.View()).(lamports := o.value.treasury)
                    && receiver.View() == old(receiver.View()).(lamports := o.value.receiver))
      && (o.Err? ==> r == Err(o.error) && unchanged(treasury, receiver))
  {
    var minimum := rent(RESERVE_SPACE);
    var treasuryInitial := treasury.lamports;
    var receiverInitial := receiver.lamports;
    var amount := TrySub(treasuryInitial, minimum);
    if amount.Err? { return Err(amount.error); }
    var credited := TryAdd(receiverInitial, amount.value);
    if credited.Err? { return Err(credited.error); }
    if treasury == receiver && amount.value > 0 {
      // the runtime's lamport-balance check after the instruction
      return Err(UnbalancedLamports);
    }
    receiver.lamports := credited.value;
    treasury.lamports := minimum;
    r := Ok(());
  }
}

=== FILE: pda.dfy ===
/**
 * Program-derived addresses: the seed grammar of src/challenger.pda.ts and
 * the address search both sides perform (`PublicKey.findProgramAddressSync`
 * on the client, `Pubkey::find_program_address` and Anchor's `seeds`/`bump`
 * constraints on chain).
 *
 * SHA-256 and the ed25519 on-curve test are not modelled: they are fields of
 * a `Deriver`, so every statement here holds for every hash and every curve
 * test. What remains provable is the algebra of the seed bytes.
 */
module Pda {
  import opened Types

  /** The cryptography and the program id a derivation runs against. */
  datatype Deriver = Deriver(
    hash: seq<byte> -> Pubkey,   // SHA-256, cut to 32 bytes
    onCurve: Pubkey -> bool,     // "is a valid ed25519 point"
    programId: Pubkey)           // CHALLENGER_PROG_ID / ctx.program_id

  /** An address together with the bump that made it fall off the curve. */
  datatype Derived = Derived(address: Pubkey, bump: byte)

  /** The marker the runtime appends to every derivation input. */
  const PDA_MARKER: seq<byte> := Ascii("ProgramDerivedAddress")

  const TREASURY: seq<byte> := Ascii("treasury")
  const USER_PROFILE: seq<byte> := Ascii("user_profile")
  const CHALLENGE: seq<byte> := Ascii("challenge")
  const SUBMISSION: seq<byte> := Ascii("submission")

  /** Seeds are concatenated as raw bytes before hashing. */
  function Flatten(seeds: seq<seq<byte>>): (r: seq<byte>)
  {
    if seeds == [] then [] else Flatten(seeds[..|seeds| - 1]) + seeds[|seeds| - 1]
  }

  lemma FlattenAppend(seeds: seq<seq<byte>>, s: seq<byte>)
    ensures Flatten(seeds + [s]) == Flatten(seeds) + s
  {
    assert (seeds + [s])[..|seeds|] == seeds;
  }

  function HashInput(d: Deriver, seeds: seq<seq<byte>>): seq<byte>
  {
    Flatten(seeds) + d.programId + PDA_MARKER
  }

  /** `createProgramAddressSync`: hash the seeds, the program id and the
      marker; the result is usable only when it is not a curve point. */
  function CreateProgramAddress(d: Deriver, seeds: seq<seq<byte>>): (r: Option<Pubkey>)
    ensures r.Some? <==> !d.onCurve(d.hash(HashInput(d, seeds)))
    ensures r.Some? ==> r.value == d.hash(HashInput(d, seeds))
  {
    var h := d.hash(HashInput(d, seeds));
    if d.onCurve(h) then None else Some(h)
  }

  /** The bump search, from `bump` downwards; the libraries start at 255 and
      give up after 1 (bump 0 is never tried). */
  function SearchBump(d: Deriver, seeds: seq<seq<byte>>, bump: nat): (r: Option<Derived>)
    requires 1 <= bump <= 255
    ensures r.Some? ==>
      && 1 <= r.value.bump <= bump
      && CreateProgramAddress(d, seeds + [[r.value.bump]]) == Some(r.value.address)
      && forall b :: r.value.bump < b <= bump ==> CreateProgramAddress(d, seeds + [[b]]).None?
    ensures r.None? ==> forall b :: 1 <= b <= bump ==> CreateProgramAddress(d, seeds + [[b]]).None?
    decreases bump
  {
    match CreateProgramAddress(d, seeds + [[bump]])
    case Some(a) => Some(Derived(a, bump))
    case None => if bump == 1 then None else SearchBump(d, seeds, bump - 1)
  }

  /** `findProgramAddressSync` / `find_program_address`: the highest bump whose
      address is off the curve, or nothing (the libraries throw / panic). */
  function FindProgramAddress(d: Deriver, seeds: seq<seq<byte>>): (r: Option<Derived>)
  {
    SearchBump(d, seeds, 255)
  }

  /** Anchor's `seeds = [...], bump = b` account constraint: the account's key
      is the address the seeds and the given bump produce. */
  predicate SeedsCheck(d: Deriver, seeds: seq<seq<byte>>, bump: byte, key: Pubkey)
  {
    CreateProgramAddress(d, seeds + [[bump]]) == Some(key)
  }

  /** Anchor's `seeds = [...], bump` constraint without a value, used with
      `init`: the account's key is the canonical derivation. */
  predicate CanonicalCheck(d: Deriver, seeds: seq<seq<byte>>, key: Pubkey)
  {
    FindProgramAddress(d, seeds).Some? && FindProgramAddress(d, seeds).value.address == key
  }

  // ------------------------------------------------ the seed grammar

  /** `findCruxAuthorityPDA`: `[crux]` */
  function CruxAuthoritySeeds(crux: Pubkey): seq<seq<byte>> { [crux] }

  /** `findCruxTreasuryPDA`: `["treasury", crux]` */
  function CruxTreasurySeeds(crux: Pubkey): seq<seq<byte>> { [TREASURY, crux] }

  /** `findUserProfilePDA`: `["user_profile", crux, owner]` */
  function UserProfileSeeds(crux: Pubkey, owner: Pubkey): seq<seq<byte>> { [USER_PROFILE, crux, owner] }

  /** `findChallengePDA`: `["challenge", crux, challengeSeed]` */
  function ChallengeSeeds(crux: Pubkey, seed: Pubkey): seq<seq<byte>> { [CHALLENGE, crux, seed] }

  /** `findSubmissionPDA`: `["submission", challenge, userProfile]` */
  function SubmissionSeeds(challenge: Pubkey, profile: Pubkey): seq<seq<byte>> { [SUBMISSION, challenge, profile] }

  /** Which derivation, and from which keys. */
  datatype SeedTuple =
    | AuthorityOf(crux: Pubkey)
    | TreasuryOf(crux: Pubkey)
    | ProfileOf(crux: Pubkey, owner: Pubkey)
    | ChallengeOf(crux: Pubkey, seed: Pubkey)
    | SubmissionOf(challenge: Pubkey, profile: Pubkey)

  function Seeds(t: SeedTuple): seq<seq<byte>>
  {
    match t
    case AuthorityOf(c) => CruxAuthoritySeeds(c)
    case TreasuryOf(c) => CruxTreasurySeeds(c)
    case ProfileOf(c, o) => UserProfileSeeds(c, o)
    case ChallengeOf(c, s) => ChallengeSeeds(c, s)
    case SubmissionOf(ch, p) => SubmissionSeeds(ch, p)
  }

  function Derive(d: Deriver, t: SeedTuple): Option<Derived>
  {
    FindProgramAddress(d, Seeds(t))
  }

  function FindCruxAuthorityPDA(d: Deriver, crux: Pubkey): Option<Derived> { Derive(d, AuthorityOf(crux)) }
  function FindCruxTreasuryPDA(d: Deriver, crux: Pubkey): Option<Derived> { Derive(d, TreasuryOf(crux)) }
  function FindUserProfilePDA(d: Deriver, crux: Pubkey, owner: Pubkey): Option<Derived> { Derive(d, ProfileOf(crux, owner)) }
  function FindChallengePDA(d: Deriver, crux: Pubkey, seed: Pubkey): Option<Derived> { Derive(d, ChallengeOf(crux, seed)) }
  function FindSubmissionPDA(d: Deriver, challenge: Pubkey, profile: Pubkey): Option<Derived> { Derive(d, SubmissionOf(challenge, profile)) }

  /** The byte length of each kind's concatenated seeds. */
  function SeedLength(t: SeedTuple): nat
  {
    match t
    case AuthorityOf(_) => 32
    case TreasuryOf(_) => 40
    case ProfileOf(_, _) => 76
    case ChallengeOf(_, _) => 73
    case SubmissionOf(_, _) => 74
  }

  lemma Flatten3(a: seq<byte>, b: seq<byte>, c: seq<byte>)
    ensures Flatten([a, b, c]) == a + b + c
  {
    FlattenAppend([a, b], c);
    FlattenAppend([a], b);
    FlattenAppend([], a);
    assert [a, b] + [c] == [a, b, c];
    assert [a] + [b] == [a, b];
    assert [] + [a] == [a];
  }

  lemma {:induction false} SeedBytes(t: SeedTuple)
    ensures |Flatten(Seeds(t))| == SeedLength(t)
    ensures match t
      case AuthorityOf(c) => Flatten(Seeds(t)) == c
      case TreasuryOf(c) => Flatten(Seeds(t)) == TREASURY + c
      case ProfileOf(c, o) => Flatten(Seeds(t)) == USER_PROFILE + c + o
      case ChallengeOf(c, s) => Flatten(Seeds(t)) == CHALLENGE + c + s
      case SubmissionOf(ch, p) => Flatten(Seeds(t)) == SUBMISSION + ch + p
  {
    match t
    case AuthorityOf(c) =>
      FlattenAppend([], c);
      assert [] + [c] == [c];
    case TreasuryOf(c) =>
      FlattenAppend([TREASURY], c);
      FlattenAppend([], TREASURY);
      assert [] + [TREASURY] == [TREASURY];
      assert [TREASURY] + [c] == [TREASURY, c];
    case ProfileOf(c, o) => Flatten3(USER_PROFILE, c, o);
    case ChallengeOf(c, s) => Flatten3(CHALLENGE, c, s);
    case SubmissionOf(ch, p) => Flatten3(SUBMISSION, ch, p);
  }

  /** Seeds of different kinds never give the same bytes (their lengths are
      32, 40, 76, 73 and 74), and within a kind equal bytes mean equal keys:
      the concatenated seed bytes determine the seed tuple. */
  lemma SeedBytesInjective(t1: SeedTuple, t2: SeedTuple)
    ensures Flatten(Seeds(t1)) == Flatten(Seeds(t2)) ==> t1 == t2
  {
    SeedBytes(t1);
    SeedBytes(t2);
    var x := Flatten(Seeds(t1));
    if x == Flatten(Seeds(t2)) {
      match t1
      case AuthorityOf(c) =>
      case TreasuryOf(c) =>
        assert c == x[8..];
        assert t2.crux == x[8..];
      case ProfileOf(c, o) =>
        assert c == x[12..44] && o == x[44..];
        assert t2.crux == x[12..44] && t2.owner == x[44..];
      case ChallengeOf(c, s) =>
        assert c == x[9..41] && s == x[41..];
        assert t2.crux == x[9..41] && t2.seed == x[41..];
      case SubmissionOf(ch, p) =>
        assert ch == x[10..42] && p == x[42..];
        assert t2.challenge == x[10..42] && t2.profile == x[42..];
    }
  }

  /** The hash does not collide on the inputs the two tuples can produce. This
      is the only assumption address uniqueness rests on. */
  ghost predicate CollisionFree(d: Deriver, t1: SeedTuple, t2: SeedTuple)
  {
    forall b1: byte, b2: byte ::
      d.hash(HashInput(d, Seeds(t1) + [[b1]])) == d.hash(HashInput(d, Seeds(t2) + [[b2]])) ==>
        HashInput(d, Seeds(t1) + [[b1]]) == HashInput(d, Seeds(t2) + [[b2]])
  }

  lemma BumpedPrefix(f1: seq<byte>, b1: byte, f2: seq<byte>, b2: byte, tail: seq<byte>)
    requires (f1 + [b1]) + tail == (f2 + [b2]) + tail
    ensures f1 == f2
  {
    var x := (f1 + [b1]) + tail;
    assert |f1| == |f2|;
    assert f1 == x[..|f1|];
    assert f2 == x[..|f2|];
  }

  lemma HashInputBumped(d: Deriver, s: seq<seq<byte>>, b: byte)
    ensures HashInput(d, s + [[b]]) == (Flatten(s) + [b]) + (d.programId + PDA_MARKER)
  {
    FlattenAppend(s, [b]);
  }

  /** Equal hash inputs for two bumped seed lists mean equal seed bytes. */
  lemma SameInputSameSeedBytes(d: Deriver, s1: seq<seq<byte>>, b1: byte, s2: seq<seq<byte>>, b2: byte)
    requires HashInput(d, s1 + [[b1]]) == HashInput(d, s2 + [[b2]])
    ensures Flatten(s1) == Flatten(s2)
  {
    HashInputBumped(d, s1, b1);
    HashInputBumped(d, s2, b2);
    BumpedPrefix(Flatten(s1), b1, Flatten(s2), b2, d.programId + PDA_MARKER);
  }

  /** Distinct seed tuples derive distinct addresses, whatever bumps the two
      searches stop at: at most one profile per (crux, owner), one challenge
      per (crux, seed), one submission per (challenge, profile), and no
      address of one kind equals an address of another. */
  lemma DistinctSeedsDistinctAddresses(d: Deriver, t1: SeedTuple, t2: SeedTuple)
    requires t1 != t2
    requires CollisionFree(d, t1, t2)
    ensures Derive(d, t1).Some? && Derive(d, t2).Some? ==>
              Derive(d, t1).value.address != Derive(d, t2).value.address
  {
    if Derive(d, t1).Some? && Derive(d, t2).Some? {
      var r1, r2 := Derive(d, t1).value, Derive(d, t2).value;
      DerivedIsCanonical(d, t1);
      DerivedIsCanonical(d, t2);
      if r1.address == r2.address {
        var i1 := HashInput(d, Seeds(t1) + [[r1.bump]]);
        var i2 := HashInput(d, Seeds(t2) + [[r2.bump]]);
        assert d.hash(i1) == d.hash(i2);
        assert i1 == i2;
        SameInputSameSeedBytes(d, Seeds(t1), r1.bump, Seeds(t2), r2.bump);
        SeedBytesInjective(t1, t2);
      }
    }
  }

  /** A derived address is what `createProgramAddress` gives for the seeds
      and the bump returned beside it, and no higher bump works: the
      `seeds`/`bump` constraint the program checks accepts exactly it. */
  lemma DerivedIsCanonical(d: Deriver, t: SeedTuple)
    ensures Derive(d, t).Some? ==>
      && CreateProgramAddress(d, Seeds(t) + [[Derive(d, t).value.bump]]) == Some(Derive(d, t).value.address)
      && forall b :: Derive(d, t).value.bump < b <= 255 ==> CreateProgramAddress(d, Seeds(t) + [[b]]).None?
    ensures Derive(d, t).None? <==> forall b :: 1 <= b <= 255 ==> CreateProgramAddress(d, Seeds(t) + [[b]]).None?
  {
  }

  /** A derived address and its bump pass the program's `seeds`/`bump`
      constraint, and its `init`-time canonical constraint. */
  lemma DerivedMeetsConstraints(d: Deriver, t: SeedTuple)
    requires Derive(d, t).Some?
    ensures SeedsCheck(d, Seeds(t), Derive(d, t).value.bump, Derive(d, t).value.address)
    ensures CanonicalCheck(d, Seeds(t), Derive(d, t).value.address)
  {
    DerivedIsCanonical(d, t);
  }

  /** A signer's key is a curve point and a derived address is not, so an
      account that passes a `seeds` constraint is never a signer. */
  lemma SignerIsNotDerived(d: Deriver, signer: Pubkey, seeds: seq<seq<byte>>, bump: byte, key: Pubkey)
    requires d.onCurve(signer)
    requires SeedsCheck(d, seeds, bump, key)
    ensures signer != key
  {
  }

  /** The forum program's profile seeds `["user_profile", owner]`: no forum
      key, unlike the challenger grammar. */
  function ForumUserProfileSeeds(owner: Pubkey): seq<seq<byte>> { [USER_PROFILE, owner] }

  /** The forum profile seeds are 44 bytes long, so they never coincide with
      a challenger profile's 76 bytes for any keys. */
  lemma ForumProfileSeedsDiffer(owner: Pubkey, crux: Pubkey, owner2: Pubkey)
    ensures |Flatten(ForumUserProfileSeeds(owner))| == 44
    ensures Flatten(ForumUserProfileSeeds(owner)) != Flatten(UserProfileSeeds(crux, owner2))
  {
    FlattenAppend([USER_PROFILE], owner);
    FlattenAppend([], USER_PROFILE);
    assert [] + [USER_PROFILE] == [USER_PROFILE];
    assert [USER_PROFILE] + [owner] == ForumUserProfileSeeds(owner);
    SeedBytes(ProfileOf(crux, owner2));
  }
}

=== FILE: render.dfy ===
/**
 * The rendering helpers of src/render-types.ts, which turn fetched records
 * into printable values: public keys become Base58 strings, big numbers
 * decimal strings, and arrays and plain objects are rebuilt element by
 * element; `toBN` goes the other way, turning numbers into big numbers.
 *
 * A JavaScript value is a tree. Base58 and decimal rendering are library
 * calls, so they are parameters (`Renderer`). The spread copy and the fresh
 * arrays the helpers build become fresh sequences; the functions say what
 * each helper returns and the methods compute it with the helpers' loops.
 */
module Render {
  import opened Types

  /** A JavaScript value as these helpers see it (numbers are integers). */
  datatype JsValue =
    | Undefined
    | Null
    | Bool(b: bool)
    | Num(n: int)
    | Str(s: string)
    | Func                      // any function value
    | BigNum(v: int)            // an instance of bn.js `BN`
    | PublicKey(key: Pubkey)    // an instance of web3.js `PublicKey`
    | Date(time: int)
    | Arr(items: seq<JsValue>)
    | Obj(props: seq<Prop>)     // a plain object: its own enumerable properties, in order

  datatype Prop = Prop(key: string, value: JsValue)

  /** What the helpers call on: `toBase58()` of an object that has one, and
      `BN.prototype.toString()` (base 10). */
  datatype Renderer = Renderer(toBase58: JsValue -> string, decimal: int -> string)

  /** The value of the first property named `k`, if there is one. */
  function Own(props: seq<Prop>, k: string): (r: Option<JsValue>)
    ensures r.Some? <==> exists i :: 0 <= i < |props| && props[i].key == k
    ensures r.Some? ==> exists i :: 0 <= i < |props| && props[i] == Prop(k, r.value)
  {
    if props == [] then None
    else if props[0].key == k then Some(props[0].value)
    else
      var rest := Own(props[1..], k);
      assert forall i :: 0 <= i < |props[1..]| ==> props[1..][i] == props[i + 1];
      rest
  }

  /** The property names, in order. */
  function Keys(props: seq<Prop>): (r: seq<string>)
    ensures |r| == |props| && forall i :: 0 <= i < |props| ==> r[i] == props[i].key
  {
    if props == [] then [] else [props[0].key] + Keys(props[1..])
  }

  /** `typeof v` */
  function TypeOf(v: JsValue): string
  {
    match v
    case Undefined => "undefined"
    case Bool(_) => "boolean"
    case Num(_) => "number"
    case Str(_) => "string"
    case Func => "function"
    case _ => "object"
  }

  /** `v['toBase58']` on a non-null value: a `PublicKey` inherits the
      method, a plain object may hold one of its own. */
  function ToBase58Member(v: JsValue): JsValue
  {
    match v
    case PublicKey(_) => Func
    case Obj(props) => (match Own(props, "toBase58") case Some(m) => m case None => Undefined)
    case _ => Undefined
  }

  /** `isPk`: a non-null object whose `toBase58` is a function. */
  function IsPk(v: JsValue): (r: bool)
    ensures r <==> v.PublicKey? || (v.Obj? && Own(v.props, "toBase58") == Some(Func))
  {
    TypeOf(v) == "object" && v != Null && TypeOf(ToBase58Member(v)) == "function"
  }

  /** `parseType` */
  function ParseType(v: JsValue): (r: string)
    ensures r == "null" <==> v.Null? || v.Undefined?
    ensures r == "array" <==> v.Arr?
    ensures r == "date" <==> v.Date?
    ensures r == "object" <==> v.Obj? || v.BigNum? || v.PublicKey?
    ensures v.Bool? || v.Num? || v.Str? || v.Func? ==> r == TypeOf(v)
  {
    if v.Null? || v.Undefined? then "null"
    else if TypeOf(v) == "object" then
      if v.Arr? then "array" else if v.Date? then "date" else "object"
    else TypeOf(v)
  }

  // ------------------------------------------------ stringifyPKsAndBNs

  /** What `stringifyPKsAndBNs` returns. */
  function Stringified(R: Renderer, i: JsValue): (r: JsValue)
    ensures IsPk(i) ==> r == Str(R.toBase58(i))
    ensures i.BigNum? ==> r == Str(R.decimal(i.v))
    ensures i.Undefined? || i.Null? || i.Bool? || i.Num? || i.Str? || i.Func? || i.Date? ==> r == i
    ensures i.Arr? ==> r.Arr? && |r.items| == |i.items|
    ensures i.Obj? && !IsPk(i) ==> r.Obj? && Keys(r.props) == Keys(i.props)
  {
    if IsPk(i) then Str(R.toBase58(i))
    else if i.BigNum? then Str(R.decimal(i.v))
    else if ParseType(i) == "array" then Arr(StringifiedArray(R, i.items))
    else if ParseType(i) == "object" then Obj(StringifiedObject(R, i.props))
    else i
  }

  /** What `stringifyPKsAndBNsInObject` returns: the spread copy with each
      value converted in place, so the keys and their order are kept. */
  function StringifiedObject(R: Renderer, o: seq<Prop>): (r: seq<Prop>)
    ensures |r| == |o|
    ensures forall k :: 0 <= k < |o| ==> r[k].key == o[k].key
    ensures forall k :: 0 <= k < |o| ==> r[k].value == Stringified(R, o[k].value)
  {
    seq(|o|, k requires 0 <= k < |o| => Prop(o[k].key, Stringified(R, o[k].value)))
  }

  /** What `stringifyPKsAndBNInArray` returns: one converted element per
      element, in order. */
  function StringifiedArray(R: Renderer, a: seq<JsValue>): (r: seq<JsValue>)
    ensures |r| == |a|
    ensures forall k :: 0 <= k < |a| ==> r[k] == Stringified(R, a[k])
  {
    seq(|a|, k requires 0 <= k < |a| => Stringified(R, a[k]))
  }

  /** `stringifyPKsAndBNs` */
  method StringifyPKsAndBNs(R: Renderer, i: JsValue) returns (r: JsValue)
    ensures r == Stringified(R, i)
  {
    if IsPk(i) {
      r := Str(R.toBase58(i));
    } else if i.BigNum? {
      r := Str(R.decimal(i.v));
    } else if ParseType(i) == "array" {
      var items := StringifyPKsAndBNInArray(R, i.items);
      r := Arr(items);
    } else if ParseType(i) == "object" {
      var props := StringifyPKsAndBNsInObject(R, i.props);
      r := Obj(props);
    } else {
      r := i;
    }
  }

  /** `stringifyPKsAndBNsInObject`: copies the properties, then overwrites
      each value with its conversion. */
  method StringifyPKsAndBNsInObject(R: Renderer, o: seq<Prop>) returns (newO: seq<Prop>)
    ensures newO == StringifiedObject(R, o)
  {
    ghost var spec := StringifiedObject(R, o);
    newO := o;
    var k := 0;
    while k < |o|
      invariant 0 <= k <= |o| && |newO| == |o|
      invariant forall j :: 0 <= j < k ==> newO[j] == spec[j]
      invariant forall j :: k <= j < |o| ==> newO[j] == o[j]
    {
      var v := o[k].value;
      var converted;
      if IsPk(v) {
        converted := Str(R.toBase58(v));
      } else if v.BigNum? {
        converted := Str(R.decimal(v.v));
      } else if ParseType(v) == "array" {
        var items := StringifyPKsAndBNInArray(R, v.items);
        converted := Arr(items);
      } else if ParseType(v) == "object" {
        var props := StringifyPKsAndBNsInObject(R, v.props);
        converted := Obj(props);
      } else {
        converted := v;
      }
      assert converted == Stringified(R, v);
      newO := newO[k := Prop(o[k].key, converted)];
      k := k + 1;
    }
  }

  /** `stringifyPKsAndBNInArray`: pushes each converted element onto a new
      array. */
  method StringifyPKsAndBNInArray(R: Renderer, a: seq<JsValue>) returns (newA: seq<JsValue>)
    ensures newA == StringifiedArray(R, a)
  {
    newA := [];
    var k := 0;
    while k < |a|
      invariant 0 <= k <= |a| && |newA| == k
      invariant forall j :: 0 <= j < k ==> newA[j] == Stringified(R, a[j])
    {
      var i := a[k];
      var converted;
      if IsPk(i) {
        converted := Str(R.toBase58(i));
      } else if i.BigNum? {
        converted := Str(R.decimal(i.v));
      } else if ParseType(i) == "array" {
        var items := StringifyPKsAndBNInArray(R, i.items);
        converted := Arr(items);
      } else if ParseType(i) == "object" {
        converted := StringifyPKsAndBNs(R, i);
      } else {
        converted := i;
      }
      assert converted == Stringified(R, i);
      newA := newA + [converted];
      k := k + 1;
    }
  }

  /** No public key, no big number and no object with its own `toBase58`
      function anywhere in the value. */
  predicate Rendered(v: JsValue)
  {
    && !IsPk(v) && !v.BigNum?
    && (v.Arr? ==> forall k :: 0 <= k < |v.items| ==> Rendered(v.items[k]))
    && (v.Obj? ==> forall k :: 0 <= k < |v.props| ==> Rendered(v.props[k].value))
  }

  /** Conversion turns a value into a function only when it was one. */
  lemma StringifiedFunc(R: Renderer, v: JsValue)
    ensures Stringified(R, v) == Func <==> v == Func
  {
  }

  /** Conversion keeps a plain object's own `toBase58` a function exactly
      when it was one. */
  lemma {:induction false} OwnFuncKept(R: Renderer, o: seq<Prop>, name: string)
    ensures Own(StringifiedObject(R, o), name) == Some(Func) <==> Own(o, name) == Some(Func)
    decreases o
  {
    if o != [] {
      var r := StringifiedObject(R, o);
      StringifiedFunc(R, o[0].value);
      assert r[1..] == StringifiedObject(R, o[1..]);
      OwnFuncKept(R, o[1..], name);
    }
  }

  /** The output holds no public key and no big number. */
  lemma {:induction false} StringifiedIsRendered(R: Renderer, v: JsValue)
    ensures Rendered(Stringified(R, v))
    decreases v
  {
    var r := Stringified(R, v);
    if IsPk(v) || v.BigNum? {
    } else if v.Arr? {
      forall k | 0 <= k < |r.items| ensures Rendered(r.items[k]) {
        StringifiedIsRendered(R, v.items[k]);
      }
    } else if v.Obj? {
      OwnFuncKept(R, v.props, "toBase58");
      forall k | 0 <= k < |r.props| ensures Rendered(r.props[k].value) {
        assert v.props[k] in v.props;
        StringifiedIsRendered(R, v.props[k].value);
      }
    }
  }

  /** A value with nothing left to convert comes back unchanged. */
  lemma {:induction false} RenderedIsFixed(R: Renderer, v: JsValue)
    requires Rendered(v)
    ensures Stringified(R, v) == v
    decreases v
  {
    if v.Arr? {
      var r := Stringified(R, v);
      assert r == Arr(StringifiedArray(R, v.items));
      forall k | 0 <= k < |v.items| ensures r.items[k] == v.items[k] {
        RenderedIsFixed(R, v.items[k]);
      }
    } else if v.Obj? {
      var r := Stringified(R, v);
      assert r == Obj(StringifiedObject(R, v.props));
      forall k | 0 <= k < |v.props| ensures r.props[k] == v.props[k] {
        assert v.props[k] in v.props;
        RenderedIsFixed(R, v.props[k].value);
      }
    }
  }

  /** Converting twice is converting once. */
  lemma StringifyIdempotent(R: Renderer, v: JsValue)
    ensures Stringified(R, Stringified(R, v)) == Stringified(R, v)
  {
    StringifiedIsRendered(R, v);
    RenderedIsFixed(R, Stringified(R, v));
  }

  // ------------------------------------------------ toBN

  /** The decimal spelling of an array index: the keys `for…in` yields. */
  function IndexKey(n: nat): (r: string)
    ensures |r| >= 1 && forall c :: c in r ==> '0' <= c <= '9'
  {
    var digit := ['0' + (n % 10) as char];
    if n < 10 then digit else IndexKey(n / 10) + digit
  }

  /** The number a `PublicKey` keeps in its `_bn` field: its bytes read
      big-endian. */
  function KeyNumber(bytes: seq<byte>): nat
  {
    if bytes == [] then 0 else KeyNumber(bytes[..|bytes| - 1]) * 256 + bytes[|bytes| - 1]
  }

  /** The own enumerable properties `for…in` visits on an object that is not
      an array: a plain object's own, and a `PublicKey`'s single `_bn`. */
  function Enumerable(v: JsValue): seq<Prop>
  {
    match v
    case Obj(props) => props
    case PublicKey(key) => [Prop("_bn", BigNum(KeyNumber(key)))]
    case _ => []
  }

  /** What `toBN` returns, as written. `for (const item in i)` over an array
      visits its index keys, so the result holds one string per element,
      its index; `toBN` of such a string returns it. */
  function ToBNResult(i: JsValue): (r: JsValue)
    ensures i.Num? ==> r == BigNum(i.n)
    ensures i.BigNum? ==> r == i
    ensures i.Arr? ==> r == Arr(IndexKeys(|i.items|))
    ensures i.Obj? ==> r.Obj? && Keys(r.props) == Keys(i.props)
    ensures i.Undefined? || i.Null? || i.Bool? || i.Str? || i.Func? || i.Date? ==> r == i
  {
    if i.Num? then BigNum(i.n)
    else if i.BigNum? then i
    else if ParseType(i) == "array" then Arr(IndexKeys(|i.items|))
    else if i.Obj? then Obj(ToBNFields(i.props))
    else if i.PublicKey? then Obj([Prop("_bn", BigNum(KeyNumber(i.key)))])  // `toBN` returns the `BN` in `_bn`
    else i
  }

  /** `["0", "1", …]`: the keys `for…in` visits on an array of length `n`. */
  function IndexKeys(n: nat): (r: seq<JsValue>)
    ensures |r| == n && forall k :: 0 <= k < n ==> r[k] == Str(IndexKey(k))
  {
    seq(n, k requires 0 <= k < n => Str(IndexKey(k)))
  }

  /** `bnObj[field] = toBN(i[field])` for each field in turn. */
  function ToBNFields(props: seq<Prop>): (r: seq<Prop>)
    ensures |r| == |props|
    ensures forall k :: 0 <= k < |props| ==> r[k] == Prop(props[k].key, ToBNResult(props[k].value))
  {
    if props == [] then [] else [Prop(props[0].key, ToBNResult(props[0].value))] + ToBNFields(props[1..])
  }

  /** `toBN` */
  method ToBN(i: JsValue) returns (r: JsValue)
    ensures r == ToBNResult(i)
    decreases i, 1
  {
    if i.Num? {
      r := BigNum(i.n);
    } else if i.BigNum? {
      r := i;
    } else if ParseType(i) == "array" {
      ghost var spec := IndexKeys(|i.items|);
      var bnArray := [];
      var k := 0;
      while k < |i.items|
        invariant 0 <= k <= |i.items| && |bnArray| == k
        invariant forall j :: 0 <= j < k ==> bnArray[j] == spec[j]
      {
        bnArray := bnArray + [Str(IndexKey(k))];
        k := k + 1;
      }
      r := Arr(bnArray);
    } else if ParseType(i) == "object" {
      r := ToBNObject(i);
    } else {
      r := i;
    }
  }

  /** The `for (const field in i)` loop of `toBN` on an object that is not
      an array. */
  method ToBNObject(i: JsValue) returns (r: JsValue)
    requires i.Obj? || i.PublicKey?
    ensures r == Obj(ToBNFields(Enumerable(i)))
    decreases i, 0
  {
    var fields := Enumerable(i);
    ghost var spec := ToBNFields(fields);
    var bnObj := [];
    var k := 0;
    while k < |fields|
      invariant 0 <= k <= |fields| && |bnObj| == k
      invariant forall j :: 0 <= j < k ==> bnObj[j] == spec[j]
    {
      var converted;
      if i.Obj? {
        assert fields[k] in i.props;
        converted := ToBN(fields[k].value);
      } else {
        converted := fields[k].value;  // the `BN` in `_bn`, which `toBN` returns
      }
      assert Prop(fields[k].key, converted) == spec[k];
      bnObj := bnObj + [Prop(fields[k].key, converted)];
      k := k + 1;
    }
    r := Obj(bnObj);
  }

  /** As written, `toBN` replaces every array element by its index, as a
      string: the numbers in an array are lost. */
  lemma ToBNArrayGivesIndices()
    ensures ToBNResult(Arr([Num(7), Num(8)])) == Arr([Str("0"), Str("1")])
    ensures ToBNFixed(Arr([Num(7), Num(8)])) == Arr([BigNum(7), BigNum(8)])
  {
    assert IndexKeys(2) == [Str("0"), Str("1")];
    assert ToBNFixedArray([Num(7), Num(8)]) == [BigNum(7)] + ToBNFixedArray([Num(8)]);
  }

  /** `toBN` of a `PublicKey` is a plain object holding its number, which is
      no longer a public key. */
  lemma ToBNUnwrapsPublicKey(key: Pubkey)
    ensures ToBNResult(PublicKey(key)) == Obj([Prop("_bn", BigNum(KeyNumber(key)))])
    ensures !IsPk(ToBNResult(PublicKey(key)))
  {
    var r := ToBNResult(PublicKey(key));
    assert r.props[0] == Prop("_bn", BigNum(KeyNumber(key)));
    assert "toBase58" != "_bn";
  }

  /** `toBN` as evidently intended: an array converted element by element,
      as `for…of` would. */
  function ToBNFixed(i: JsValue): (r: JsValue)
    ensures i.Num? ==> r == BigNum(i.n)
    ensures i.BigNum? ==> r == i
    ensures i.Arr? ==> r.Arr? && |r.items| == |i.items|
    ensures i.Obj? ==> r.Obj? && Keys(r.props) == Keys(i.props)
    ensures i.Undefined? || i.Null? || i.Bool? || i.Str? || i.Func? || i.Date? ==> r == i
  {
    if i.Num? then BigNum(i.n)
    else if i.BigNum? then i
    else if ParseType(i) == "array" then Arr(ToBNFixedArray(i.items))
    else if i.Obj? then Obj(ToBNFixedFields(i.props))
    else if i.PublicKey? then Obj([Prop("_bn", BigNum(KeyNumber(i.key)))])
    else i
  }

  function ToBNFixedArray(a: seq<JsValue>): (r: seq<JsValue>)
    ensures |r| == |a| && forall k :: 0 <= k < |a| ==> r[k] == ToBNFixed(a[k])
  {
    if a == [] then [] else [ToBNFixed(a[0])] + ToBNFixedArray(a[1..])
  }

  function ToBNFixedFields(props: seq<Prop>): (r: seq<Prop>)
    ensures |r| == |props|
    ensures forall k :: 0 <= k < |props| ==> r[k] == Prop(props[k].key, ToBNFixed(props[k].value))
  {
    if props == [] then [] else [Prop(props[0].key, ToBNFixed(props[0].value))] + ToBNFixedFields(props[1..])
  }

  /** No JavaScript number and no public key anywhere in the value. */
  predicate AllBig(v: JsValue)
  {
    && !v.Num? && !v.PublicKey?
    && (v.Arr? ==> forall k :: 0 <= k < |v.items| ==> AllBig(v.items[k]))
    && (v.Obj? ==> forall k :: 0 <= k < |v.props| ==> AllBig(v.props[k].value))
  }

  /** The corrected `toBN` leaves no number unconverted, at any depth. */
  lemma {:induction false} ToBNFixedIsAllBig(v: JsValue)
    ensures AllBig(ToBNFixed(v))
    decreases v
  {
    var r := ToBNFixed(v);
    if v.Arr? {
      forall k | 0 <= k < |r.items| ensures AllBig(r.items[k]) {
        ToBNFixedIsAllBig(v.items[k]);
      }
    } else if v.Obj? {
      forall k | 0 <= k < |r.props| ensures AllBig(r.props[k].value) {
        assert v.props[k] in v.props;
        ToBNFixedIsAllBig(v.props[k].value);
      }
    } else if v.PublicKey? {
      assert r.props == [Prop("_bn", BigNum(KeyNumber(v.key)))];
    }
  }

  /** A value with nothing left to convert comes back unchanged. */
  lemma {:induction false} AllBigIsFixed(v: JsValue)
    requires AllBig(v)
    ensures ToBNFixed(v) == v
    decreases v
  {
    if v.Arr? {
      var r := ToBNFixed(v);
      forall k | 0 <= k < |v.items| ensures r.items[k] == v.items[k] {
        AllBigIsFixed(v.items[k]);
      }
    } else if v.Obj? {
      var r := ToBNFixed(v);
      forall k | 0 <= k < |v.props| ensures r.props[k] == v.props[k] {
        assert v.props[k] in v.props;
        AllBigIsFixed(v.props[k].value);
      }
    }
  }

  /** Converting twice is converting once. */
  lemma ToBNFixedIdempotent(v: JsValue)
    ensures ToBNFixed(ToBNFixed(v)) == ToBNFixed(v)
  {
    ToBNFixedIsAllBig(v);
    AllBigIsFixed(ToBNFixed(v));
  }
}

=== FILE: state.dfy ===
/**
 * The account records of the Challenger program (programs/challenger/src/state):
 * `Crux`, its fee and count blocks, `UserProfile`, `Challenge`, the `Tags`
 * enum, and the fields of `Submission` that the modelled handlers read or
 * write.
 */
module State {
  import opened Types
  import Pda

  /** The version `init_crux` stamps on a new crux. */
  const LATEST_CRUX_VERSION: u16 := 0

  /** Bytes `size_of::<Crux>()` reserves (`assert_size(176)`). */
  const CRUX_SIZE: nat := 176
  /** Bytes `size_of::<UserProfile>()` reserves (`assert_size(144)`). */
  const USER_PROFILE_SIZE: nat := 144

  datatype CruxFees = CruxFees(profileFee: u64, submissionFee: u64)

  datatype CruxCounts = CruxCounts(profileCount: u64, challengeCount: u64, submissionCount: u64)

  datatype Crux = Crux(
    version: u16,
    cruxManager: Pubkey,
    cruxAuthority: Pubkey,
    cruxAuthoritySeed: Pubkey,
    cruxAuthorityBumpSeed: byte,   // `[u8; 1]`
    cruxTreasury: Pubkey,
    cruxFees: CruxFees,
    cruxCounts: CruxCounts)

  datatype UserProfile = UserProfile(
    profileOwner: Pubkey,
    crux: Pubkey,
    profileCreatedTs: u64,
    mostRecentEngagementTs: u64,
    challengesSubmitted: u64,
    challengesCompleted: u64,
    reputationScore: u64,
    nftPfpTokenMint: Pubkey,
    isModerator: bool)

  /** The program's `Tags` enum, in declaration order (its Borsh discriminant
      is the position). */
  datatype Tag =
    | ArtificialIntelligence
    | CryptoInfrastructure
    | DaosAndNetworkStates
    | DataAndAnalytics
    | Development
    | FinanceAndPayments
    | GamingAndEntertainment
    | Ideas
    | MobileConsumerApps
    | Nfts
    | PhysicalInfrastructureNetworks
    | Social

  /** A `Vec<Tags>`; Borsh writes its length as a u32. */
  type TagList = s: seq<Tag> | |s| <= U32_MAX

  datatype Challenge = Challenge(
    crux: Pubkey,
    challengeSeed: Pubkey,
    challengePostedTs: u64,
    challengeExpiresTs: u64,
    tags: TagList,
    title: BStr,
    contentDataUrl: BStr,
    contentDataHash: Pubkey,
    reputation: u64)

  datatype SubmissionState = Completed | Rejected | Pending

  /** The fields of `Submission` that the modelled code reads or writes; the
      struct's declaration is not part of this model. */
  datatype Submission = Submission(
    challenge: Pubkey,
    userProfile: Pubkey,
    mostRecentEngagementTs: u64,
    contentDataUrl: BStr,
    contentDataHash: Pubkey,
    submissionState: SubmissionState)

  /** `Crux::crux_seeds`: the signer seeds of the crux authority. */
  function CruxSeeds(c: Crux): seq<seq<byte>>
  {
    [c.cruxAuthoritySeed, [c.cruxAuthorityBumpSeed]]
  }

  /** The authority recorded in a crux is the derivation from its authority
      seed, with the bump recorded beside it; `init_crux` establishes this. */
  ghost predicate AuthorityConsistent(d: Pda.Deriver, c: Crux)
  {
    Pda.Derive(d, Pda.AuthorityOf(c.cruxAuthoritySeed)) == Some(Pda.Derived(c.cruxAuthority, c.cruxAuthorityBumpSeed))
  }

  /** With a consistent crux, `crux_seeds` is a valid signer-seed list for
      exactly the recorded authority: `create_program_address` over the two
      seeds gives `crux_authority`. */
  lemma CruxSeedsSignForAuthority(d: Pda.Deriver, c: Crux)
    requires AuthorityConsistent(d, c)
    ensures Pda.CreateProgramAddress(d, CruxSeeds(c)) == Some(c.cruxAuthority)
  {
    Pda.DerivedIsCanonical(d, Pda.AuthorityOf(c.cruxAuthoritySeed));
    assert Pda.CruxAuthoritySeeds(c.cruxAuthoritySeed) + [[c.cruxAuthorityBumpSeed]] == CruxSeeds(c);
  }
}

=== FILE: surface.dfy ===
/**
 * The instruction surface of the program (programs/challenger/src/lib.rs):
 * the parameter list of every entry point, and the arguments each one
 * forwards to its handler. Every `_bump_*` parameter is received and dropped;
 * the rest are passed on in the order written.
 */
module Surface {
  import opened Types
  import opened State

  /** Whose bump a `_bump_*` parameter carries. */
  datatype BumpOf =
    | AuthorityBump          // _bump_crux_auth
    | TreasuryBump           // _bump_treasury
    | ProfileBump            // _bump_user_profile
    | ModeratorProfileBump   // _bump_moderator_profile
    | ChallengeBump          // _bump_challenge
    | SubmissionBump         // _bump_submission

  /** The type of one instruction parameter. */
  datatype Param = Bump(of: BumpOf) | FeesParam | TagsParam | StrParam | U64Param | StateParam

  /** One instruction argument as the client supplies it. */
  datatype Arg =
    | U8Arg(b: byte)
    | FeesArg(fees: CruxFees)
    | TagsArg(tags: seq<Tag>)
    | StrArg(s: seq<byte>)
    | U64Arg(n: int)
    | StateArg(state: SubmissionState)

  datatype EntryPoint =
    | InitCrux | UpdateCruxParams | PayoutFromTreasury | CloseCrux
    | CreateUserProfile | EditUserProfile | DeleteUserProfile
    | AddModerator | RemoveModerator
    | CreateChallenge | EditChallenge | DeleteChallenge
    | CreateSubmission | EditSubmission | DeleteSubmission
    | DeleteSubmissionModerator | EvaluateSubmission
    | CloseAccount

  /** The parameters of each entry point after the context. */
  function Params(e: EntryPoint): seq<Param>
  {
    match e
    case InitCrux => [Bump(AuthorityBump), FeesParam]
    case UpdateCruxParams => [FeesParam]
    case PayoutFromTreasury => [Bump(TreasuryBump)]
    case CloseCrux => [Bump(TreasuryBump)]
    case CreateUserProfile => [Bump(TreasuryBump)]
    case EditUserProfile => [Bump(ProfileBump)]
    case DeleteUserProfile => [Bump(ProfileBump)]
    case AddModerator => [Bump(ProfileBump)]
    case RemoveModerator => [Bump(ProfileBump)]
    case CreateChallenge => [Bump(ModeratorProfileBump), TagsParam, StrParam, StrParam, U64Param, U64Param]
    case EditChallenge => [Bump(ModeratorProfileBump), Bump(ChallengeBump), TagsParam, StrParam, StrParam, U64Param, U64Param]
    case DeleteChallenge => [Bump(ModeratorProfileBump), Bump(ChallengeBump)]
    case CreateSubmission => [Bump(TreasuryBump), Bump(ProfileBump), Bump(ChallengeBump)]
    case EditSubmission => [Bump(ProfileBump), Bump(ChallengeBump), Bump(SubmissionBump)]
    case DeleteSubmission => [Bump(ProfileBump), Bump(ChallengeBump), Bump(SubmissionBump)]
    case DeleteSubmissionModerator => [Bump(ProfileBump), Bump(ChallengeBump), Bump(SubmissionBump)]
    case EvaluateSubmission => [Bump(ModeratorProfileBump), Bump(ProfileBump), Bump(ChallengeBump), Bump(SubmissionBump), StateParam]
    case CloseAccount => []
  }

  /** Whether an argument can be deserialized as a parameter. */
  predicate Fits(a: Arg, p: Param)
  {
    match p
    case Bump(_) => a.U8Arg?
    case FeesParam => a.FeesArg?
    case TagsParam => a.TagsArg? && |a.tags| <= U32_MAX
    case StrParam => a.StrArg? && |a.s| <= U32_MAX
    case U64Param => a.U64Arg? && 0 <= a.n <= U64_MAX
    case StateParam => a.StateArg?
  }

  predicate WellTyped(args: seq<Arg>, ps: seq<Param>)
  {
    |args| == |ps| && forall i :: 0 <= i < |args| ==> Fits(args[i], ps[i])
  }

  /** The positions of the parameters each entry point passes to its
      handler, in the order of the call. */
  function Forwarded(e: EntryPoint): seq<nat>
  {
    match e
    case InitCrux => [1]
    case UpdateCruxParams => [0]
    case CreateChallenge => [1, 2, 3, 4, 5]
    case EditChallenge => [2, 3, 4, 5, 6]
    case EvaluateSubmission => [4]
    case _ => []
  }

  /** Every entry point drops exactly its bump parameters: it forwards each
      of the others once, in the order declared. */
  lemma ForwardsExactlyNonBumps(e: EntryPoint)
    ensures forall i :: 0 <= i < |Forwarded(e)| ==> Forwarded(e)[i] < |Params(e)|
    ensures forall i :: 0 <= i < |Params(e)| ==> (!Params(e)[i].Bump? <==> i in Forwarded(e))
    ensures forall i, j :: 0 <= i < j < |Forwarded(e)| ==> Forwarded(e)[i] < Forwarded(e)[j]
  {
    match e
    case InitCrux =>
    case UpdateCruxParams =>
    case PayoutFromTreasury =>
    case CloseCrux =>
    case CreateUserProfile =>
    case EditUserProfile =>
    case DeleteUserProfile =>
    case AddModerator =>
    case RemoveModerator =>
    case CreateChallenge =>
    case EditChallenge =>
    case DeleteChallenge =>
    case CreateSubmission =>
    case EditSubmission =>
    case DeleteSubmission =>
    case DeleteSubmissionModerator =>
    case EvaluateSubmission =>
    case CloseAccount =>
  }

  /** The elements of `xs` at the positions `idx`, in the order of `idx`. */
  function Pick<T>(xs: seq<T>, idx: seq<nat>): (r: seq<T>)
    requires forall i :: 0 <= i < |idx| ==> idx[i] < |xs|
    ensures |r| == |idx| && forall i :: 0 <= i < |idx| ==> r[i] == xs[idx[i]]
  {
    if idx == [] then [] else [xs[idx[0]]] + Pick(xs, idx[1..])
  }

  /** The arguments the handler receives: no bump among them. */
  function HandlerArgs(e: EntryPoint, args: seq<Arg>): (r: seq<Arg>)
    requires WellTyped(args, Params(e))
    ensures |r| == |Forwarded(e)|
    ensures forall i :: 0 <= i < |r| ==> !r[i].U8Arg?
  {
    ForwardsExactlyNonBumps(e);
    Pick(args, Forwarded(e))
  }

  /** The parameter types of the forwarded arguments, in call order. */
  function ForwardedParams(e: EntryPoint): seq<Param>
  {
    ForwardsExactlyNonBumps(e);
    Pick(Params(e), Forwarded(e))
  }

  /** The parameters of the handlers whose code is part of this model (the
      others' signatures are not), as their `handler` functions declare them. */
  function HandlerParams(e: EntryPoint): Option<seq<Param>>
  {
    match e
    case InitCrux => Some([FeesParam])
    case UpdateCruxParams => Some([FeesParam])
    case PayoutFromTreasury => Some([])
    case CloseCrux => Some([])
    case CreateUserProfile => Some([])
    case EditUserProfile => Some([])
    case DeleteUserProfile => Some([])
    case AddModerator => Some([])
    case EditChallenge => Some([StrParam, StrParam, TagsParam, U64Param, U64Param])
    case DeleteChallenge => Some([])
    case EditSubmission => Some([StrParam])
    case DeleteSubmission => Some([])
    case _ => None
  }

  /** Apart from `edit_challenge` and `edit_submission`, each visible handler
      receives exactly the parameter types it declares. */
  lemma ForwardingAgreesWithHandlers(e: EntryPoint)
    requires HandlerParams(e).Some? && e != EditChallenge && e != EditSubmission
    ensures ForwardedParams(e) == HandlerParams(e).value
  {
    if e == InitCrux || e == UpdateCruxParams {
      assert ForwardedParams(e) == [FeesParam];
    } else {
      assert Forwarded(e) == [] && HandlerParams(e) == Some([]);
    }
  }

  /** As written, `edit_challenge` passes the tags where its handler takes
      the title: the call does not type-check. */
  lemma EditChallengeArgumentOrder(args: seq<Arg>)
    requires WellTyped(args, Params(EditChallenge))
    ensures ForwardedParams(EditChallenge) == [TagsParam, StrParam, StrParam, U64Param, U64Param]
    ensures ForwardedParams(EditChallenge) != HandlerParams(EditChallenge).value
    ensures !Fits(HandlerArgs(EditChallenge, args)[0], HandlerParams(EditChallenge).value[0])
  {
    assert Fits(args[2], TagsParam);
  }

  /** As written, `edit_submission` passes no argument to a handler that
      takes the new content URL. */
  lemma EditSubmissionMissingUrl()
    ensures ForwardedParams(EditSubmission) == []
    ensures HandlerParams(EditSubmission) == Some([StrParam])
  {
  }

  // ------------------------------------------------ the evidently intended surface

  /** The parameter lists with `edit_submission` taking the new content URL
      after its bumps. */
  function ParamsFixed(e: EntryPoint): seq<Param>
  {
    if e == EditSubmission then Params(e) + [StrParam] else Params(e)
  }

  /** The forwarding with `edit_challenge` passing title, URL, tags, expiry
      and reputation in the handler's order, and `edit_submission` passing
      the URL. */
  function ForwardedFixed(e: EntryPoint): seq<nat>
  {
    match e
    case EditChallenge => [3, 4, 2, 5, 6]
    case EditSubmission => [3]
    case _ => Forwarded(e)
  }

  function ForwardedParamsFixed(e: EntryPoint): seq<Param>
    requires forall i :: 0 <= i < |ForwardedFixed(e)| ==> ForwardedFixed(e)[i] < |ParamsFixed(e)|
  {
    Pick(ParamsFixed(e), ForwardedFixed(e))
  }

  /** With the corrected surface every visible handler receives exactly the
      parameter types it declares, and still no bump. */
  lemma FixedForwardingAgreesWithHandlers(e: EntryPoint)
    requires HandlerParams(e).Some?
    ensures forall i :: 0 <= i < |ForwardedFixed(e)| ==> ForwardedFixed(e)[i] < |ParamsFixed(e)|
    ensures ForwardedParamsFixed(e) == HandlerParams(e).value
    ensures forall i :: 0 <= i < |ForwardedFixed(e)| ==> !ParamsFixed(e)[ForwardedFixed(e)[i]].Bump?
  {
    if e == EditChallenge {
      assert ForwardedParamsFixed(e) == [StrParam, StrParam, TagsParam, U64Param, U64Param];
    } else if e == EditSubmission {
      assert ForwardedParamsFixed(e) == [StrParam];
    } else if e == InitCrux || e == UpdateCruxParams {
      assert ForwardedParamsFixed(e) == [FeesParam];
    } else {
      assert ForwardedFixed(e) == [] && HandlerParams(e) == Some([]);
    }
  }
}

=== FILE: types.dfy ===
/**
 * Shared vocabulary of the Challenger model: bytes, 32-byte keys, the
 * fixed-width integers of the on-chain program, failure-compatible result
 * types, the program's error codes and its checked arithmetic.
 */
module Types {

  type byte = x: int | 0 <= x < 256

  /** A 32-byte public key (`Pubkey` in Rust, `PublicKey` in TypeScript). */
  type Pubkey = s: seq<byte> | |s| == 32 witness ZeroBytes(32)

  const U16_MAX: nat := 0xFFFF
  const U32_MAX: nat := 0xFFFF_FFFF
  const U64_MAX: nat := 0xFFFF_FFFF_FFFF_FFFF

  type u16 = n: nat | n <= U16_MAX
  type u64 = n: nat | n <= U64_MAX

  /** A Rust `String` as its UTF-8 bytes; `len()` is the byte count. Borsh
      writes its length as a u32, so it is bounded by that. */
  type BStr = s: seq<byte> | |s| <= U32_MAX

  function ZeroBytes(n: nat): (r: seq<byte>)
    ensures |r| == n && forall i :: 0 <= i < n ==> r[i] == 0
  {
    seq(n, i => 0)
  }

  /** The all-zero key: the default value of a `Pubkey` field of a freshly
      initialised account. */
  const ZERO_KEY: Pubkey := ZeroBytes(32)

  /** The bytes of an ASCII literal such as `b"treasury"`. */
  function Ascii(s: string): (r: seq<byte>)
    requires forall i :: 0 <= i < |s| ==> s[i] as int < 128
    ensures |r| == |s|
    ensures forall i :: 0 <= i < |s| ==> r[i] == s[i] as int
  {
    seq(|s|, i requires 0 <= i < |s| => s[i] as int)
  }

  datatype Option<+T> = None | Some(value: T)

  datatype Result<+T, +E> = Ok(value: T) | Err(error: E) {
    predicate IsFailure() { Err? }

    function PropagateFailure<U>(): Result<U, E>
      requires Err?
    {
      Err(error)
    }

    function Extract(): T
      requires Ok?
    {
      value
    }
  }

  /** Error codes the handlers return (prog_common::errors::ErrorCode and
      the forum program's codes), plus the ways the runtime or a
      library aborts an instruction in the handlers modelled here. */
  datatype ErrorCode =
    | NotAllCruxPDAsClosed
    | ProfileIsNotModerator
    | InvalidStringInput
    | TitleOrUrlTooLong
    | InvalidExpiryTs
    | ChallengeExpired
    | AccountCannotBeEdited
    | InvalidStringInputs
    | TitleTooLong
    /** `try_add`/`try_sub` left the u64 range */
    | ArithmeticError
    /** `assert_eq!` panicked */
    | AssertionFailed
    /** `find_program_address` found no off-curve bump and panicked */
    | NoViableBump
    /** a system-program transfer from an account holding too few lamports */
    | InsufficientFunds
    /** the runtime's check that an instruction keeps the lamport total */
    | UnbalancedLamports
    /** Anchor's `init` on an account that is already allocated */
    | AccountAlreadyInUse
    /** `realloc` beyond the per-instruction growth limit */
    | InvalidRealloc

  /** `TryAdd::try_add` on u64. */
  function TryAdd(a: u64, b: u64): (r: Result<u64, ErrorCode>)
    ensures r.Ok? <==> a + b <= U64_MAX
    ensures r.Ok? ==> r.value == a + b
    ensures r.Err? ==> r.error == ArithmeticError
  {
    if a + b <= U64_MAX then Ok(a + b) else Err(ArithmeticError)
  }

  /** `TrySub::try_sub` on u64. */
  function TrySub(a: u64, b: u64): (r: Result<u64, ErrorCode>)
    ensures r.Ok? <==> b <= a
    ensures r.Ok? ==> r.value + b == a
    ensures r.Err? ==> r.error == ArithmeticError
  {
    if b <= a then Ok(a - b) else Err(ArithmeticError)
  }
}

=== FILE: update_crux_params.dfy ===
/**
 * `update_crux_params` (programs/challenger/src/instructions/update_crux_params.rs):
 * the crux manager replaces the crux fees.
 */
module UpdateCruxParamsHandler {
  import opened Types
  import opened State
  import opened Accounts
  import Pda

  /** The crux with new fees: the fees are the new ones and every other
      field is as it was. */
  function WithFees(c: Crux, fees: CruxFees): (r: Crux)
    ensures r.cruxFees == fees
    ensures r.(cruxFees := c.cruxFees) == c
  {
    c.(cruxFees := fees)
  }

  /** Changing the fees keeps the recorded authority valid. */
  lemma WithFeesKeepsAuthority(d: Pda.Deriver, c: Crux, fees: CruxFees)
    requires AuthorityConsistent(d, c)
    ensures AuthorityConsistent(d, WithFees(c, fees))
  {
  }

  /** Updating twice is updating once with the later fees. */
  lemma WithFeesLastWins(c: Crux, f1: CruxFees, f2: CruxFees)
    ensures WithFees(WithFees(c, f1), f2) == WithFees(c, f2)
  {
  }

  /** The instruction: `has_one = crux_manager` demands that the signer be
      the crux's manager. */
  method Handler(crux: Account<Crux>, managerKey: Pubkey, fees: CruxFees)
    requires crux.live && crux.data.cruxManager == managerKey
    modifies crux
    ensures crux.View() == old(crux.View()).(data := WithFees(old(crux.data), fees))
  {
    crux.data := crux.data.(cruxFees := fees);
  }
}
